=== FILE: README.md ===
# snakia in Dafny

A model of the core of snakia, a Python toolkit for small games and terminal programs.
Each Dafny module models one file of the library:

- **Registry (`System`)**: an entity–component registry. It keeps two maps in step: component type → entity ids, and entity → components. Ids come from a counter that only grows. Deletion is deferred until the next `update`. Processors are kept in an order that respects their `before`/`after` declarations.
- **Dispatcher**: a FIFO event queue with per-type subscriber lists. Each list is sorted by descending priority. A cursor walks the list, and handlers steer it with `Action`s.
- **Health processor**: the example plugin's `HealthProcessor`, which heals, damages and kills entities in the registry.
- **Small value types and codecs**: `Version`, `Color`, `IntField`, `BoolField`, the rejection sampling and shuffle of `Random`, `PlatformOS.resolve` and the os-release parser of the Linux layer.
- **Terminal UI**: the text `Canvas` and its `CanvasChar` cells, the text, box and split widgets, and the plain-text and ANSI renderers.

A few helper modules hold what several files share: `Wrappers` (Option and Result), `Numerals` and `Texts` (decimal and hexadecimal text, splitting and joining), `ByteCodec` (little-endian bytes and bit lengths of integers), and `Lists` (Python's `list.remove`, used by both the registry and the dispatcher).

The model takes the source's own form:

- Pure code becomes datatypes, functions and lemmas.
- Code that updates state in place becomes classes whose methods change their fields, with loops, invariants and `modifies` frames. This covers `System`, `Dispatcher`, `Event`, `Random`, `Canvas` and the renderers.
- Each method is proved against a specification function, and the lemmas beside it state what the library promises about that function.

Callers and the outside world become parameters:

- Handlers, filters and processors are identified by values. What they do is given as functions.
- The random source is a stream of draws.
- The render target is the sequence of writes made to it.
- A widget's children are the canvases they rendered.

## Model

| member | source | states |
|---|---|---|
| Actions.NextCursor | src/snakia/core/es/dispatcher.py:103-107 | the next cursor is i + 1 after a handler returning nothing; after an action it is i + move when that lies in [0, len], 0 when i + move is negative and len when it is past the end; from a cursor inside the list it never leaves [0, len] |
| Actions.Default | src/snakia/core/es/action.py:7 | a default action moves the cursor exactly as returning nothing does |
| Actions.Stop | src/snakia/core/es/action.py:9-12 | stop() ends the walk from cursor i exactly when len <= i + 256 |
| Actions.GoStart | src/snakia/core/es/action.py:14-17 | go_start() returns the cursor to the first subscriber exactly when i <= 256 |
| Actions.Next | src/snakia/core/es/action.py:19-22 | next(count) moves count subscribers forward while the target is in range |
| Actions.Prev | src/snakia/core/es/action.py:24-27 | prev(count) moves count subscribers back while the target is in range |
| Actions.Skip | src/snakia/core/es/action.py:29-36 | skip(count) lands count + 1 further on, bypassing the count following subscribers |
| Events.CheckTtl | src/snakia/core/es/event.py:9 | the ge=0 validator accepts exactly the non-negative ttl values, unchanged, and refuses the rest with a validation error |
| Events.Create | src/snakia/core/es/event.py:8-9 | constructing an event succeeds exactly for ttl >= 0 (default 64) and keeps the class, MRO, payload and ttl given |
| Events.Event.constructor | src/snakia/core/es/event.py:8-9 | a validated event holds the class, MRO, fields and ttl given |
| Events.Event.ReduceTtl | src/snakia/core/es/event.py:11-13 | reduce_ttl lowers ttl by exactly one, with no lower bound |
| BoolField.Serialize | src/snakia/field/bool.py:5-6 | one byte, 0x01 exactly for true and 0x00 exactly for false |
| BoolField.Deserialize | src/snakia/field/bool.py:8-9 | true exactly for the bytes that serialize(True) produces, false for every other input, b"\x00" and the empty input included |
| BoolField.RoundTrip | src/snakia/field/bool.py:5-9 | decoding an encoded boolean gives it back |
| BoolField.Canonical | src/snakia/field/bool.py:5-9 | re-encoding a decoded input gives it back exactly for [0x00] and [0x01] |
| BoolField.OtherInputsAreFalse | src/snakia/field/bool.py:9 | no bytes, [0x02] and [0x01, 0x00] all read as false |
| ByteCodec.BitLength | src/snakia/field/int.py:6 | bit_length is 0 only for 0, and v lies in [2^(k-1), 2^k) |
| ByteCodec.ToBytes | src/snakia/field/int.py:7 | to_bytes(n, "little") succeeds exactly for 0 <= v < 256^n, gives n bytes that read back as v, and otherwise raises OverflowError |
| ByteCodec.FromLittleEndian | src/snakia/field/int.py:10 | from_bytes(b, "little") is below 256^len(b) |
| ByteCodec.LittleEndianDigits | src/snakia/field/int.py:7 | byte i of the little-endian encoding is (v >> 8i) & 0xFF |
| ByteCodec.LittleEndianRoundTrip | src/snakia/field/int.py:5-10 | reading back the n-byte encoding of a value that fits gives the value |
| ByteCodec.FromLittleEndianRoundTrip | src/snakia/field/int.py:5-10 | encoding what n bytes read as, in n bytes, gives the bytes back |
| ByteCodec.ByteLengthBounds | src/snakia/field/int.py:6 | (bit_length + 7) // 8 bytes hold v, and a positive v needs every one of them |
| ByteCodec.ByteLengthUnique | src/snakia/field/int.py:6 | the byte count is the only n with 256^(n-1) <= v < 256^n |
| IntField.Deserialize | src/snakia/field/int.py:9-10 | the unsigned little-endian value is below 256^len, and no bytes read as 0 |
| IntField.Serialize | src/snakia/field/int.py:5-7 | succeeds exactly for v >= 0, with (bit_length + 7) // 8 bytes that read back as v; a negative value raises OverflowError |
| IntField.ZeroIsEmpty | src/snakia/field/int.py:6-7 | 0 is written as no bytes |
| IntField.SerializeDigits | src/snakia/field/int.py:7 | byte i of the encoding is (v >> 8i) & 0xFF |
| IntField.SerializeIsMinimal | src/snakia/field/int.py:6-7 | the last byte of a positive value's encoding is never zero |
| IntField.SerializeDeserialize | src/snakia/field/int.py:5-10 | re-encoding decoded bytes gives them back exactly when they are empty or do not end in a zero byte |
| Colors.Mask | src/snakia/types/color.py:17-29 | value & 0xFF is the byte congruent to value modulo 256, negatives included |
| Colors.MaskIsResidue | src/snakia/types/color.py:17-29 | the masked value is the only byte congruent to value modulo 256 |
| Colors.New | src/snakia/types/color.py:11-29 | the constructor masks r, g and b and keeps alpha as given |
| Colors.FromRgb | src/snakia/types/color.py:65-79 | from_rgb masks each of r, g and b to a byte and keeps alpha as given, so in-range channels come back unchanged |
| Colors.FromRgbOpaque | src/snakia/types/color.py:65-79 | without an alpha argument the colour is opaque, alpha 255 |
| Colors.NewOfChannels | src/snakia/types/color.py:11-29 | constructing from a colour's own channels gives the colour back |
| Colors.Hex | src/snakia/types/color.py:31-34 | for a byte alpha, hex is "#" and eight hex digits |
| Colors.HexIsNibbles | src/snakia/types/color.py:31-34 | hex prints r, g, b and a as two lower-case hex digits each, high digit first |
| Colors.AddSubInverse | src/snakia/types/color.py:81-95 | subtracting the colour just added gives the first colour back |
| Colors.AddCommutes | src/snakia/types/color.py:81-87 | + is commutative |
| Colors.StripHashes | src/snakia/types/color.py:57 | lstrip("#") removes a prefix and leaves text that does not start with '#' |
| Colors.StripOneHash | src/snakia/types/color.py:57 | stripping stops at the first character that is not '#' |
| Colors.Slice | src/snakia/types/color.py:59-62 | a Python slice clamps its bounds to the text |
| Colors.FromHex | src/snakia/types/color.py:46-63 | from_hex as written fails when fewer than six characters remain after stripping, because int("", 16) raises; its value on six to eight characters and on nine or more, alpha included, is given by AsWrittenOnDigits, AsWrittenPairs and AsWrittenWithAlpha |
| Colors.AsWrittenOnDigits | src/snakia/types/color.py:57-63 | on "#" and six to eight hex digits, from_hex as written reads r, g, b from [1:3], [3:5] and [5:7], and alpha 255 |
| Colors.AsWrittenSix | src/snakia/types/color.py:57-63 | on six digits, from_hex as written pairs digits 1-2 and 3-4, and reads digit 5 alone as blue |
| Colors.HexRoundTripShifted | src/snakia/types/color.py:31-63 | from_hex(c.hex) as written shifts every channel by one hex digit |
| Colors.AsWrittenPairs | src/snakia/types/color.py:57-63 | on "#" and eight hex digits, from_hex as written pairs the second digit with the third, the fourth with the fifth and the sixth with the seventh, and drops the alpha digits |
| Colors.AsWrittenAlphaParts | src/snakia/types/color.py:57-63 | when nine or more characters remain after stripping and the four slices [1:3], [3:5], [5:7], [7:9] parse, from_hex as written is the colour of those four values, alpha from [7:9] |
| Colors.ParsePairIn | src/snakia/types/color.py:59-62 | a two-character slice of hex digits parses to 16 times the first digit plus the second |
| Colors.AlphaPairs | src/snakia/types/color.py:59-62 | the four pairs [1:3], [3:5], [5:7] and [7:9] of hex digits each parse to 16 times their first digit plus their second |
| Colors.AsWrittenWithAlpha | src/snakia/types/color.py:57-63 | with nine or more characters after stripping and hex digits at positions 1 to 8, from_hex as written reads r, g, b and a from the pairs (1,2), (3,4), (5,6) and (7,8); characters after the ninth are ignored |
| Colors.AlphaExampleDigits | src/snakia/types/color.py:57-63 | the stripped text 0ffeeddcc has hex digits at positions 1 to 8 whose pairs are 255, 238, 221 and 204 |
| Colors.AlphaExample | src/snakia/types/color.py:57-63 | from_hex("#0ffeeddcc") as written gives (255, 238, 221, 204) |
| Colors.HexRoundTripFails | src/snakia/types/color.py:57-63 | from_hex as written does not invert hex: #010203ff reads as (16, 32, 63, 255) |
| Colors.FromHexIntended | src/snakia/types/color.py:46-63 | the corrected parser fails when fewer than five characters remain after stripping |
| Colors.IntendedOnEightDigits | src/snakia/types/color.py:57-63 | the corrected parser reads "#" and eight hex digits as four byte pairs |
| Colors.HexRoundTripIntended | src/snakia/types/color.py:31-63 | the corrected parser inverts hex for every colour with a byte alpha |
| Colors.WhiteValue | src/snakia/types/color.py:99 | WHITE, as the library computes it, is (255, 255, 15, 255) |
| Colors.RedValue | src/snakia/types/color.py:100 | RED, as the library computes it, is (240, 0, 0, 255) |
| Colors.BlackValue | src/snakia/types/color.py:98 | BLACK is (0, 0, 0, 255) |
| Versions.TupleLessIsPrecedes | src/snakia/types/version.py:27-33 | Python's tuple order on (major, minor, patch) is the field-by-field lexicographic order |
| Versions.Compare | src/snakia/types/version.py:21-33 | compare is -1, 0 or 1, and -1 exactly when a precedes b, 1 exactly when b precedes a, 0 exactly when they are equal |
| Versions.CompareAntisymmetric | src/snakia/types/version.py:27-33 | compare(a, b) == -compare(b, a) and compare(a, a) == 0 |
| Versions.CompareTransitive | src/snakia/types/version.py:27-33 | the order compare induces is transitive |
| Versions.OperatorsAgreeWithOrder | src/snakia/types/version.py:41-99 | for two Versions, ==, <, <=, >, >= agree with the sign of compare, != negates ==, and a < b exactly when b > a |
| Versions.OperatorsFalseOnOther | src/snakia/types/version.py:41-99 | against anything that is not a Version every operator, != included, is false |
| Versions.IncompatibleOrderedByMajor | src/snakia/types/version.py:18-33 | is_compatible is symmetric, and incompatible versions are ordered by their majors alone |
| Versions.FromArgs | src/snakia/types/version.py:105-107 | from_args succeeds exactly when no part is negative, and keeps the three parts |
| Versions.FromTuple | src/snakia/types/version.py:101-103 | from_tuple succeeds exactly when no part is negative, and then gives the version with exactly those three parts; otherwise it fails with ValueError |
| Versions.ParseParts | src/snakia/types/version.py:111 | map(int, parts) succeeds exactly when every part is an integer text, and converts each in place |
| Versions.FromString | src/snakia/types/version.py:109-111 | from_string succeeds exactly when every dot-separated part is an integer and the first three are not negative; missing parts are 0 and parts beyond the third are ignored |
| Versions.StringRoundTrip | src/snakia/types/version.py:109-111 | from_string(str(v)) == v for every valid v |
| Versions.SplitFour | src/snakia/types/version.py:111 | a text of four dot-free parts joined by dots splits back into the four |
| Versions.DigitString | src/snakia/types/version.py:111 | int reads a single digit, and a minus sign before it, as that digit and its negative |
| Versions.PaddingExample | src/snakia/types/version.py:109-111 | "7" parses as 7.0.0, and the empty text is rejected |
| Versions.FourParts | src/snakia/types/version.py:109-111 | with four parts all four must be integers, and the fourth is then ignored |
| Versions.IgnoredGarbageExample | src/snakia/types/version.py:111 | "1.2.3.x" is rejected although its fourth part is not used |
| Versions.NegativePartExample | src/snakia/types/version.py:111 | "1.-2" is rejected by the ge=0 validator |
| Randomness.Swap | src/snakia/random/random.py:61 | the tuple swap exchanges positions i and j and leaves every other position alone |
| Randomness.SwapPermutes | src/snakia/random/random.py:61 | the swap keeps the multiset of elements |
| Randomness.SwapInPlace | src/snakia/random/random.py:61 | the in-place swap leaves the array holding the swapped sequence |
| Randomness.Random.constructor | src/snakia/random/random.py:10-25 | a generator over a given source of draws starts with no draws made |
| Randomness.Random.BelowFrom | src/snakia/random/random.py:32-39 | below(n) returns a value below n, after at most one draw per attempt |
| Randomness.Random.ShuffleFrom | src/snakia/random/random.py:56-62 | the shuffle keeps the length, and a sequence of at most one element is left as it is without a draw |
| Randomness.Random.ShuffleStep | src/snakia/random/random.py:59-61 | one pass of the loop: when `below(i + 1)` gives no value the shuffle stops there; when it gives j, then j <= i and the shuffle goes on from i - 1 with positions i and j swapped |
| Randomness.Random.ShufflePermutes | src/snakia/random/random.py:56-62 | the shuffle keeps the multiset of elements, so it only reorders them |
| Randomness.Random.Bits | src/snakia/random/random.py:15-17 | bits(k) returns the draw at the current position and advances the state by one draw; for a source that keeps to its range the value is below 2^k |
| Randomness.Random.Below | src/snakia/random/random.py:32-39 | the rejection loop returns what below(n) specifies and consumes exactly the draws it makes |
| Randomness.Random.Int | src/snakia/random/random.py:41-44 | int(start, end) is below(end + 1 - start) + start, and lies in [start, end] |
| Randomness.Random.Choice | src/snakia/random/random.py:51-54 | choice(seq) is the element at below(len(seq)), so an element of seq |
| Randomness.Random.Bytes | src/snakia/random/random.py:27-30 | for a source that keeps to its range, bytes(n) is n bytes whose little-endian value is bits(8n), after one draw |
| Randomness.Random.ShufflePass | src/snakia/random/random.py:59-61 | one pass in place either leaves the array and the draws where the shuffle goes on from i - 1, or stops the shuffle with the array as it was |
| Randomness.Random.Shuffle | src/snakia/random/random.py:56-62 | the Fisher-Yates loop ends with the array, the draws made and completion exactly as the shuffle specifies, so (by ShufflePermutes) with a permutation of what the array held |
| Randomness.BelowIsFirstFit | src/snakia/random/random.py:32-39 | below(n) returns the first draw of n.bit_length() bits that is below n, every earlier draw being rejected; without a fitting draw every attempt was rejected |
| Randomness.BelowNeedsPositive | src/snakia/random/random.py:34-39 | for n <= 0 every attempt is rejected, so below never returns |
| Randomness.AcceptanceAtLeastHalf | src/snakia/random/random.py:35-38 | a draw of n.bit_length() bits is below 2n, so at least half the draws are accepted |
| PlatformOs.Value | src/snakia/platform/os.py:8-15 | the members' values are 0 to 6 |
| PlatformOs.FromValue | src/snakia/platform/os.py:8-15 | PlatformOS(v) exists exactly for 0 <= v <= 6 and has value v |
| PlatformOs.ValueRoundTrip | src/snakia/platform/os.py:8-15 | every member is found again from its value |
| PlatformOs.Families | src/snakia/platform/os.py:17-25 | is_apple holds exactly for MACOS and IOS, is_linux exactly for LINUX and ANDROID, never both |
| PlatformOs.PrefixesExclusive | src/snakia/platform/os.py:33-46 | the platform classes resolve tests for cannot overlap, so the order of its checks matters only for "java" |
| PlatformOs.ResolveClasses | src/snakia/platform/os.py:28-48 | resolve gives each member exactly for its class of platform strings, and UNKNOWN for java and every unrecognised string |
| LinuxRelease.FirstEquals | src/snakia/platform/linux.py:27 | the position returned is the first '=' of the line, and none is returned only without one |
| LinuxRelease.Unquote | src/snakia/platform/linux.py:27 | matching quotes, when present, remove exactly two characters |
| LinuxRelease.Unescape | src/snakia/platform/linux.py:29-36 | unescaping never lengthens the text |
| LinuxRelease.MatchLine | src/snakia/platform/linux.py:26-32 | a matched line yields a name made of letters, digits and underscores |
| LinuxRelease.Info | src/snakia/platform/linux.py:23-37 | the dictionary always holds "ID" |
| LinuxRelease.OsRelease | src/snakia/platform/linux.py:20-37 | the loop over the lines builds the dictionary Info specifies |
| LinuxRelease.InfoIsLastValue | src/snakia/platform/linux.py:23-37 | a name is in the dictionary exactly when it is "ID" or some line assigns it, and its value is the last such line's, "linux" for an unassigned ID |
| LinuxRelease.Accessors | src/snakia/platform/linux.py:39-57 | each accessor gives the last value assigned to its key, or its own default |
| LinuxRelease.MatchAssignment | src/snakia/platform/linux.py:26-36 | NAME=text is read as NAME with the unquoted, unescaped text when NAME is a name, and is ignored otherwise |
| LinuxRelease.FirstEqualsAfterName | src/snakia/platform/linux.py:27 | in NAME=text with no '=' in NAME, the first '=' follows NAME |
| LinuxRelease.UnquoteQuoted | src/snakia/platform/linux.py:27 | a value in double or single quotes is read without them |
| LinuxRelease.UnquoteVerbatim | src/snakia/platform/linux.py:27 | a value without a matching pair of quotes around it, such as a lone quote or mismatched quotes, is read verbatim |
| LinuxRelease.UnescapeEscape | src/snakia/platform/linux.py:29-36 | unescaping undoes escaping every backslash, dollar, quote and backquote |
| LinuxRelease.LaterLineWins | src/snakia/platform/linux.py:31-36 | a later assignment to a name overrides every earlier one |
| Scheduling.AddAfterEdges | src/snakia/core/ecs/system.py:272-275 | the loops over p.after and the processors add exactly the edges q -> p for the instances q of a class p must run after |
| Scheduling.AddBeforeEdges | src/snakia/core/ecs/system.py:276-279 | the loops over p.before and the processors add exactly the edges p -> q for the instances q of a class p must run before |
| Scheduling.BuildEdges | src/snakia/core/ecs/system.py:268-279 | the graph built has exactly the edges the before/after declarations of the processors ask for |
| Scheduling.EdgesOfMembers | src/snakia/core/ecs/system.py:271-279 | an edge a -> b is added exactly when one of a and b declares the other's class in before or after |
| Scheduling.Dedupe | src/snakia/core/ecs/system.py:269-270 | the graph's nodes are the processors of the list, each once |
| Scheduling.FirstReady | src/snakia/core/ecs/system.py:280 | the node returned has no predecessor among the remaining nodes, and none is returned only when every remaining node has one |
| Scheduling.TopoSort | src/snakia/core/ecs/system.py:280 | the topological sort fails only with the cycle error |
| Scheduling.TopoSortSound | src/snakia/core/ecs/system.py:280 | a sorted result lists every node once and puts every edge forward |
| Scheduling.ReadyFirst | src/snakia/core/ecs/system.py:280 | a node with no predecessor left, placed in front of an order of the other nodes, gives an order of all of them |
| Scheduling.TopoSortComplete | src/snakia/core/ecs/system.py:280 | the sort fails only when the graph has no topological order, that is, has a cycle |
| Scheduling.SortProcessorsSpec | src/snakia/core/ecs/system.py:266-281 | _sort_processors succeeds exactly when the declarations admit an order, and then yields one |
| Scheduling.DeclarationsRespected | src/snakia/core/ecs/system.py:271-281 | after sorting, every instance of a class in p.after comes before p, and p comes before every instance of a class in p.before |
| Scheduling.SelfDependencyIsCycle | src/snakia/core/ecs/system.py:272-280 | a processor that is an instance of a class it must run after makes the sort fail |
| Ecs.Touch | src/snakia/core/ecs/system.py:39 | reading entities[e] of the default-dict adds an empty record for an unknown e and changes nothing else |
| Ecs.Discard | src/snakia/core/ecs/system.py:212-235 | discarding e from the set of type t, and deleting the type once its set is empty, removes e from t's set only and keeps every kept set non-empty |
| Ecs.FirstWins | src/snakia/core/ecs/system.py:222-226 | the record create_entity builds holds the types it held before and the types of the given components |
| Ecs.FirstComponentWins | src/snakia/core/ecs/system.py:225-226 | of several components of a type missing from the record, the first one is stored |
| Ecs.ExistingComponentKept | src/snakia/core/ecs/system.py:220-226 | a type already in the record keeps its component |
| Ecs.ComponentsIn | src/snakia/core/ecs/system.py:114-117 | the tuple of components follows the order of the types asked for |
| Lists.RemoveFirst | src/snakia/core/ecs/system.py:73 | list.remove drops exactly one element |
| Lists.RemoveFirstAt | src/snakia/core/ecs/system.py:73 | when x does not occur before a position holding it, list.remove(x) drops that position and keeps the rest in order |
| Ecs.SkipRemove | src/snakia/core/ecs/system.py:69-73 | removal while iterating never lengthens the list |
| Ecs.RemoveFirstDistinct | src/snakia/core/ecs/system.py:73 | in a list without repeats, removing x leaves the elements before and after it |
| Ecs.ScanIsSkipRemove | src/snakia/core/ecs/system.py:69-73 | on a list without repeats, the iterator that skips the element after each removal removes what SkipRemove says |
| Ecs.SkipRemoveKeeps | src/snakia/core/ecs/system.py:69-73 | every non-matching processor stays, in order, and a match stays only when it directly followed a removed one |
| Ecs.AdjacentMatches | src/snakia/core/ecs/system.py:69-73 | of two adjacent matches only the first is removed |
| Ecs.SeparatedMatchesRemoved | src/snakia/core/ecs/system.py:69-73 | when no two matches are adjacent, every match is removed |
| Ecs.System.constructor | src/snakia/core/ecs/system.py:36-42 | a new registry is empty, consistent, and counts ids from 1 |
| Ecs.System.FullReset | src/snakia/core/ecs/system.py:49-55 | full_reset empties the registry and restarts ids at 1 |
| Ecs.System.IndexMatchesRecord | src/snakia/core/ecs/system.py:30-31 | in a consistent registry, e is indexed under t exactly when e's record holds t |
| Ecs.System.GetProcessor | src/snakia/core/ecs/system.py:57-62 | get_processor returns the first processor that is an instance of the type, and None exactly when there is none |
| Ecs.System.AddProcessor | src/snakia/core/ecs/system.py:64-67 | the list becomes the sorted list with p added; on a cycle the error is raised with p left appended to the unsorted list |
| Ecs.System.RemoveProcessor | src/snakia/core/ecs/system.py:69-73 | the list becomes what the skipping iteration leaves, and on a list without repeats what SkipRemove says; nothing else changes |
| Ecs.System.GetComponents | src/snakia/core/ecs/system.py:104-118 | with at least one type, exactly the entities holding every given type, each with its components in argument order; without types, set.intersection raises TypeError |
| Ecs.System.Intersection | src/snakia/core/ecs/system.py:108-110 | the intersection of the index sets is exactly the entities whose records hold every type |
| Ecs.System.GetComponent | src/snakia/core/ecs/system.py:170-173 | exactly the entities holding type t, each with its component of that type |
| Ecs.System.GetComponentsOfEntity | src/snakia/core/ecs/system.py:158-168 | each type's component or None, in argument order; an empty record is created for an unknown entity |
| Ecs.System.GetComponentOfEntity | src/snakia/core/ecs/system.py:185-193 | the component of type t or the default; an empty record is created for an unknown entity |
| Ecs.System.AddComponent | src/snakia/core/ecs/system.py:195-199 | the entity is indexed under the component's type, and its record holds the component, replacing any of that type; consistency is kept |
| Ecs.System.HasComponent | src/snakia/core/ecs/system.py:201-203 | true exactly when the entity's record holds the type; an empty record is created for an unknown entity |
| Ecs.System.HasComponents | src/snakia/core/ecs/system.py:205-208 | true exactly when the record holds every given type |
| Ecs.System.RemoveComponent | src/snakia/core/ecs/system.py:210-215 | returns the removed component when the record held the type and raises KeyError otherwise; the entity is unindexed from that type, an emptied type is dropped, and consistency is kept |
| Ecs.System.AddIfAbsent | src/snakia/core/ecs/system.py:223-226 | one step of create_entity indexes the entity under the component's type and stores the component unless the type is present |
| Ecs.System.AddAllIfAbsent | src/snakia/core/ecs/system.py:222-226 | the loop of create_entity indexes the entity under every given type and stores the record FirstWins describes |
| Ecs.System.CreateEntity | src/snakia/core/ecs/system.py:217-227 | the new id is the counter, which then grows by one; the entity is indexed under every given type and keeps the first component of each type |
| Ecs.System.DeleteNow | src/snakia/core/ecs/system.py:231-236 | immediate deletion removes the record and every index entry of the entity, dropping emptied types |
| Ecs.System.DeleteEntity | src/snakia/core/ecs/system.py:229-242 | deletion is immediate or deferred to the dead set, and either way entity_exists is false at once |
| Ecs.System.ClearDeadEntities | src/snakia/core/ecs/system.py:261-264 | every marked entity loses its record and index entries, and the dead set is emptied |
| Ecs.System.Update | src/snakia/core/ecs/system.py:255-259 | the deferred deletions are flushed before the processors are run, in list order, and no marked entity exists any more |
| Dispatching.Insert | src/snakia/core/es/dispatcher.py:94 | insertion adds exactly the one subscriber to the multiset |
| Dispatching.InsertSorted | src/snakia/core/es/dispatcher.py:94 | inserting into a list in descending priority keeps it in descending priority, with the new subscriber or the old head in front |
| Dispatching.SortByPriority | src/snakia/core/es/dispatcher.py:94 | the sort gives a permutation of the list in descending priority |
| Dispatching.InsertKeepsPriorityOrder | src/snakia/core/es/dispatcher.py:94 | insertion puts the new subscriber ahead of the earlier ones of its priority, whose order is kept |
| Dispatching.SortIsStable | src/snakia/core/es/dispatcher.py:94 | subscribers of equal priority keep their relative order |
| Dispatching.Without | src/snakia/core/es/dispatcher.py:40-49 | unsubscribing never lengthens the list |
| Dispatching.WithoutMembers | src/snakia/core/es/dispatcher.py:44-49 | what remains is exactly the entries whose handler or priority differs, whatever their filter |
| Dispatching.WithoutAppend | src/snakia/core/es/dispatcher.py:44-49 | unsubscribing from a concatenation unsubscribes from each part, the order kept |
| Dispatching.RemoveAfterKept | src/snakia/core/es/dispatcher.py:49 | when every entry before a matching x is kept, list.remove(x) removes that x |
| Dispatching.UnsubscribeStep | src/snakia/core/es/dispatcher.py:44-49 | each pass of the loop over the copy removes the next matching entry and nothing else |
| Dispatching.Range | src/snakia/core/es/dispatcher.py:95-107 | i, i+1, ..., n-1 has n - i elements |
| Dispatching.Dispatcher.constructor | src/snakia/core/es/dispatcher.py:22-27 | a new dispatcher has no subscribers and an empty queue |
| Dispatching.Dispatcher.Walk | src/snakia/core/es/dispatcher.py:95-108 | the TTL drops by exactly one per handler call, and every call is at an index of the list |
| Dispatching.Dispatcher.Deliver | src/snakia/core/es/dispatcher.py:84-108 | delivering to the lists of an MRO never raises the TTL; what it does to the lists and the TTL is stated by DeliverFrame, FinishedDeliverList and PlainDeliver |
| Dispatching.Dispatcher.Subscribe | src/snakia/core/es/dispatcher.py:34-38 | subscribe appends to the list of exactly that class, duplicates kept, and changes nothing else |
| Dispatching.Dispatcher.On | src/snakia/core/es/dispatcher.py:51-63 | on subscribes the handler with the given filter and priority (default -1) and gives the handler back |
| Dispatching.Dispatcher.Unsubscribe | src/snakia/core/es/dispatcher.py:40-49 | the list of that class loses exactly the entries with the same handler and priority; other classes and the queue are unchanged |
| Dispatching.Dispatcher.Publish | src/snakia/core/es/dispatcher.py:65-67 | publish enqueues at the tail |
| Dispatching.Dispatcher.HandleEvent | src/snakia/core/es/dispatcher.py:92-108 | the stored list is sorted in place and stays sorted; the loop does what Walk specifies, and the event's TTL drops by the number of calls |
| Dispatching.Dispatcher.RunWalk | src/snakia/core/es/dispatcher.py:95-108 | the cursor loop ends the way Walk from cursor 0 ends: it reports completion exactly when Walk does, and leaves the event with Walk's final TTL |
| Dispatching.Dispatcher.Update | src/snakia/core/es/dispatcher.py:80-90 | with an empty queue nothing changes; otherwise the head is dequeued and delivered to the list of every Event class of its MRO, most derived first, one event object throughout: the new lists, TTL and outcome are those of Deliver, about which PlainDeliver, FinishedDeliverList and DeliverFrame state the result; every event queued behind the head keeps its TTL |
| Dispatching.PlainWalk | src/snakia/core/es/dispatcher.py:94-108 | with unfiltered subscribers whose handlers return nothing, each runs exactly once in list order and the TTL drops by the list length |
| Dispatching.EventClassesMembers | src/snakia/core/es/dispatcher.py:84-86 | the classes delivered to are exactly the classes of the MRO from k on that are Event classes |
| Dispatching.EventClassesStep | src/snakia/core/es/dispatcher.py:84-87 | the loop over the MRO adds mro[k] when it is an Event class, and with distinct classes it is not met again later |
| Dispatching.DeliverFrame | src/snakia/core/es/dispatcher.py:84-87 | the list of a class that is not an Event class of the MRO is neither created, removed nor changed by `update`, whatever the handlers do |
| Dispatching.DeliverSkipStep | src/snakia/core/es/dispatcher.py:85-86 | a base that is not an Event class is skipped: same lists, same TTL, same outcome, no call counted |
| Dispatching.DeliverEventStep | src/snakia/core/es/dispatcher.py:87-108 | at an Event class whose walk finishes, delivery goes on to the next base with that list re-sorted and the walk's final TTL |
| Dispatching.DeliverFinishedStep | src/snakia/core/es/dispatcher.py:87-108 | a delivery in which every walk finished finished the walk at each Event class and went on with that list re-sorted |
| Dispatching.FinishedDeliverList | src/snakia/core/es/dispatcher.py:84-94 | when every walk finishes, whatever the handlers return, each Event class of a distinct MRO ends with its list sorted by priority (an empty list created when it had none) and every other list is as it was |
| Dispatching.SortedSameMembers | src/snakia/core/es/dispatcher.py:94 | sorting keeps the length and the members of the list |
| Dispatching.ListAfterSort | src/snakia/core/es/dispatcher.py:84-94 | sorting one more Event class's list first and then the rest sorts the lists of all of them |
| Dispatching.EventCallsFrame | src/snakia/core/es/dispatcher.py:84-87 | the number of calls of a delivery depends only on the lists of the classes of the MRO |
| Dispatching.EventCallsStep | src/snakia/core/es/dispatcher.py:84-87 | the calls counted from an Event class are those of its list plus those of the later classes, which its re-sorting does not touch |
| Dispatching.PlainStep | src/snakia/core/es/dispatcher.py:93-94 | the sorted list of a plain Event class is as long as its list, within the fuel, and all plain |
| Dispatching.PlainListsRest | src/snakia/core/es/dispatcher.py:84-87 | with distinct classes, re-sorting the list of mro[k] leaves the lists of the later classes, and their plainness, as they were |
| Dispatching.PlainEventWalk | src/snakia/core/es/dispatcher.py:92-108 | the walk of a plain Event class's sorted list finishes, one TTL per subscriber |
| Dispatching.PlainDeliverTtl | src/snakia/core/es/dispatcher.py:84-108 | with plain subscribers and enough fuel every walk finishes and the TTL drops by the number of subscribers on the Event classes' lists |
| Dispatching.PlainDeliver | src/snakia/core/es/dispatcher.py:80-108 | with a distinct MRO, plain subscribers and enough fuel, `update` leaves exactly the subscriber lists with every Event class of the MRO sorted by priority and the others unchanged, lowers the TTL by the total number of subscribers on those lists, and finishes |
| Dispatching.RejectingFilterNeverFinishes | src/snakia/core/es/dispatcher.py:96-101 | a rejecting filter leaves the cursor and the TTL where they are, so the walk never finishes |
| Dispatching.GoStartCycles | src/snakia/core/es/action.py:14-17 | when the last of at most 257 subscribers always answers go_start, the walk never finishes |
| Dispatching.ZeroMoveRepeats | src/snakia/core/es/dispatcher.py:103-105 | a handler answering a move of 0 is called again at the same cursor |
| Dispatching.SubscribeThenUnsubscribe | src/snakia/core/es/dispatcher.py:34-49 | subscribing then unsubscribing the same entry leaves the list as unsubscribing alone does |
| HealthPlugin.DefaultHealth | examples/health_plugin.py:13-15 | HealthComponent() is 100 of 100 |
| HealthPlugin.NewDamage | examples/health_plugin.py:18-20 | DamageComponent keeps its damage and lasts one tick by default |
| HealthPlugin.NewHeal | examples/health_plugin.py:23-25 | HealComponent keeps its heal and lasts one tick by default |
| HealthPlugin.HealStep | examples/health_plugin.py:34-40 | the heal loop's effect on one record keeps every component under its own type |
| HealthPlugin.Hit | examples/health_plugin.py:44-47 | the damage step before the death check keeps every component under its own type |
| HealthPlugin.DamageStep | examples/health_plugin.py:41-50 | the damage loop's effect on one record keeps every component under its own type |
| HealthPlugin.Tick | examples/health_plugin.py:33-50 | one process call, seen from one entity, keeps every component under its own type |
| HealthPlugin.Ticks | examples/health_plugin.py:33-50 | repeated process calls keep every component under its own type |
| HealthPlugin.HealAdds | examples/health_plugin.py:34-40 | heal adds its amount to the health with no cap at max_value, and the Heal is removed exactly when its ticks run out |
| HealthPlugin.DeathRule | examples/health_plugin.py:41-50 | a death is published exactly when, after healing, the entity holds Damage and Health and the damage takes its health to 0 or below; the Health is then removed, and otherwise kept |
| HealthPlugin.OtherTypesUntouched | examples/health_plugin.py:33-50 | components of other types are never touched |
| HealthPlugin.DamageCountdown | examples/health_plugin.py:41-47 | while the health stays positive, k ticks of Damage(d, t) lower the health by k*d and leave t - k ticks |
| HealthPlugin.TwoTicksOfDamage | examples/health_plugin.py:41-47 | Health 100 with Damage(10, ticks=2) is 90 after one tick, and 80 with the Damage removed after two |
| HealthPlugin.PlayerDiesOnTenthTick | examples/health_plugin.py:80-82 | the example player is alive with health 10 after nine ticks and dies on the tenth, losing Health and Damage |
| HealthPlugin.HealEntity | examples/health_plugin.py:37-40 | the heal loop's body updates the entity's record as HealStep says and keeps the registry consistent |
| HealthPlugin.HitEntity | examples/health_plugin.py:44-47 | the damage loop's body, up to the death check, updates the record as Hit says and returns the new health |
| HealthPlugin.DamageEntity | examples/health_plugin.py:44-50 | the damage loop's body updates the record as DamageStep says and reports the death |
| HealthPlugin.DeathStep | examples/health_plugin.py:48-50 | one pass of the damage loop publishes at most one death, for the entity just damaged |
| HealthPlugin.HealLoopStep | examples/health_plugin.py:34-40 | one pass of the heal loop heals exactly the next entity |
| HealthPlugin.DamageLoopStep | examples/health_plugin.py:41-50 | one pass of the damage loop damages exactly the next entity |
| HealthPlugin.HealAll | examples/health_plugin.py:34-40 | the heal loop applies HealStep to every entity and changes no entity set |
| HealthPlugin.HealEach | examples/health_plugin.py:34-40 | the heal loop over the holders of Heal and Health heals each of them once |
| HealthPlugin.DamageAll | examples/health_plugin.py:41-50 | the damage loop applies DamageStep to every entity and publishes one death for each entity that dies, and no other |
| HealthPlugin.DamageEach | examples/health_plugin.py:41-50 | the damage loop over the holders of Damage and Health damages each once and publishes each death once |
| HealthPlugin.Process | examples/health_plugin.py:32-50 | process heals every entity before damaging any, applies Tick to every record, and publishes exactly one DeathEvent for each entity that dies |
| CanvasChars.Plain | src/snakia/core/tui/char.py:4-11 | CanvasChar(ch) holds ch with every other field at its default |
| CanvasChars.Attrs | src/snakia/core/tui/char.py:17-27 | repr lists at most the five attributes |
| CanvasChars.UnstyledRepr | src/snakia/core/tui/char.py:16-30 | the attribute list is empty exactly when no colour is set to a non-empty name and no flag is on, and repr is then the quoted character alone |
| CanvasChars.FullRepr | src/snakia/core/tui/char.py:16-30 | with everything set the attributes come in the order fg, bg, bold, italic, underline, joined by ", " in brackets right after the quoted character |
| CanvasChars.BlankRepr | src/snakia/core/tui/char.py:4-30 | CanvasChar() is a space: str gives " " and repr gives CanvasChar(' ') |
| Canvases.Styled | src/snakia/core/tui/canvas.py:131-138 | draw_text's cell for c is c with the template's colours and flags |
| Canvases.MulIsProduct | src/snakia/core/tui/canvas.py:168-169 | the row offset width*y, built by repeated addition, is the product for every sign of y |
| Canvases.RowInside | src/snakia/core/tui/canvas.py:168-169 | row y of the grid is a run of width positions inside the buffer |
| Canvases.CellInside | src/snakia/core/tui/canvas.py:168-169 | every cell of the grid has its position inside the buffer |
| Canvases.SameRow | src/snakia/core/tui/canvas.py:168-169 | a position inside row y's run, at a column inside the width, is in row y and no other |
| Canvases.IndexInjective | src/snakia/core/tui/canvas.py:168-169 | inside the width, distinct cells have distinct positions |
| Canvases.WriteOne | src/snakia/core/tui/canvas.py:45-47 | writing one position changes that cell of the grid and no other |
| Canvases.Canvas.constructor | src/snakia/core/tui/canvas.py:15-25 | negative dimensions become 0 and the buffer holds width*height cells, each the default |
| Canvases.Canvas.GetRow | src/snakia/core/tui/canvas.py:35-39 | get_row(y) is the width cells of row y, left to right |
| Canvases.Canvas.GetColumn | src/snakia/core/tui/canvas.py:41-43 | get_column(x) has one cell per row |
| Canvases.Canvas.Set | src/snakia/core/tui/canvas.py:45-47 | set changes exactly the one buffer position of (x, y) |
| Canvases.Canvas.SetRow | src/snakia/core/tui/canvas.py:49-53 | set_row writes exactly the cells of row y |
| Canvases.Canvas.SetColumn | src/snakia/core/tui/canvas.py:55-58 | set_column writes column x of every row and nothing else |
| Canvases.Canvas.SetArea | src/snakia/core/tui/canvas.py:60-70 | set_area writes exactly the positions from that of (x, y) up to that of (x + w, y + h), a run of the buffer and not a rectangle |
| Canvases.Canvas.Fill | src/snakia/core/tui/canvas.py:76-78 | fill makes every cell the value |
| Canvases.Canvas.Clear | src/snakia/core/tui/canvas.py:72-74 | clear puts every cell back to the constructor's default |
| Canvases.Canvas.DrawLineH | src/snakia/core/tui/canvas.py:80-89 | draw_line_h writes exactly the length positions from that of (x, y) on |
| Canvases.Canvas.DrawLineV | src/snakia/core/tui/canvas.py:91-100 | draw_line_v writes c at exactly the flat positions of (x, y), (x, y + 1), …, (x, y + length - 1), one row width apart, and keeps every other position; any x is accepted, as `set` only checks the flat position |
| Canvases.ColumnRunStep | src/snakia/core/tui/canvas.py:99-100 | one more step of draw_line_v's loop adds the position of (x, y + i) to the positions written |
| Canvases.ColumnRunCells | src/snakia/core/tui/canvas.py:91-100 | for a column inside the width, the positions draw_line_v writes are exactly the grid cells (x, y) to (x, y + length - 1) |
| Canvases.Canvas.LineInColumn | src/snakia/core/tui/canvas.py:91-100 | draw_line_v with the column inside the width and the rows inside the height changes exactly the cells (x, y..y + h - 1) of the grid |
| Canvases.Canvas.DrawRect | src/snakia/core/tui/canvas.py:102-117 | draw_rect (two horizontal and two vertical lines) writes exactly the border cells of the rectangle and keeps every other cell; a zero or negative width or height leaves out the lines of that length, so draw_rect(1, 0, 0, 2, c) writes columns 1 and 0 of rows 0 and 1 and an empty rectangle writes nothing |
| Canvases.Canvas.RowRun | src/snakia/core/tui/canvas.py:168-169 | a run inside row y covers exactly the cells (x..x+w-1, y) |
| Canvases.Canvas.CopyFrom | src/snakia/core/tui/canvas.py:119-123 | copy_from puts other(dx, dy) at (x + dx, y + dy) where it fits, and leaves every other cell as it was |
| Canvases.Canvas.CopyRow | src/snakia/core/tui/canvas.py:121-123 | one pass of copy_from's outer loop copies row dy of other and changes no other row |
| Canvases.Canvas.DrawText | src/snakia/core/tui/canvas.py:125-140 | draw_text puts text[i], styled like the template, at (x + i, y) while x + i < width, drops the rest, and changes no other cell |
| Canvases.Canvas.DrawFilledRect | src/snakia/core/tui/canvas.py:142-153 | draw_filled_rect writes exactly the cells of the rectangle |
| Canvases.Canvas.LineInRow | src/snakia/core/tui/canvas.py:80-89 | draw_line_h on a run inside one row (also one pass of draw_filled_rect's outer loop, lines 152-153) changes exactly the cells x to x + w - 1 of that row |
| Canvases.Canvas.GetSubcanvas | src/snakia/core/tui/canvas.py:159-166 | the w × h subcanvas holds this canvas's cell at (x + X, y + Y) where that position is valid, and the default elsewhere |
| Canvases.Canvas.SubcanvasRow | src/snakia/core/tui/canvas.py:162-165 | one pass of get_subcanvas's outer loop fills row dy of the subcanvas and changes no other row |
| Canvases.Canvas.SubcanvasCell | src/snakia/core/tui/canvas.py:164-165 | one pass of the inner loop copies cell (x + dx, y + dy) into (dx, dy) when that position is valid, and changes no other cell |
| Canvases.Canvas.SetAreaIntended | src/snakia/core/tui/canvas.py:60-70 | the corrected set_area writes exactly the w × h rectangle at (x, y), as draw_filled_rect does, and leaves every other cell |
| Canvases.AreaRunOverrunsRectangle | src/snakia/core/tui/canvas.py:69 | set_area as written covers width*h + w positions instead of w*h, and the run takes in the cell right of the rectangle's first row |
| Canvases.AreaRunExample | src/snakia/core/tui/canvas.py:69 | on a canvas 3 wide, set_area(0, 0, 1, 1) covers 4 positions, among them (1, 0) outside the 1 × 1 rectangle |
| Canvases.RowColumnAgree | src/snakia/core/tui/canvas.py:31-43 | get_row, get_column and get agree on every cell |
| TextWidgets.RenderText | src/snakia/core/tui/widgets/text.py:12-17 | the text renders as a len(text) × 1 canvas whose cell i is text[i] styled like the template, so no default cell remains |
| BoxWidgets.RenderBox | src/snakia/core/tui/widgets/box.py:8-21 | the box renders as a max(width, 0) × max(height, 0) canvas every cell of which is the fill char, "█" unstyled by default |
| HorizontalSplits.MaxHeight | src/snakia/core/tui/widgets/horizontal_split.py:28 | the result's height is the largest child height: no child exceeds it and some child has it |
| HorizontalSplits.Column | src/snakia/core/tui/widgets/horizontal_split.py:32-34 | child i's column d lands at its offset plus d, inside its band and before its splitter |
| HorizontalSplits.OffsetsIncrease | src/snakia/core/tui/widgets/horizontal_split.py:32-41 | bands and splitters come strictly left to right: every splitter precedes the bands of later children |
| HorizontalSplits.SplittersFit | src/snakia/core/tui/widgets/horizontal_split.py:23-41 | every child's band ends within total_width, and every splitter column placed (all but after the last child) lies strictly inside it |
| HorizontalSplits.BandOf | src/snakia/core/tui/widgets/horizontal_split.py:23-41 | every column of the result lies in one child's band or is the splitter right after it, and no splitter follows the last child |
| HorizontalSplits.BandsDisjoint | src/snakia/core/tui/widgets/horizontal_split.py:32-41 | a column lies in the band of at most one child |
| HorizontalSplits.Band | src/snakia/core/tui/widgets/horizontal_split.py:30-34 | the result shows the blank default below a shorter child in its band |
| HorizontalSplits.CopyChild | src/snakia/core/tui/widgets/horizontal_split.py:33-35 | copying child i into its band places that band and leaves the earlier bands and splitters, and everything after, as they were |
| HorizontalSplits.PlaceSplitter | src/snakia/core/tui/widgets/horizontal_split.py:37-41 | the splitter after child i fills its whole column and leaves every band and earlier splitter as it was |
| HorizontalSplits.RenderHorizontalSplit | src/snakia/core/tui/widgets/horizontal_split.py:17-43 | no children give a 0 × 0 canvas; otherwise the width is the summed child widths plus n - 1 and the height the largest child height, each child's cell (dx, dy) sits at its offset, the rest of a band is blank, and the column after every child but the last holds the splitter, "|" by default |
| VerticalSplits.MaxWidth | src/snakia/core/tui/widgets/vertical_split.py:23 | the result's width is the largest child width: no child exceeds it and some child has it |
| VerticalSplits.Row | src/snakia/core/tui/widgets/vertical_split.py:32-34 | child i's row d lands at its offset plus d, inside its band and before its splitter |
| VerticalSplits.OffsetsIncrease | src/snakia/core/tui/widgets/vertical_split.py:32-41 | bands and splitters come strictly top to bottom: every splitter precedes the bands of later children |
| VerticalSplits.SplittersFit | src/snakia/core/tui/widgets/vertical_split.py:23-41 | every child's band ends within total_height, and every splitter row placed (all but after the last child) lies strictly inside it |
| VerticalSplits.BandOf | src/snakia/core/tui/widgets/vertical_split.py:23-41 | every row of the result lies in one child's band or is the splitter right after it, and no splitter follows the last child |
| VerticalSplits.BandsDisjoint | src/snakia/core/tui/widgets/vertical_split.py:32-41 | a row lies in the band of at most one child |
| VerticalSplits.Band | src/snakia/core/tui/widgets/vertical_split.py:30-34 | the result shows the blank default right of a narrower child in its band |
| VerticalSplits.CopyChild | src/snakia/core/tui/widgets/vertical_split.py:33-35 | copying child i into its band places that band and leaves the earlier bands and splitters, and everything after, as they were |
| VerticalSplits.PlaceSplitter | src/snakia/core/tui/widgets/vertical_split.py:37-41 | the splitter after child i fills its whole row and leaves every band and earlier splitter as it was |
| VerticalSplits.RenderVerticalSplit | src/snakia/core/tui/widgets/vertical_split.py:17-43 | no children give a 0 × 0 canvas; otherwise the height is the summed child heights plus n - 1 and the width the largest child width, each child's cell (dx, dy) sits at its offset, the rest of a band is blank, and the row after every child but the last holds the splitter, "-" by default |
| PlainTextRenderers.Lines | src/snakia/core/tui/render/plain_text.py:5-10 | one text per row, in order, each the concatenation of that row's writes |
| PlainTextRenderers.ConcatAppend | src/snakia/core/tui/render/plain_text.py:5-10 | the target's text after two batches of writes is the first batch's text followed by the second's |
| PlainTextRenderers.RowWrites | src/snakia/core/tui/render/plain_text.py:7-9 | a row is written as one write per cell, the cells' characters left to right |
| PlainTextRenderers.ScreenWriteCount | src/snakia/core/tui/render/plain_text.py:5-10 | one render makes exactly height × (width + 1) writes |
| PlainTextRenderers.RowHasNoNewline | src/snakia/core/tui/render/plain_text.py:7-9 | a row's text holds no newline when no cell does |
| PlainTextRenderers.ScreenLines | src/snakia/core/tui/render/plain_text.py:5-10 | split at its newlines, the rendered text is the canvas's rows in order followed by one empty piece, so styling never reaches the target |
| PlainTextRenderers.PlainTextRenderer.constructor | src/snakia/core/tui/render/plain_text.py:4 | a new renderer has written nothing |
| PlainTextRenderers.PlainTextRenderer.Render | src/snakia/core/tui/render/plain_text.py:5-10 | render appends each row's cell characters and a newline after each row, top to bottom |
| PlainTextRenderers.PlainTextRenderer.RenderRow | src/snakia/core/tui/render/plain_text.py:7-9 | the inner loop appends the characters of row y, left to right |
| PlainTextRenderers.PlainTextRenderer.ClearScreen | src/snakia/core/tui/render/plain_text.py:12-13 | clear_screen writes nothing |
| PlainTextRenderers.PlainTextRenderer.HideCursor | src/snakia/core/tui/render/plain_text.py:15-16 | hide_cursor writes nothing |
| PlainTextRenderers.PlainTextRenderer.ShowCursor | src/snakia/core/tui/render/plain_text.py:18-19 | show_cursor writes nothing |
| PlainTextRenderers.PlainTextRenderer.SetCursorPosition | src/snakia/core/tui/render/plain_text.py:21-22 | set_cursor_position writes nothing |
| AnsiRenderers.ColorToAnsi | src/snakia/core/tui/render/ansi.py:44-63 | the palette index is below 16, and 7 for every name not in the table |
| AnsiRenderers.Codes | src/snakia/core/tui/render/ansi.py:27-39 | at most five SGR parameters are collected |
| AnsiRenderers.LowerIdempotent | src/snakia/core/tui/render/ansi.py:63 | lower-casing twice is lower-casing once |
| AnsiRenderers.ColorCaseInsensitive | src/snakia/core/tui/render/ansi.py:44-63 | the colour lookup ignores the case of the name |
| AnsiRenderers.AttributesIffStyled | src/snakia/core/tui/render/ansi.py:26-42 | nothing is written by _apply_attributes exactly when no flag is on and no colour is a non-empty name, the same condition under which repr shows no attributes |
| AnsiRenderers.FullCodes | src/snakia/core/tui/render/ansi.py:26-42 | with everything set the parameters come 1, 3, 4, 38;5;N, 48;5;N, joined by ';' inside ESC[ and m (section 8.3.117 of ECMA-48) |
| AnsiRenderers.CharWritesStyle | src/snakia/core/tui/render/ansi.py:16-24 | a char equal to the last one styled is written bare; any other is preceded by ESC[0m and, when it has attributes, by its SGR sequence, and becomes the last one styled |
| AnsiRenderers.SplitNumbers | src/snakia/core/tui/render/ansi.py:75 | two digit runs joined by ';' split back into the two |
| AnsiRenderers.CursorPositionParses | src/snakia/core/tui/render/ansi.py:74-75 | the cursor sequence is ESC[, row, ';', column and H, and its numbers read back as y + 1 and x + 1 (CUP, section 8.3.21 of ECMA-48) |
| AnsiRenderers.UniformRowIsPlain | src/snakia/core/tui/render/ansi.py:11-21 | a row whose cells all equal the last char styled is written exactly as the plain renderer writes it |
| AnsiRenderers.UniformScreenIsPlain | src/snakia/core/tui/render/ansi.py:9-21 | a canvas whose cells all equal the last char styled is written exactly as the plain renderer writes it, without any escape sequence |
| AnsiRenderers.RowEndsStyledAsLastCell | src/snakia/core/tui/render/ansi.py:11-20 | after a non-empty row the last char styled is the row's last cell |
| AnsiRenderers.ScreenEndsStyledAsLastCell | src/snakia/core/tui/render/ansi.py:9-20 | after rendering a non-empty canvas the renderer holds its bottom-right cell, which carries over to the next render |
| AnsiRenderers.AnsiRenderer.constructor | src/snakia/core/tui/render/ansi.py:5-7 | a new renderer has written nothing and assumes CanvasChar() as the last char styled |
| AnsiRenderers.AnsiRenderer.RenderChar | src/snakia/core/tui/render/ansi.py:16-21 | _render_char appends what CharWrites says and updates the last char styled |
| AnsiRenderers.AnsiRenderer.Render | src/snakia/core/tui/render/ansi.py:9-14 | render appends every cell's writes row by row with a newline after each row, threading the last char styled through the whole canvas |
| AnsiRenderers.AnsiRenderer.RenderRow | src/snakia/core/tui/render/ansi.py:11-13 | the inner loop appends the writes of row y's cells, left to right |
| AnsiRenderers.AnsiRenderer.RenderLine | src/snakia/core/tui/render/ansi.py:10-14 | one pass of the outer loop appends row y's writes and a newline, and what remains to be written is the rows below, from the char it leaves styled |
| AnsiRenderers.AnsiRenderer.RenderCell | src/snakia/core/tui/render/ansi.py:11-13 | one pass of the inner loop appends cell x's writes, and what remains of the row is written from the char it leaves styled |
| AnsiRenderers.RowStep | src/snakia/core/tui/render/ansi.py:11-13 | a row from cell x on is cell x's writes followed by the rest of the row, started from the char cell x leaves styled |
| AnsiRenderers.ScreenStep | src/snakia/core/tui/render/ansi.py:10-14 | the rows from y on are row y's writes, a newline, then the rows below, started from the char row y leaves styled |
| AnsiRenderers.AnsiRenderer.ClearScreen | src/snakia/core/tui/render/ansi.py:65-66 | clear_screen writes ESC[2J (ED, section 8.3.39 of ECMA-48) and keeps the style |
| AnsiRenderers.AnsiRenderer.HideCursor | src/snakia/core/tui/render/ansi.py:68-69 | hide_cursor writes ESC[?25l |
| AnsiRenderers.AnsiRenderer.ShowCursor | src/snakia/core/tui/render/ansi.py:71-72 | show_cursor writes ESC[?25h |
| AnsiRenderers.AnsiRenderer.SetCursorPosition | src/snakia/core/tui/render/ansi.py:74-75 | set_cursor_position writes ESC[{y+1};{x+1}H and keeps the style |
| Texts.Split | src/snakia/types/version.py:111 | str.split on one character always yields at least one piece |
| Texts.JoinSplit | src/snakia/types/version.py:15-16 | joining the pieces of a split with the separator gives the text back |
| Texts.SplitAtFirstSep | src/snakia/types/version.py:111 | a separator-free prefix is split off as the first piece |
| Texts.Lower | src/snakia/core/tui/render/ansi.py:63 | lower-casing keeps the length and lowers each character |
| Numerals.SignedDecimal | src/snakia/core/tui/render/ansi.py:75 | str(i) of any integer is at least one character |
| Numerals.Hex2 | src/snakia/types/color.py:34 | format(n, "02x") is at least two characters |
| Numerals.Decimal | src/snakia/types/version.py:15-16 | str(n) is a run of decimal digits without a leading zero |
| Numerals.DecimalRoundTrip | src/snakia/types/version.py:15-16 | the digits str(n) writes have the value n |
| Numerals.ParseInt | src/snakia/types/version.py:111 | int(text) succeeds exactly for an optional sign followed by digits, and is non-negative without a minus |
| Numerals.ParseDecimal | src/snakia/types/version.py:111 | int(str(n)) == n |
| Numerals.ParseHex | src/snakia/types/color.py:59-62 | int(text, 16) succeeds exactly for an optional sign followed by hexadecimal digits |
| Numerals.Hex2OfByte | src/snakia/types/color.py:34 | format(n, "02x") of a byte is two lower-case hex digits, high nibble first, that read back as n |

## Left out

- Threads and free-running loops: `System.start/stop/is_running`, `Dispatcher.start/stop/is_running`, `nolock` and the blocking form of `Dispatcher.update` (`block=True`, `task_done`) are concurrency and waiting, not logic.
- Ecs.System.Update: returns the processors to run, in order, instead of running them, because what a processor's `process` does is outside the registry.
- Ecs.System.AddProcessor: on a cycle the processor stays appended to the unsorted list, as `add_processor` does, although the registry's design asks for the previous order to be kept. The particular order networkx picks among unconstrained processors is library behaviour: the model promises some topological order, found by Kahn's algorithm.
- Ecs.System.GetComponents: the generator is modelled as the map it yields, computed when iteration starts. The order in which Python iterates a set of entity ids is not modelled.
- Ecs.System: components are values, so one component object shared by two entities, and changes made through it, are not captured. Reading the index of an unknown type does not create an empty set in the model; a missing type and an empty set read the same.
- src/snakia/core/ecs/component.py is not part of this model: component fields are taken to be updated without pydantic's `ge=0` checks.
- Dispatching.Dispatcher.Walk: a walk gets `fuel` steps and reports whether it finished, where the program can loop forever.
- Dispatching.Dispatcher.HandleEvent: handlers and filters are pure functions of the event's payload and TTL. A handler that subscribes, unsubscribes, publishes or raises while the walk runs is not modelled.
- Dispatching.Dispatcher.Update: a walk that does not finish within its fuel ends the delivery to the remaining classes of the MRO.
- HealthPlugin.Process: the `DeathEvent`s are returned as the list of entities they name, in publication order, instead of being put on a dispatcher queue. The iteration order over the entity set is left open.
- Randomness.Random.Below: at most `fuel` attempts are made where the program retries without bound; `None` reports that the fuel ran out.
- Randomness.Random.Shuffle: a `below` call that runs out of fuel stops the shuffle, reported as not completed.
- Randomness.Random.Bytes: requires a source that keeps to its range; with a `bits` that broke its promise, `to_bytes` would raise OverflowError, which is not modelled. A negative n, for which `to_bytes` raises ValueError (after whatever the concrete `bits` does with a negative bit count), is excluded by the type `nat`.
- Randomness: `float` (IEEE arithmetic), `set_state` and `get_state`, and the concrete bit sources of src/snakia/random/os.py and python.py are not part of this model. `bits` is abstract in the program: the model takes its draws from a source and asks that a draw of k bits be below 2^k (`InRange`).
- Numerals.ParseInt: accepts an optional sign and ASCII digits only. Python's `int` also accepts surrounding whitespace, underscores between digits and non-ASCII digits.
- Numerals.ParseHex: accepts an optional sign and ASCII hex digits only. Python's `int(s, 16)` also accepts whitespace, underscores and a `0x` prefix.
- Versions.FromString: inherits the narrower `int` of Numerals.ParseInt, so a part such as " 2" or "1_0" is rejected although Python accepts it.
- Colors.FromHex: inherits the narrower `int(s, 16)` of Numerals.ParseHex, so a slice such as " f" is rejected although Python accepts it.
- Texts.Lower: lowers ASCII letters only, where Python's `str.lower` is Unicode-aware, for example the Kelvin sign lowers to 'k'.
- LinuxRelease.OsRelease: takes the file's text as a parameter. Reading /etc/os-release, with the fallback to /usr/lib/os-release, is I/O.
- PlatformOs.ResolveClasses: `resolve` is a function of the platform string; reading `sys.platform` is left out.
- Canvases.Canvas: positions are not checked by the source. The model asks for what keeps a buffer index inside the list: a non-negative flat position below width*height for `get` and `set`, the same for the first and last positions of `draw_line_h` and `draw_line_v` (a column outside the width is accepted when its positions stay inside the list), lines that stay inside the canvas for `draw_rect` (a line whose length is zero or less is not drawn and needs nothing), and rectangles inside the canvas for `draw_filled_rect`. It also asks for non-negative offsets for `copy_from` and `draw_text`, and for another canvas in `copy_from`. Negative positions, which Python would read from the end of the list, are left out.
- Canvases.Canvas.GetColumn: the generator is modelled as the list it yields, with x inside the width.
- TextWidgets.RenderText, BoxWidgets.RenderBox, HorizontalSplits.RenderHorizontalSplit, VerticalSplits.RenderVerticalSplit: the widget's state cells and render caching in src/snakia/core/tui/widget.py and src/snakia/core/rx are not part of this model. The state's values are parameters, and a split's children are the canvases they rendered.
- PlainTextRenderers.PlainTextRenderer, AnsiRenderers.AnsiRenderer: the render target is the sequence of writes made to it; `RenderContext` and flushing to stdout are left out.
- Events.Event: the fields of an event other than its TTL are one payload value, and its class and MRO are given identifiers.

## Findings

| source | as written | input that shows it | evidently intended | confidence | as-written member | corrected member |
|---|---|---|---|---|---|---|
| src/snakia/types/color.py:57-63 | after stripping "#", r, g and b are read from [1:3], [3:5] and [5:7], and a from [7:9] only when 9 characters remain, so every slice starts one character too far | from_hex("#010203ff") gives (16, 32, 63, 255) instead of (1, 2, 3, 255); WHITE is (255, 255, 15, 255) | read r, g, b and a from [0:2], [2:4], [4:6] and [6:8], so that from_hex(c.hex) == c | not executed | Colors.HexRoundTripFails | Colors.HexRoundTripIntended |
| src/snakia/core/tui/canvas.py:60-70 | set_area writes the flat run from index(x, y) up to index(x + width, y + height) | on a canvas 3 wide, set_area(0, 0, 1, 1) writes four cells, (0, 0), (1, 0), (2, 0) and (0, 1), for a 1 × 1 area | write the width × height rectangle at (x, y), as draw_filled_rect does | not executed | Canvases.AreaRunOverrunsRectangle | Canvases.Canvas.SetAreaIntended |

=== FILE: action.dfy ===
/**
 * `Action`: what a handler returns to move the dispatcher's cursor
 * (src/snakia/core/es/action.py), and the cursor rule the dispatcher applies to it.
 */
module Actions {
  import opened Wrappers

  datatype Action = Action(move: int)

  /** The dispatcher's next cursor: i + move clamped to [0, len] for an action, i + 1 for none. */
  function NextCursor(i: int, len: nat, action: Option<Action>): (j: int)
    ensures 0 <= i < len ==> 0 <= j <= len
    ensures action.None? ==> j == i + 1
    ensures action.Some? && 0 <= i + action.value.move <= len ==> j == i + action.value.move
    ensures action.Some? && i + action.value.move < 0 ==> j == 0
    ensures action.Some? && i + action.value.move > len ==> j == len
  {
    match action
    case None => i + 1
    case Some(a) => if i + a.move < 0 then 0 else if i + a.move > len then len else i + a.move
  }

  /** `Action()`: moves on to the next subscriber, as returning nothing does. */
  function Default(): (a: Action)
    ensures forall i: int, len: nat :: 0 <= i < len ==> NextCursor(i, len, Some(a)) == NextCursor(i, len, None)
  {
    Action(1)
  }

  /** `stop()`: the walk ends from cursor i exactly when len <= i + 256. */
  function Stop(): (a: Action)
    ensures forall i: int, len: nat :: 0 <= i < len ==> (NextCursor(i, len, Some(a)) == len <==> len <= i + 256)
  {
    Action(256)
  }

  /** `go_start()`: goes back to the first subscriber exactly when i <= 256. */
  function GoStart(): (a: Action)
    ensures forall i: int, len: nat :: 0 <= i < len ==> (NextCursor(i, len, Some(a)) == 0 <==> i <= 256)
  {
    Action(-256)
  }

  /** `next(count=1)`: moves count subscribers forward while that stays in range. */
  function Next(count: int := 1): (a: Action)
    ensures forall i: int, len: nat :: 0 <= i + count <= len ==> NextCursor(i, len, Some(a)) == i + count
  {
    Action(count)
  }

  /** `prev(count=1)`: moves count subscribers back while that stays in range. */
  function Prev(count: int := 1): (a: Action)
    ensures forall i: int, len: nat :: 0 <= i - count <= len ==> NextCursor(i, len, Some(a)) == i - count
  {
    Action(-count)
  }

  /** `skip(count=1)`: bypasses the count following subscribers. */
  function Skip(count: int := 1): (a: Action)
    ensures forall i: int, len: nat :: 0 <= i + count + 1 <= len ==> NextCursor(i, len, Some(a)) == i + count + 1
  {
    Action(count + 1)
  }
}

=== FILE: ansi_renderer.dfy ===
/**
 * `ANSIRenderer` (src/snakia/core/tui/render/ansi.py): writes a canvas to its target row by
 * row, switching the terminal's style with SGR escape sequences only where a cell differs
 * from the last one written, and the cursor and screen escape sequences.
 */
module AnsiRenderers {
  import opened Wrappers
  import opened Numerals
  import opened Texts
  import opened CanvasChars
  import opened Canvases
  import PlainTextRenderers

  /** The escape character that starts every control sequence. */
  const Esc: char := '\U{1b}'

  /** `_reset_attributes`: SGR 0, every attribute off. */
  const Reset := [Esc] + "[0m"

  /** The colour names `_color_to_ansi` knows, with their 256-colour palette indices. */
  const ColorCodes: map<string, nat> := map[
    "black" := 0, "red" := 1, "green" := 2, "yellow" := 3,
    "blue" := 4, "magenta" := 5, "cyan" := 6, "white" := 7,
    "bright_black" := 8, "bright_red" := 9, "bright_green" := 10, "bright_yellow" := 11,
    "bright_blue" := 12, "bright_magenta" := 13, "bright_cyan" := 14, "bright_white" := 15]

  /** `_color_to_ansi(color)`: the palette index of the colour named, ignoring case; white (7)
      for a name it does not know. */
  function ColorToAnsi(color: string): (n: nat)
    ensures n < 16
    ensures Lower(color) !in ColorCodes ==> n == 7
  {
    var key := Lower(color);
    if key in ColorCodes then ColorCodes[key] else 7
  }

  /** The SGR parameters `_apply_attributes` collects: bold, italic, underline, then the
      foreground and background colours, each when it takes effect. */
  function Codes(c: CanvasChar): (codes: seq<string>)
    ensures |codes| <= 5
  {
    (if c.bold then ["1"] else [])
    + (if c.italic then ["3"] else [])
    + (if c.underline then ["4"] else [])
    + (if HasColor(c.fg) then ["38;5;" + Decimal(ColorToAnsi(c.fg.value))] else [])
    + (if HasColor(c.bg) then ["48;5;" + Decimal(ColorToAnsi(c.bg.value))] else [])
  }

  /** The SGR sequence: the parameters joined by ';' between ESC[ and m. */
  function Sgr(c: CanvasChar): string
  {
    [Esc] + "[" + Join(Codes(c), ";") + "m"
  }

  /** `_apply_attributes(c)`: one write of the SGR sequence, or none when there are no
      parameters. */
  function ApplyAttributes(c: CanvasChar): seq<string>
  {
    if Codes(c) == [] then [] else [Sgr(c)]
  }

  /** `_render_char(c)` with `current` as the last char styled: the writes made and the new
      last char. */
  function CharWrites(current: CanvasChar, c: CanvasChar): (seq<string>, CanvasChar)
  {
    if c != current then ([Reset] + ApplyAttributes(c) + [Str(c)], c) else ([Str(c)], current)
  }

  /** What `render` writes for cells x, x+1, … of row y, and the last char afterwards. */
  function RowFrom(canvas: Canvas, y: int, x: nat, current: CanvasChar): (seq<string>, CanvasChar)
    requires canvas.Valid() && 0 <= y < canvas.height
    reads canvas
    decreases canvas.width - x
  {
    if x >= canvas.width then ([], current)
    else
      var (s, next) := CharWrites(current, canvas.Get(x, y));
      var (rest, last) := RowFrom(canvas, y, x + 1, next);
      (s + rest, last)
  }

  /** What `render` writes for rows y, y+1, …, and the last char afterwards. */
  function ScreenFrom(canvas: Canvas, y: nat, current: CanvasChar): (seq<string>, CanvasChar)
    requires canvas.Valid()
    reads canvas
    decreases canvas.height - y
  {
    if y >= canvas.height then ([], current)
    else
      var (row, next) := RowFrom(canvas, y, 0, current);
      var (rest, last) := ScreenFrom(canvas, y + 1, next);
      (row + ["\n"] + rest, last)
  }

  /** `set_cursor_position(x, y)`: the 1-based row, then the 1-based column. */
  function CursorPosition(x: int, y: int): string
  {
    [Esc] + "[" + SignedDecimal(y + 1) + ";" + SignedDecimal(x + 1) + "H"
  }

  /** Lemmas */

  /** Lower-casing twice changes nothing more. */
  lemma LowerIdempotent(s: string)
    ensures Lower(Lower(s)) == Lower(s)
  {
    assert forall i :: 0 <= i < |s| ==> LowerChar(LowerChar(s[i])) == LowerChar(s[i]);
  }

  /** The colour lookup does not depend on the case of the name. */
  lemma ColorCaseInsensitive(color: string)
    ensures ColorToAnsi(Lower(color)) == ColorToAnsi(color)
  {
    LowerIdempotent(color);
  }

  /** A char's attributes are written exactly when some attribute takes effect, the same
      condition under which its repr lists attributes. */
  lemma AttributesIffStyled(c: CanvasChar)
    ensures ApplyAttributes(c) == [] <==> Unstyled(c)
    ensures Codes(c) == [] <==> Attrs(c) == []
  {
    if !Unstyled(c) {
      assert |Codes(c)| > 0;
    }
    UnstyledRepr(c);
  }

  /** With every attribute in effect the parameters come bold, italic, underline, foreground,
      background. */
  lemma FullCodes(ch: string, fg: string, bg: string)
    requires fg != "" && bg != ""
    ensures Codes(CanvasChar(ch, Some(fg), Some(bg), true, true, true)) ==
      ["1", "3", "4", "38;5;" + Decimal(ColorToAnsi(fg)), "48;5;" + Decimal(ColorToAnsi(bg))]
  {
  }

  /** A char equal to the last one styled is written bare; any other one is preceded by a
      reset, then by its attributes when it has any, and becomes the last one styled. */
  lemma CharWritesStyle(current: CanvasChar, c: CanvasChar)
    ensures CharWrites(current, c).1 == c
    ensures c == current ==> CharWrites(current, c).0 == [Str(c)]
    ensures c != current && Unstyled(c) ==> CharWrites(current, c).0 == [Reset, Str(c)]
    ensures c != current && !Unstyled(c) ==> CharWrites(current, c).0 == [Reset, Sgr(c), Str(c)]
  {
    AttributesIffStyled(c);
  }

  /** Two numbers joined by ';' split back into the two. */
  lemma SplitNumbers(row: string, col: string)
    requires AllDigits(row) && AllDigits(col)
    ensures Split(row + [';'] + col, ';') == [row, col]
  {
    assert ';' !in row by {
      assert forall i :: 0 <= i < |row| ==> IsDigit(row[i]);
    }
    assert ';' !in col by {
      assert forall i :: 0 <= i < |col| ==> IsDigit(col[i]);
    }
    SplitAtFirstSep(row, col, ';');
    SplitWithoutSep(col, ';');
  }

  /** A terminal reading the cursor sequence back finds row y + 1 and column x + 1. */
  lemma CursorPositionParses(x: nat, y: nat)
    ensures var s := CursorPosition(x, y);
      && |s| >= 3 && s[..2] == [Esc, '['] && s[|s| - 1] == 'H'
      && Split(s[2..|s| - 1], ';') == [Decimal(y + 1), Decimal(x + 1)]
      && ParseInt(Decimal(y + 1)) == Some(y + 1) && ParseInt(Decimal(x + 1)) == Some(x + 1)
  {
    var row, col := Decimal(y + 1), Decimal(x + 1);
    assert SignedDecimal(y + 1) == row && SignedDecimal(x + 1) == col;
    var middle := row + [';'] + col;
    var s := CursorPosition(x, y);
    assert s == [Esc, '['] + middle + ['H'];
    assert s[2..|s| - 1] == middle;
    SplitNumbers(row, col);
    ParseDecimal(y + 1);
    ParseDecimal(x + 1);
  }

  /** A row whose cells all equal the last char written comes out as the plain text. */
  lemma {:induction false} UniformRowIsPlain(canvas: Canvas, y: int, x: nat, current: CanvasChar)
    requires canvas.Valid() && 0 <= y < canvas.height
    requires forall X :: 0 <= X < canvas.width ==> canvas.Get(X, y) == current
    ensures RowFrom(canvas, y, x, current) == (PlainTextRenderers.RowFrom(canvas, y, x), current)
    decreases canvas.width - x
  {
    if x < canvas.width {
      UniformRowIsPlain(canvas, y, x + 1, current);
    }
  }

  /** A canvas whose cells all equal the last char written comes out without any escape
      sequence: exactly what the plain-text renderer writes. */
  lemma {:induction false} UniformScreenIsPlain(canvas: Canvas, y: nat, current: CanvasChar)
    requires canvas.Valid()
    requires forall X, Y :: 0 <= X < canvas.width && 0 <= Y < canvas.height ==> canvas.Get(X, Y) == current
    ensures ScreenFrom(canvas, y, current) == (PlainTextRenderers.ScreenFrom(canvas, y), current)
    decreases canvas.height - y
  {
    if y < canvas.height {
      UniformRowIsPlain(canvas, y, 0, current);
      UniformScreenIsPlain(canvas, y + 1, current);
    }
  }

  /** Row y from x on: cell x's writes, then the rest of the row from the char it leaves
      styled. */
  lemma RowStep(canvas: Canvas, y: int, x: nat, current: CanvasChar)
    requires canvas.Valid() && 0 <= y < canvas.height && x < canvas.width
    ensures var (s, next) := CharWrites(current, canvas.Get(x, y));
      RowFrom(canvas, y, x, current) == (s + RowFrom(canvas, y, x + 1, next).0, RowFrom(canvas, y, x + 1, next).1)
  {
  }

  /** Rows from y on: row y's writes and a newline, then the rows below from the char it
      leaves styled. */
  lemma ScreenStep(canvas: Canvas, y: nat, current: CanvasChar)
    requires canvas.Valid() && y < canvas.height
    ensures var (row, next) := RowFrom(canvas, y, 0, current);
      ScreenFrom(canvas, y, current) == (row + ["\n"] + ScreenFrom(canvas, y + 1, next).0, ScreenFrom(canvas, y + 1, next).1)
  {
  }

  /** After a non-empty row the last char styled is the row's last cell. */
  lemma {:induction false} RowEndsStyledAsLastCell(canvas: Canvas, y: int, x: nat, current: CanvasChar)
    requires canvas.Valid() && 0 <= y < canvas.height && x < canvas.width
    ensures RowFrom(canvas, y, x, current).1 == canvas.Get(canvas.width - 1, y)
    decreases canvas.width - x
  {
    if x + 1 < canvas.width {
      RowEndsStyledAsLastCell(canvas, y, x + 1, CharWrites(current, canvas.Get(x, y)).1);
    }
  }

  /** After rendering a non-empty canvas the renderer holds the style of its bottom-right
      cell, which the next `render` compares its first cell with. */
  lemma {:induction false} ScreenEndsStyledAsLastCell(canvas: Canvas, y: nat, current: CanvasChar)
    requires canvas.Valid() && 0 < canvas.width && y < canvas.height
    ensures ScreenFrom(canvas, y, current).1 == canvas.Get(canvas.width - 1, canvas.height - 1)
    decreases canvas.height - y
  {
    RowEndsStyledAsLastCell(canvas, y, 0, current);
    if y + 1 < canvas.height {
      ScreenEndsStyledAsLastCell(canvas, y + 1, RowFrom(canvas, y, 0, current).1);
    }
  }

  class AnsiRenderer {
    /** `_current_char`: the last char whose style was sent; it persists across renders. */
    var current: CanvasChar
    /** Every write made to the render target so far, in order. */
    var writes: seq<string>

    /** A fresh renderer assumes the terminal shows the default style. */
    constructor()
      ensures current == Blank && writes == []
    {
      current := Blank;
      writes := [];
    }

    /** `_render_char(c)`. */
    method RenderChar(c: CanvasChar)
      modifies this
      ensures writes == old(writes) + CharWrites(old(current), c).0
      ensures current == CharWrites(old(current), c).1
    {
      if c != current {
        writes := writes + [Reset];
        writes := writes + ApplyAttributes(c);
        current := c;
      }
      writes := writes + [Str(c)];
    }

    /** `render(canvas)`: every row's cells, each row followed by a newline. */
    method Render(canvas: Canvas)
      requires canvas.Valid()
      modifies this
      ensures writes == old(writes) + ScreenFrom(canvas, 0, old(current)).0
      ensures current == ScreenFrom(canvas, 0, old(current)).1
    {
      var y := 0;
      while y < canvas.height
        invariant 0 <= y <= canvas.height
        invariant writes + ScreenFrom(canvas, y, current).0 == old(writes) + ScreenFrom(canvas, 0, old(current)).0
        invariant ScreenFrom(canvas, y, current).1 == ScreenFrom(canvas, 0, old(current)).1
      {
        RenderLine(canvas, y);
        y := y + 1;
      }
    }

    /** One pass of the outer loop: row y and its newline, leaving the rows below to come. */
    method RenderLine(canvas: Canvas, y: nat)
      requires canvas.Valid() && y < canvas.height
      modifies this
      ensures writes + ScreenFrom(canvas, y + 1, current).0 == old(writes) + ScreenFrom(canvas, y, old(current)).0
      ensures ScreenFrom(canvas, y + 1, current).1 == ScreenFrom(canvas, y, old(current)).1
    {
      ScreenStep(canvas, y, current);
      ghost var row := RowFrom(canvas, y, 0, current).0;
      RenderRow(canvas, y);
      writes := writes + ["\n"];
      assert writes + ScreenFrom(canvas, y + 1, current).0 == old(writes) + (row + ["\n"] + ScreenFrom(canvas, y + 1, current).0);
    }

    /** The inner loop of `render`: the cells of row y. */
    method RenderRow(canvas: Canvas, y: int)
      requires canvas.Valid() && 0 <= y < canvas.height
      modifies this
      ensures writes == old(writes) + RowFrom(canvas, y, 0, old(current)).0
      ensures current == RowFrom(canvas, y, 0, old(current)).1
    {
      var x := 0;
      while x < canvas.width
        invariant 0 <= x <= canvas.width
        invariant writes + RowFrom(canvas, y, x, current).0 == old(writes) + RowFrom(canvas, y, 0, old(current)).0
        invariant RowFrom(canvas, y, x, current).1 == RowFrom(canvas, y, 0, old(current)).1
      {
        RenderCell(canvas, y, x);
        x := x + 1;
      }
    }

    /** One pass of the inner loop: cell x of row y, leaving the rest of the row to come. */
    method RenderCell(canvas: Canvas, y: int, x: nat)
      requires canvas.Valid() && 0 <= y < canvas.height && x < canvas.width
      modifies this
      ensures writes + RowFrom(canvas, y, x + 1, current).0 == old(writes) + RowFrom(canvas, y, x, old(current)).0
      ensures RowFrom(canvas, y, x + 1, current).1 == RowFrom(canvas, y, x, old(current)).1
    {
      RowStep(canvas, y, x, current);
      ghost var before := writes;
      RenderChar(canvas.Get(x, y));
      assert writes + RowFrom(canvas, y, x + 1, current).0 == before + (CharWrites(old(current), canvas.Get(x, y)).0 + RowFrom(canvas, y, x + 1, current).0);
    }

    /** `clear_screen`: erase the whole display (ED with parameter 2). */
    method ClearScreen()
      modifies this
      ensures writes == old(writes) + [[Esc] + "[2J"] && current == old(current)
    {
      writes := writes + [[Esc] + "[2J"];
    }

    /** `hide_cursor`. */
    method HideCursor()
      modifies this
      ensures writes == old(writes) + [[Esc] + "[?25l"] && current == old(current)
    {
      writes := writes + [[Esc] + "[?25l"];
    }

    /** `show_cursor`. */
    method ShowCursor()
      modifies this
      ensures writes == old(writes) + [[Esc] + "[?25h"] && current == old(current)
    {
      writes := writes + [[Esc] + "[?25h"];
    }

    /** `set_cursor_position(x, y)` (CUP). */
    method SetCursorPosition(x: int, y: int)
      modifies this
      ensures writes == old(writes) + [CursorPosition(x, y)] && current == old(current)
    {
      writes := writes + [CursorPosition(x, y)];
    }
  }
}

=== FILE: bool_field.dfy ===
/**
 * `BoolField`: a boolean stored as one byte (src/snakia/field/bool.py).
 */
module BoolField {
  import opened ByteCodec

  /** `serialize`: 0x01 for true, 0x00 for false. */
  function Serialize(value: bool): (r: seq<Byte>)
    ensures |r| == 1 && (r[0] == 1 <==> value) && (r[0] == 0 <==> !value)
  {
    if value then [1] else [0]
  }

  /** `deserialize`: true exactly for the single byte 0x01; everything else is false. */
  function Deserialize(serialized: seq<Byte>): (r: bool)
    ensures r <==> serialized == Serialize(true)
  {
    serialized == [1]
  }

  /** Decoding an encoded boolean gives it back. */
  lemma RoundTrip(value: bool)
    ensures Deserialize(Serialize(value)) == value
  {
  }

  /** Re-encoding a decoded input gives it back only for the two canonical bytes. */
  lemma Canonical(serialized: seq<Byte>)
    ensures Serialize(Deserialize(serialized)) == serialized <==> serialized == [0] || serialized == [1]
  {
  }

  /** Inputs other than [0x01], such as no bytes, [0x02] or [0x01, 0x00], read as false. */
  lemma OtherInputsAreFalse()
    ensures !Deserialize([]) && !Deserialize([2]) && !Deserialize([1, 0])
  {
  }
}

=== FILE: box_widget.dfy ===
/** `BoxWidget.on_render` (src/snakia/core/tui/widgets/box.py). */
module BoxWidgets {
  import opened CanvasChars
  import opened Canvases

  /** The default fill: a full block with the default styling. */
  const FullBlock := Plain("\U{2588}")

  /** A width × height canvas, negative sizes taken as 0, every cell the fill character. */
  method RenderBox(width: int, height: int, c: CanvasChar := FullBlock) returns (canvas: Canvas)
    ensures fresh(canvas) && canvas.Valid()
    ensures canvas.width == Clamp(width) && canvas.height == Clamp(height)
    ensures forall X, Y :: 0 <= X < canvas.width && 0 <= Y < canvas.height ==> canvas.Get(X, Y) == c
  {
    canvas := new Canvas(width, height, Blank);
    canvas.DrawFilledRect(0, 0, width, height, c);
  }
}

=== FILE: byte_codec.dfy ===
/**
 * Python's unsigned `int.to_bytes(n, "little")`, `int.from_bytes(b, "little")` and
 * `int.bit_length()` on non-negative integers.
 */
module ByteCodec {
  import opened Wrappers

  type Byte = x: int | 0 <= x < 256

  function Pow2(k: nat): (p: nat)
    ensures p >= 1
  {
    if k == 0 then 1 else 2 * Pow2(k - 1)
  }

  function Pow256(n: nat): (p: nat)
    ensures p >= 1
  {
    if n == 0 then 1 else 256 * Pow256(n - 1)
  }

  function Abs(v: int): nat { if v < 0 then -v else v }

  /** `v.bit_length()`: the number of binary digits of v, 0 for 0. */
  function BitLength(v: nat): (k: nat)
    ensures (k == 0) == (v == 0)
    ensures v < Pow2(k)
    ensures k > 0 ==> Pow2(k - 1) <= v
  {
    if v == 0 then 0 else 1 + BitLength(v / 2)
  }

  /** The n-byte little-endian digits of v, dropping what does not fit. */
  function LittleEndian(v: nat, n: nat): (b: seq<Byte>)
    ensures |b| == n
  {
    if n == 0 then [] else [v % 256] + LittleEndian(v / 256, n - 1)
  }

  /** `int.from_bytes(b, "little")`: unsigned, and 0 for no bytes. */
  function FromLittleEndian(b: seq<Byte>): (v: nat)
    ensures v < Pow256(|b|)
  {
    if b == [] then 0 else b[0] + 256 * FromLittleEndian(b[1..])
  }

  /** `v.to_bytes(n, "little")`: OverflowError for a negative v or one that needs more than n bytes. */
  function ToBytes(v: int, n: nat): (r: Result<seq<Byte>>)
    ensures r.Ok? <==> 0 <= v < Pow256(n)
    ensures r.Ok? ==> |r.value| == n && FromLittleEndian(r.value) == v
    ensures r.Err? ==> r.error == OverflowError
  {
    if v < 0 || v >= Pow256(n) then Err(OverflowError)
    else
      LittleEndianRoundTrip(v, n);
      Ok(LittleEndian(v, n))
  }

  lemma DivUnique(v: nat, d: nat, q: nat, r: nat)
    requires d > 0 && v == d * q + r && r < d
    ensures v / d == q && v % d == r
  {
    var q', r' := v / d, v % d;
    assert d * q' + r' == d * q + r;
    if q' < q {
      MulMonotone(d, q' + 1, q);
    } else if q < q' {
      MulMonotone(d, q + 1, q');
    }
  }

  lemma MulMonotone(d: nat, x: int, y: int)
    requires x <= y
    ensures d * x <= d * y
  {
    assert d * y - d * x == d * (y - x);
  }

  lemma DivDiv(v: nat, a: nat, b: nat)
    requires a > 0 && b > 0
    ensures v / a / b == v / (a * b)
  {
    var q := v / a;
    DivDivParts(v, a, b, q, v % a, q / b, q % b);
  }

  lemma DivDivParts(v: nat, a: nat, b: nat, q: nat, r: nat, q2: nat, r2: nat)
    requires a > 0 && b > 0 && v == a * q + r && r < a && q == b * q2 + r2 && r2 < b
    ensures v / (a * b) == q2
  {
    MulAddRegroup(a, b, q2, r2, r);
    RemainderBound(a, b, r2, r);
    DivUnique(v, a * b, q2, a * r2 + r);
  }

  lemma MulAddRegroup(a: int, b: int, q: int, r2: int, r: int)
    ensures a * (b * q + r2) + r == (a * b) * q + (a * r2 + r)
  {
    assert a * (b * q + r2) == a * (b * q) + a * r2;
    assert a * (b * q) == (a * b) * q;
  }

  lemma RemainderBound(a: nat, b: nat, r2: nat, r: nat)
    requires r2 < b && r < a
    ensures a * r2 + r < a * b
  {
    MulMonotone(a, r2, b - 1);
    assert a * (b - 1) == a * b - a;
  }

  /** A value with exactly one more base-256 digit than p has a non-zero top digit. */
  lemma TopDigit(v: nat, p: nat)
    requires 0 < p <= v < 256 * p
    ensures 1 <= v / p < 256
  {
    var q := v / p;
    assert v == p * q + v % p;
    if q == 0 {
    } else if q >= 256 {
      MulMonotone(p, 256, q);
    }
  }

  /** Byte i of the encoding is `(v >> 8i) & 0xFF`. */
  lemma {:induction false} LittleEndianDigits(v: nat, n: nat, i: nat)
    requires i < n
    ensures LittleEndian(v, n)[i] == (v / Pow256(i)) % 256
  {
    if i > 0 {
      var p := Pow256(i - 1);
      LittleEndianDigits(v / 256, n - 1, i - 1);
      assert LittleEndian(v, n)[i] == LittleEndian(v / 256, n - 1)[i - 1];
      DivDiv(v, 256, p);
    }
  }

  lemma {:induction false} LittleEndianRoundTrip(v: nat, n: nat)
    requires v < Pow256(n)
    ensures FromLittleEndian(LittleEndian(v, n)) == v
  {
    if n > 0 {
      assert v / 256 < Pow256(n - 1);
      LittleEndianRoundTrip(v / 256, n - 1);
      assert LittleEndian(v, n)[1..] == LittleEndian(v / 256, n - 1);
    }
  }

  lemma {:induction false} FromLittleEndianRoundTrip(b: seq<Byte>)
    ensures LittleEndian(FromLittleEndian(b), |b|) == b
  {
    if b != [] {
      FromLittleEndianRoundTrip(b[1..]);
      var v := FromLittleEndian(b);
      assert v % 256 == b[0] && v / 256 == FromLittleEndian(b[1..]);
      assert b == [b[0]] + b[1..];
    }
  }

  lemma {:induction false} Pow2Bytes(n: nat)
    ensures Pow2(8 * n) == Pow256(n)
  {
    if n > 0 {
      Pow2Bytes(n - 1);
      assert Pow2(8 * n) == 256 * Pow2(8 * (n - 1)) by {
        var k := 8 * (n - 1);
        assert Pow2(k + 8) == 2 * Pow2(k + 7) == 4 * Pow2(k + 6) == 8 * Pow2(k + 5) == 16 * Pow2(k + 4);
        assert Pow2(k + 4) == 2 * Pow2(k + 3) == 4 * Pow2(k + 2) == 8 * Pow2(k + 1) == 16 * Pow2(k);
      }
    }
  }

  lemma {:induction false} Pow2Monotone(i: nat, j: nat)
    requires i <= j
    ensures Pow2(i) <= Pow2(j)
  {
    if i < j { Pow2Monotone(i, j - 1); }
  }

  lemma {:induction false} Pow256Monotone(i: nat, j: nat)
    requires i <= j
    ensures Pow256(i) <= Pow256(j)
  {
    if i < j { Pow256Monotone(i, j - 1); }
  }

  /** The byte count of `(v.bit_length() + 7) // 8`. */
  function ByteLength(v: nat): nat
  {
    (BitLength(v) + 7) / 8
  }

  /** The byte length is the number of base-256 digits: v fits, and needs every byte for v > 0. */
  lemma ByteLengthBounds(v: nat)
    ensures v < Pow256(ByteLength(v))
    ensures v > 0 ==> ByteLength(v) > 0 && Pow256(ByteLength(v) - 1) <= v
  {
    var k, n := BitLength(v), ByteLength(v);
    assert k <= 8 * n;
    Pow2Monotone(k, 8 * n);
    Pow2Bytes(n);
    if v > 0 {
      assert 8 * (n - 1) <= k - 1;
      Pow2Monotone(8 * (n - 1), k - 1);
      Pow2Bytes(n - 1);
    }
  }

  /** Those bounds pin the byte length down. */
  lemma ByteLengthUnique(v: nat, n: nat)
    requires v < Pow256(n)
    requires n > 0 ==> Pow256(n - 1) <= v
    ensures ByteLength(v) == n
  {
    ByteLengthBounds(v);
    var m := ByteLength(v);
    if m < n {
      Pow256Monotone(m, n - 1);
    } else if m > n {
      Pow256Monotone(n, m - 1);
    }
  }
}

=== FILE: canvas.dfy ===
/**
 * `Canvas` (src/snakia/core/tui/canvas.py): a width × height grid of `CanvasChar`s stored as one
 * row-major list, cell (x, y) at position width*y + x. The source never checks positions against
 * the bounds: a position past the end of a row lands in the next row, so the operations below
 * that work on positions require only what keeps the list index inside the list.
 */
module Canvases {
  import opened CanvasChars

  /** `_get_index`: the flat position of (x, y). */
  function Index(width: nat, x: int, y: int): int
  {
    Mul(width, y) + x
  }

  /** a × b, by repeated addition, so that flat positions unfold without multiplication. */
  function Mul(a: nat, b: int): int
    decreases if b < 0 then -b else b
  {
    if b == 0 then 0 else if b > 0 then Mul(a, b - 1) + a else Mul(a, b + 1) - a
  }

  /** `max(n, 0)`, as the constructor clamps its dimensions. */
  function Clamp(n: int): nat
  {
    if n < 0 then 0 else n
  }

  /** The cell `draw_text` writes for the character c: c styled like the template. */
  function Styled(c: char, template: CanvasChar): (r: CanvasChar)
    ensures r.ch == [c]
    ensures r.fg == template.fg && r.bg == template.bg
    ensures r.bold == template.bold && r.italic == template.italic && r.underline == template.underline
  {
    template.(ch := [c])
  }

  /** Arithmetic about flat positions */

  lemma {:induction false} MulIsProduct(a: nat, b: int)
    ensures Mul(a, b) == a * b
    decreases if b < 0 then -b else b
  {
    if b > 0 {
      MulIsProduct(a, b - 1);
    } else if b < 0 {
      MulIsProduct(a, b + 1);
    }
  }

  lemma MulMono(a: nat, b: int, c: int)
    requires b <= c
    ensures Mul(a, b) <= Mul(a, c)
  {
    MulIsProduct(a, b);
    MulIsProduct(a, c);
    assert a * c - a * b == a * (c - b);
  }

  /** Row y of the grid occupies positions [width*y, width*y + width) of the buffer. */
  lemma RowInside(width: nat, height: nat, y: int)
    requires 0 <= y < height
    ensures 0 <= Index(width, 0, y) && Index(width, 0, y) + width <= width * height
  {
    MulMono(width, 0, y);
    MulMono(width, y + 1, height);
    MulIsProduct(width, height);
  }

  lemma CellInside(width: nat, height: nat, x: int, y: int)
    requires 0 <= x < width && 0 <= y < height
    ensures 0 <= Index(width, x, y) < width * height
  {
    RowInside(width, height, y);
  }

  /** A position of row y's run, given as a column inside the row width, is in row y. */
  lemma SameRow(width: nat, x: int, y: int, y': int)
    requires 0 <= x < width
    ensures Index(width, 0, y') <= Index(width, x, y) < Index(width, 0, y') + width <==> y == y'
  {
    MulIsProduct(width, y);
    MulIsProduct(width, y');
    if y < y' {
      MulMono(width, y + 1, y');
      MulIsProduct(width, y + 1);
    } else if y > y' {
      MulMono(width, y' + 1, y);
      MulIsProduct(width, y' + 1);
    }
  }

  /** Inside the row width, the flat position determines the cell. */
  lemma IndexInjective(width: nat, x: int, y: int, x': int, y': int)
    requires 0 <= x < width && 0 <= x' < width
    ensures Index(width, x, y) == Index(width, x', y') <==> x == x' && y == y'
  {
    SameRow(width, x, y, y');
  }

  /** Writing one cell of the grid changes that cell and no other. */
  lemma WriteOne(buf: seq<CanvasChar>, width: nat, height: nat, x: int, y: int, v: CanvasChar)
    requires |buf| == width * height && 0 <= x < width && 0 <= y < height
    ensures 0 <= Index(width, x, y) < |buf|
    ensures forall X, Y :: 0 <= X < width && 0 <= Y < height ==>
      0 <= Index(width, X, Y) < |buf|
      && buf[Index(width, x, y) := v][Index(width, X, Y)] == if X == x && Y == y then v else buf[Index(width, X, Y)]
  {
    CellInside(width, height, x, y);
    forall X, Y | 0 <= X < width && 0 <= Y < height
      ensures 0 <= Index(width, X, Y) < |buf|
      ensures buf[Index(width, x, y) := v][Index(width, X, Y)] == if X == x && Y == y then v else buf[Index(width, X, Y)]
    {
      CellInside(width, height, X, Y);
      IndexInjective(width, x, y, X, Y);
    }
  }

  /** The positions `draw_line_v(x, y, length, _)` sets: that of (x, Y) for every row Y from y
      up to, not including, y + length. */
  function ColumnRun(width: nat, x: int, y: int, length: int): set<int>
  {
    set Y | y <= Y < y + length :: Index(width, x, Y)
  }

  /** One more step of the line adds the position of (x, y + i). */
  lemma ColumnRunStep(width: nat, x: int, y: int, i: nat)
    ensures ColumnRun(width, x, y, i + 1) == ColumnRun(width, x, y, i) + {Index(width, x, y + i)}
  {
  }

  /** For a column inside the width, the line covers exactly the cells (x, y) to
      (x, y + length - 1) of the grid. */
  lemma ColumnRunCells(width: nat, height: nat, x: int, y: int, length: int)
    requires 0 <= x < width
    ensures forall X, Y :: 0 <= X < width && 0 <= Y < height ==>
      (Index(width, X, Y) in ColumnRun(width, x, y, length) <==> X == x && y <= Y < y + length)
  {
    forall X, Y | 0 <= X < width && 0 <= Y < height
      ensures Index(width, X, Y) in ColumnRun(width, x, y, length) <==> X == x && y <= Y < y + length
    {
      if X == x && y <= Y < y + length {
        assert Index(width, X, Y) == Index(width, x, Y);
      }
      if Index(width, X, Y) in ColumnRun(width, x, y, length) {
        var Y' :| y <= Y' < y + length && Index(width, X, Y) == Index(width, x, Y');
        IndexInjective(width, X, Y, x, Y');
      }
    }
  }

  class Canvas {
    const width: nat
    const height: nat
    const defaultValue: CanvasChar
    var buffer: seq<CanvasChar>

    /** The buffer holds width*height cells, so every cell of the grid has its place in it. */
    ghost predicate Valid()
      reads this
    {
      && |buffer| == width * height
      && forall x, y :: 0 <= x < width && 0 <= y < height ==> 0 <= Index(width, x, y) < |buffer|
    }

    /** `Canvas(width, height, default_value)`: negative dimensions become 0, every cell the
        default. */
    constructor(width: int, height: int, defaultValue: CanvasChar := Blank)
      ensures this.width == Clamp(width) && this.height == Clamp(height) && this.defaultValue == defaultValue
      ensures Valid() && |buffer| == this.width * this.height
      ensures forall k :: 0 <= k < |buffer| ==> buffer[k] == defaultValue
    {
      this.width := Clamp(width);
      this.height := Clamp(height);
      this.defaultValue := defaultValue;
      buffer := seq(Clamp(width) * Clamp(height), _ => defaultValue);
      new;
      forall x, y | 0 <= x < this.width && 0 <= y < this.height
        ensures 0 <= Index(this.width, x, y) < |buffer|
      {
        CellInside(this.width, this.height, x, y);
      }
    }

    /** `total`. */
    function Total(): nat
      reads this
    {
      width * height
    }

    /** `get(x, y)`. */
    function Get(x: int, y: int): CanvasChar
      requires Valid() && 0 <= Index(width, x, y) < |buffer|
      reads this
    {
      buffer[Index(width, x, y)]
    }

    /** `is_valid_position(x, y)`. */
    predicate IsValidPosition(x: int, y: int)
      reads this
    {
      0 <= x < width && 0 <= y < height
    }

    /** `get_row(y)`: the cells of row y, left to right. */
    function GetRow(y: int): (row: seq<CanvasChar>)
      requires Valid() && 0 <= y < height
      reads this
      ensures |row| == width && forall x :: 0 <= x < width ==> row[x] == Get(x, y)
    {
      RowInside(width, height, y);
      buffer[Index(width, 0, y)..Index(width, 0, y) + width]
    }

    /** `get_column(x)`: the cells of column x, top to bottom. */
    function GetColumn(x: int): (column: seq<CanvasChar>)
      requires Valid() && (height > 0 ==> 0 <= x < width)
      reads this
      ensures |column| == height
    {
      seq(height, (y: int) requires 0 <= y < height && Valid() && (height > 0 ==> 0 <= x < width) reads this =>
        buffer[Index(width, x, y)])
    }

    /** `set(x, y, value)`: exactly one position of the buffer changes. */
    method Set(x: int, y: int, value: CanvasChar)
      requires Valid() && 0 <= Index(width, x, y) < |buffer|
      modifies this
      ensures Valid()
      ensures buffer == old(buffer)[Index(width, x, y) := value]
    {
      buffer := buffer[Index(width, x, y) := value];
    }

    /** `set_row(y, value)`: the width cells of row y become value. */
    method SetRow(y: int, value: CanvasChar)
      requires Valid() && 0 <= y < height
      modifies this
      ensures Valid()
      ensures forall X, Y :: 0 <= X < width && 0 <= Y < height ==>
        Get(X, Y) == if Y == y then value else old(Get(X, Y))
    {
      RowInside(width, height, y);
      var start := Index(width, 0, y);
      buffer := buffer[..start] + seq(width, _ => value) + buffer[start + width..];
      forall X, Y | 0 <= X < width && 0 <= Y < height
        ensures Get(X, Y) == if Y == y then value else old(Get(X, Y))
      {
        SameRow(width, X, Y, y);
      }
    }

    /** `set_column(x, value)`: column x of every row becomes value. */
    method SetColumn(x: int, value: CanvasChar)
      requires Valid() && (height > 0 ==> 0 <= x < width)
      modifies this
      ensures Valid()
      ensures forall X, Y :: 0 <= X < width && 0 <= Y < height ==>
        Get(X, Y) == if X == x then value else old(Get(X, Y))
    {
      var y := 0;
      while y < height
        invariant 0 <= y <= height && Valid()
        invariant forall X, Y :: 0 <= X < width && 0 <= Y < height ==>
          Get(X, Y) == if X == x && Y < y then value else old(Get(X, Y))
      {
        WriteOne(buffer, width, height, x, y, value);
        Set(x, y, value);
        y := y + 1;
      }
    }

    /** `set_area(x, y, width, height, value)`: every position from that of (x, y) up to, not
        including, that of (x + width, y + height) becomes value; a run of the buffer. */
    method SetArea(x: int, y: int, w: int, h: int, value: CanvasChar)
      requires Valid()
      requires Index(width, x, y) < Index(width, x + w, y + h) ==>
        0 <= Index(width, x, y) && Index(width, x + w, y + h) <= |buffer|
      modifies this
      ensures Valid() && |buffer| == old(|buffer|)
      ensures forall k :: 0 <= k < |buffer| ==>
        buffer[k] == if Index(width, x, y) <= k < Index(width, x + w, y + h) then value else old(buffer)[k]
    {
      var lo := Index(width, x, y);
      var hi := Index(width, x + w, y + h);
      var i := lo;
      while i < hi
        invariant lo <= i <= (if lo < hi then hi else lo)
        invariant Valid() && |buffer| == old(|buffer|)
        invariant forall k :: 0 <= k < |buffer| ==> buffer[k] == if lo <= k < i then value else old(buffer)[k]
      {
        buffer := buffer[i := value];
        i := i + 1;
      }
    }

    /** `fill(value)`: every cell becomes value. */
    method Fill(value: CanvasChar)
      requires Valid()
      modifies this
      ensures Valid() && |buffer| == old(|buffer|)
      ensures forall k :: 0 <= k < |buffer| ==> buffer[k] == value
    {
      buffer := seq(Total(), _ => value);
    }

    /** `clear()`: every cell back to the default the canvas was made with. */
    method Clear()
      requires Valid()
      modifies this
      ensures Valid() && |buffer| == old(|buffer|)
      ensures forall k :: 0 <= k < |buffer| ==> buffer[k] == defaultValue
    {
      Fill(defaultValue);
    }

    /** `draw_line_h(x, y, length, char)`: the length positions from that of (x, y) on. */
    method DrawLineH(x: int, y: int, length: int, c: CanvasChar)
      requires Valid()
      requires length > 0 ==> 0 <= Index(width, x, y) && Index(width, x, y) + length <= |buffer|
      modifies this
      ensures Valid() && |buffer| == old(|buffer|)
      ensures forall k :: 0 <= k < |buffer| ==>
        buffer[k] == if Index(width, x, y) <= k < Index(width, x, y) + length then c else old(buffer)[k]
    {
      var i := 0;
      while i < length
        invariant 0 <= i <= Clamp(length) && Valid() && |buffer| == old(|buffer|)
        invariant forall k :: 0 <= k < |buffer| ==>
          buffer[k] == if Index(width, x, y) <= k < Index(width, x, y) + i then c else old(buffer)[k]
      {
        Set(x + i, y, c);
        i := i + 1;
      }
    }

    /** `draw_line_v(x, y, length, char)`: the positions of (x, y), (x, y + 1), …,
        (x, y + length - 1), one row width apart. */
    method DrawLineV(x: int, y: int, length: int, c: CanvasChar)
      requires Valid()
      requires length > 0 ==> 0 <= Index(width, x, y) && Index(width, x, y + length - 1) < |buffer|
      modifies this
      ensures Valid() && |buffer| == old(|buffer|)
      ensures forall k :: 0 <= k < |buffer| ==>
        buffer[k] == if k in ColumnRun(width, x, y, length) then c else old(buffer)[k]
    {
      var i := 0;
      while i < length
        invariant 0 <= i <= Clamp(length) && Valid() && |buffer| == old(|buffer|)
        invariant forall k :: 0 <= k < |buffer| ==>
          buffer[k] == if k in ColumnRun(width, x, y, i) then c else old(buffer)[k]
      {
        ColumnRunStep(width, x, y, i);
        MulMono(width, y, y + i);
        MulMono(width, y + i, y + length - 1);
        Set(x, y + i, c);
        i := i + 1;
      }
    }

    /** The cells on the border of the w × h rectangle at (x, y). */
    predicate OnBorder(X: int, Y: int, x: int, y: int, w: int, h: int)
    {
      || ((Y == y || Y == y + h - 1) && x <= X < x + w)
      || ((X == x || X == x + w - 1) && y <= Y < y + h)
    }

    /** `draw_rect(x, y, w, h, char)`: the border of a rectangle inside the canvas. An empty
        extent draws no rows (w <= 0) or no columns (h <= 0); the other two lines still run. */
    method DrawRect(x: int, y: int, w: int, h: int, c: CanvasChar)
      requires Valid()
      requires h > 0 ==> 0 <= x < width && 0 <= x + w - 1 < width && 0 <= y && y + h <= height
      requires w > 0 ==> 0 <= y < height && 0 <= y + h - 1 < height && 0 <= x && x + w <= width
      modifies this
      ensures Valid()
      ensures forall X, Y :: 0 <= X < width && 0 <= Y < height ==>
        Get(X, Y) == if OnBorder(X, Y, x, y, w, h) then c else old(Get(X, Y))
    {
      LineInRow(x, y, w, c);
      LineInRow(x, y + h - 1, w, c);
      LineInColumn(x, y, h, c);
      LineInColumn(x + w - 1, y, h, c);
    }

    /** A run inside row y, seen cell by cell. */
    lemma RowRun(x: int, y: int, w: int)
      requires Valid() && 0 <= x && x + w <= width && 0 <= y < height
      ensures forall X, Y :: 0 <= X < width && 0 <= Y < height ==>
        (Index(width, x, y) <= Index(width, X, Y) < Index(width, x, y) + w <==> Y == y && x <= X < x + w)
    {
      forall X, Y | 0 <= X < width && 0 <= Y < height
        ensures Index(width, x, y) <= Index(width, X, Y) < Index(width, x, y) + w <==> Y == y && x <= X < x + w
      {
        SameRow(width, X, Y, y);
      }
    }

    /** `copy_from(other, x, y)`: other's cells, as far as they fit, at offset (x, y). */
    method CopyFrom(other: Canvas, x: int := 0, y: int := 0)
      requires Valid() && other.Valid() && other != this && 0 <= x && 0 <= y
      modifies this
      ensures Valid()
      ensures forall X, Y :: 0 <= X < width && 0 <= Y < height ==>
        Get(X, Y) == if x <= X < x + other.width && y <= Y < y + other.height then other.Get(X - x, Y - y) else old(Get(X, Y))
    {
      var rows := if other.height < height - y then other.height else height - y;
      var dy := 0;
      while dy < rows
        invariant 0 <= dy <= Clamp(rows) && Valid() && other.Valid()
        invariant forall X, Y :: 0 <= X < width && 0 <= Y < height ==>
          Get(X, Y) == if x <= X < x + other.width && y <= Y < y + dy then other.Get(X - x, Y - y) else old(Get(X, Y))
      {
        CopyRow(other, x, y, dy);
        dy := dy + 1;
      }
    }

    /** One pass of `copy_from`'s outer loop: row dy of other into row y + dy. */
    method CopyRow(other: Canvas, x: int, y: int, dy: int)
      requires Valid() && other.Valid() && other != this && 0 <= x && 0 <= y
      requires 0 <= dy < other.height && y + dy < height
      modifies this
      ensures Valid()
      ensures forall X, Y :: 0 <= X < width && 0 <= Y < height ==>
        Get(X, Y) == if Y == y + dy && x <= X < x + other.width then other.Get(X - x, dy) else old(Get(X, Y))
    {
      var cols := if other.width < width - x then other.width else width - x;
      var dx := 0;
      while dx < cols
        invariant 0 <= dx <= Clamp(cols) && Valid() && other.Valid()
        invariant forall X, Y :: 0 <= X < width && 0 <= Y < height ==>
          Get(X, Y) == if Y == y + dy && x <= X < x + dx then other.Get(X - x, dy) else old(Get(X, Y))
      {
        var v := other.Get(dx, dy);
        WriteOne(buffer, width, height, x + dx, y + dy, v);
        Set(x + dx, y + dy, v);
        assert other.Get((x + dx) - x, dy) == v;
        dx := dx + 1;
      }
    }

    /** `draw_text(x, y, text, char)`: text[i], styled like the template, at (x + i, y) while
        x + i is inside the width; the rest of the text is dropped. */
    method DrawText(x: int, y: int, text: string, template: CanvasChar)
      requires Valid() && 0 <= x
      requires x < width && text != [] ==> 0 <= y < height
      modifies this
      ensures Valid()
      ensures forall X, Y :: 0 <= X < width && 0 <= Y < height ==>
        Get(X, Y) == if Y == y && x <= X < x + |text| then Styled(text[X - x], template) else old(Get(X, Y))
    {
      var i := 0;
      while i < |text|
        invariant 0 <= i <= |text| && Valid()
        invariant forall X, Y :: 0 <= X < width && 0 <= Y < height ==>
          Get(X, Y) == if Y == y && x <= X < x + i then Styled(text[X - x], template) else old(Get(X, Y))
      {
        if x + i < width {
          WriteOne(buffer, width, height, x + i, y, Styled(text[i], template));
          Set(x + i, y, Styled(text[i], template));
        }
        i := i + 1;
      }
    }

    /** `draw_filled_rect(x, y, w, h, char)`: every cell of a rectangle inside the canvas. */
    method DrawFilledRect(x: int, y: int, w: int, h: int, c: CanvasChar)
      requires Valid()
      requires w > 0 && h > 0 ==> 0 <= x && x + w <= width && 0 <= y && y + h <= height
      modifies this
      ensures Valid()
      ensures forall X, Y :: 0 <= X < width && 0 <= Y < height ==>
        Get(X, Y) == if x <= X < x + w && y <= Y < y + h then c else old(Get(X, Y))
    {
      var dy := 0;
      while dy < h
        invariant 0 <= dy <= Clamp(h) && Valid()
        invariant forall X, Y :: 0 <= X < width && 0 <= Y < height ==>
          Get(X, Y) == if x <= X < x + w && y <= Y < y + dy then c else old(Get(X, Y))
      {
        LineInRow(x, y + dy, w, c);
        dy := dy + 1;
      }
    }

    /** `draw_line_h(x, row, w, _)` on a run that stays inside the row: exactly the cells x to
        x + w - 1 of that row. It is also the inner loop of `draw_filled_rect`, which sets the
        same cells one by one. */
    method LineInRow(x: int, row: int, w: int, c: CanvasChar)
      requires Valid()
      requires w > 0 ==> 0 <= x && x + w <= width && 0 <= row < height
      modifies this
      ensures Valid()
      ensures forall X, Y :: 0 <= X < width && 0 <= Y < height ==>
        Get(X, Y) == if Y == row && x <= X < x + w then c else old(Get(X, Y))
    {
      if w > 0 {
        RowInside(width, height, row);
        DrawLineH(x, row, w, c);
        RowRun(x, row, w);
      }
    }

    /** `draw_line_v(x, y, h, _)` for a column inside the width and rows inside the height:
        exactly the cells (x, y) to (x, y + h - 1). */
    method LineInColumn(x: int, y: int, h: int, c: CanvasChar)
      requires Valid()
      requires h > 0 ==> 0 <= x < width && 0 <= y && y + h <= height
      modifies this
      ensures Valid()
      ensures forall X, Y :: 0 <= X < width && 0 <= Y < height ==>
        Get(X, Y) == if X == x && y <= Y < y + h then c else old(Get(X, Y))
    {
      if h > 0 {
        CellInside(width, height, x, y);
        CellInside(width, height, x, y + h - 1);
        DrawLineV(x, y, h, c);
        ColumnRunCells(width, height, x, y, h);
      } else {
        DrawLineV(x, y, h, c);
        assert ColumnRun(width, x, y, h) == {};
      }
    }

    /** What `set_area(x, y, w, h, value)` evidently means: the w × h rectangle at (x, y), the
        cells `draw_filled_rect` sets. */
    method SetAreaIntended(x: int, y: int, w: int, h: int, value: CanvasChar)
      requires Valid()
      requires w > 0 && h > 0 ==> 0 <= x && x + w <= width && 0 <= y && y + h <= height
      modifies this
      ensures Valid()
      ensures forall X, Y :: 0 <= X < width && 0 <= Y < height ==>
        Get(X, Y) == if x <= X < x + w && y <= Y < y + h then value else old(Get(X, Y))
    {
      DrawFilledRect(x, y, w, h, value);
    }

    /** `get_subcanvas(x, y, w, h)`: a new w × h canvas with the same default, holding this
        canvas's cell (x + dx, y + dy) where that position is valid and the default elsewhere. */
    method GetSubcanvas(x: int, y: int, w: int, h: int) returns (sub: Canvas)
      requires Valid()
      ensures fresh(sub) && sub.Valid()
      ensures sub.width == Clamp(w) && sub.height == Clamp(h) && sub.defaultValue == defaultValue
      ensures forall X, Y :: 0 <= X < sub.width && 0 <= Y < sub.height ==>
        sub.Get(X, Y) == if IsValidPosition(x + X, y + Y) then Get(x + X, y + Y) else defaultValue
    {
      sub := new Canvas(w, h, defaultValue);
      var dy := 0;
      while dy < h
        invariant 0 <= dy <= Clamp(h) && fresh(sub) && sub.Valid()
        invariant sub.width == Clamp(w) && sub.height == Clamp(h) && sub.defaultValue == defaultValue
        invariant forall X, Y :: 0 <= X < sub.width && 0 <= Y < sub.height ==>
          sub.Get(X, Y) == if Y < dy && IsValidPosition(x + X, y + Y) then Get(x + X, y + Y) else defaultValue
      {
        SubcanvasRow(sub, x, y, w, dy);
        dy := dy + 1;
      }
    }

    /** One pass of `get_subcanvas`'s outer loop: row dy of the subcanvas. */
    method SubcanvasRow(sub: Canvas, x: int, y: int, w: int, dy: int)
      requires Valid() && sub.Valid() && sub != this && sub.width == Clamp(w) && 0 <= dy < sub.height
      modifies sub
      ensures sub.Valid()
      ensures forall X, Y :: 0 <= X < sub.width && 0 <= Y < sub.height ==>
        sub.Get(X, Y) == if Y == dy && IsValidPosition(x + X, y + Y) then Get(x + X, y + Y) else old(sub.Get(X, Y))
    {
      var dx := 0;
      while dx < w
        invariant 0 <= dx <= Clamp(w) && sub.Valid()
        invariant forall X, Y :: 0 <= X < sub.width && 0 <= Y < sub.height ==>
          sub.Get(X, Y) == if Y == dy && X < dx && IsValidPosition(x + X, y + Y) then Get(x + X, y + Y) else old(sub.Get(X, Y))
      {
        SubcanvasCell(sub, x, y, dx, dy);
        dx := dx + 1;
      }
    }

    /** The body of `get_subcanvas`'s inner loop: cell (dx, dy) of the subcanvas, when the
        position it copies is valid. */
    method SubcanvasCell(sub: Canvas, x: int, y: int, dx: int, dy: int)
      requires Valid() && sub.Valid() && sub != this && 0 <= dx < sub.width && 0 <= dy < sub.height
      modifies sub
      ensures sub.Valid()
      ensures forall X, Y :: 0 <= X < sub.width && 0 <= Y < sub.height ==>
        sub.Get(X, Y) == if X == dx && Y == dy && IsValidPosition(x + X, y + Y) then Get(x + X, y + Y) else old(sub.Get(X, Y))
    {
      if IsValidPosition(x + dx, y + dy) {
        WriteOne(sub.buffer, sub.width, sub.height, dx, dy, Get(x + dx, y + dy));
        sub.Set(dx, dy, Get(x + dx, y + dy));
      }
    }
  }

  /** Lemmas */

  /** `set_area`'s run is width*h + w positions long, not w*h: with h >= 1 it takes in the cell
      just right of the area's first row, which lies outside the rectangle. On a canvas 3 wide,
      `set_area(0, 0, 1, 1)` writes the four cells (0, 0), (1, 0), (2, 0) and (0, 1). */
  lemma AreaRunOverrunsRectangle(width: nat, x: int, y: int, w: int, h: int)
    requires 1 <= w && 1 <= h && 0 <= x && x + w < width
    ensures Index(width, x + w, y + h) - Index(width, x, y) == width * h + w
    ensures Index(width, x, y) <= Index(width, x + w, y) < Index(width, x + w, y + h)
    ensures width * h + w > w * h
  {
    MulIsProduct(width, y);
    MulIsProduct(width, y + h);
    assert width * (y + h) == width * y + width * h;
    MulIsProduct(h, w);
    MulIsProduct(h, width);
    MulMono(h, w, width);
    assert w * h <= width * h;
  }

  /** The 3-wide example: `set_area(0, 0, 1, 1)` writes a run of 4 positions for 1 cell, and
      (1, 0) is among them. */
  lemma AreaRunExample()
    ensures Index(3, 0 + 1, 0 + 1) - Index(3, 0, 0) == 4
    ensures Index(3, 0, 0) <= Index(3, 1, 0) < Index(3, 0 + 1, 0 + 1)
  {
    AreaRunOverrunsRectangle(3, 0, 0, 1, 1);
  }

  /** Row and column reads agree on their common cell. */
  lemma RowColumnAgree(c: Canvas, x: int, y: int)
    requires c.Valid() && 0 <= x < c.width && 0 <= y < c.height
    ensures c.GetRow(y)[x] == c.GetColumn(x)[y] == c.Get(x, y)
  {
  }
}

=== FILE: canvas_char.dfy ===
/**
 * `CanvasChar` (src/snakia/core/tui/char.py): one styled cell of a text canvas, a frozen record
 * whose equality compares all six fields, with its `str` and `repr`.
 */
module CanvasChars {
  import opened Wrappers
  import opened Texts

  /** The character (a Python `str`, so possibly longer or shorter than one character), the
      optional foreground and background colour names, and three flags. */
  datatype CanvasChar = CanvasChar(
    ch: string,
    fg: Option<string>,
    bg: Option<string>,
    bold: bool,
    italic: bool,
    underline: bool)

  /** `CanvasChar()`: a space, no colours, no flags. */
  const Blank := CanvasChar(" ", None, None, false, false, false)

  /** `CanvasChar(ch)`: the given character with the default styling. */
  function Plain(ch: string): (c: CanvasChar)
    ensures c.ch == ch && c == Blank.(ch := ch)
  {
    CanvasChar(ch, None, None, false, false, false)
  }

  /** A colour takes effect when it is set and not empty, as `if self.fg_color:` tests it. */
  predicate HasColor(color: Option<string>)
  {
    color.Some? && color.value != ""
  }

  /** No colour and no flag takes effect. */
  predicate Unstyled(c: CanvasChar)
  {
    !HasColor(c.fg) && !HasColor(c.bg) && !c.bold && !c.italic && !c.underline
  }

  /** `str(c)`. */
  function Str(c: CanvasChar): string
  {
    c.ch
  }

  /** The attribute list of `repr`: fg=…, bg=…, bold, italic, underline, each when it takes effect. */
  function Attrs(c: CanvasChar): (attrs: seq<string>)
    ensures |attrs| <= 5
  {
    (if HasColor(c.fg) then ["fg=" + c.fg.value] else [])
    + (if HasColor(c.bg) then ["bg=" + c.bg.value] else [])
    + (if c.bold then ["bold"] else [])
    + (if c.italic then ["italic"] else [])
    + (if c.underline then ["underline"] else [])
  }

  /** `repr(c)`: the character in quotes, then the attributes in brackets when there are any. */
  function Repr(c: CanvasChar): (r: string)
  {
    var attrs := Attrs(c);
    "CanvasChar('" + c.ch + "'" + (if attrs == [] then "" else "[" + Join(attrs, ", ") + "]") + ")"
  }

  /** Lemmas */

  /** The attribute list is empty exactly for an unstyled char, whose repr is the quoted
      character alone. */
  lemma UnstyledRepr(c: CanvasChar)
    ensures Attrs(c) == [] <==> Unstyled(c)
    ensures Unstyled(c) ==> Repr(c) == "CanvasChar('" + c.ch + "')"
  {
    if !Unstyled(c) {
      assert |Attrs(c)| > 0;
    }
  }

  /** With every attribute in effect they come in the order fg, bg, bold, italic, underline. */
  lemma FullRepr(ch: string, fg: string, bg: string)
    requires fg != "" && bg != ""
    ensures var c := CanvasChar(ch, Some(fg), Some(bg), true, true, true);
      && Attrs(c) == ["fg=" + fg, "bg=" + bg, "bold", "italic", "underline"]
      && Repr(c) == "CanvasChar('" + ch + "'[" + Join(Attrs(c), ", ") + "])"
  {
    var c := CanvasChar(ch, Some(fg), Some(bg), true, true, true);
    assert Attrs(c) == ["fg=" + fg, "bg=" + bg, "bold", "italic", "underline"];
  }

  /** The blank's repr shows the space alone. */
  lemma BlankRepr()
    ensures Repr(Blank) == "CanvasChar(' ')" && Str(Blank) == " "
  {
    UnstyledRepr(Blank);
  }
}

=== FILE: color.dfy ===
/**
 * RGBA colours with masked 8-bit colour channels, hex formatting and the hex
 * parser (src/snakia/types/color.py).
 */
module Colors {
  import opened Wrappers
  import opened Numerals

  type Channel = x: int | 0 <= x < 256

  /** A frozen colour: r, g and b are masked to a byte, alpha is stored as given. */
  datatype Color = Color(r: Channel, g: Channel, b: Channel, a: int)

  /** `value & 0xFF` on a Python integer, negative ones included. */
  function Mask(value: int): (m: Channel)
    ensures (value - m) % 256 == 0
  {
    value % 256
  }

  /** The pydantic constructor: the r, g and b validators mask, alpha is kept. */
  function New(r: int, g: int, b: int, a: int): (c: Color)
    ensures c.r == Mask(r) && c.g == Mask(g) && c.b == Mask(b) && c.a == a
  {
    Color(Mask(r), Mask(g), Mask(b), a)
  }

  /** `Color()`: black, fully opaque. */
  function Default(): Color { Color(0, 0, 0, 255) }

  /** `from_rgb(r, g, b, a=255)`: the channels masked to a byte, so in-range channels are kept,
      and alpha as given. */
  function FromRgb(r: int, g: int, b: int, a: int := 255): (c: Color)
    ensures c.r == Mask(r) && c.g == Mask(g) && c.b == Mask(b) && c.a == a
    ensures 0 <= r < 256 && 0 <= g < 256 && 0 <= b < 256 ==> Rgb(c) == (r, g, b)
  {
    New(r, g, b, a)
  }

  function Rgb(c: Color): (int, int, int) { (c.r, c.g, c.b) }

  /** Without an alpha argument, `from_rgb` gives a fully opaque colour. */
  lemma FromRgbOpaque(r: int, g: int, b: int)
    ensures FromRgb(r, g, b).a == 255
  {
  }

  function Rgba(c: Color): (int, int, int, int) { (c.r, c.g, c.b, c.a) }

  lemma Hex2OfAnyByte(n: int)
    ensures 0 <= n < 256 ==> |Hex2(n)| == 2 && AllHexDigits(Hex2(n))
  {
    if 0 <= n < 256 { Hex2OfByte(n); }
  }

  /** The `hex` property: "#" and `02x` of r, g, b and a. */
  function Hex(c: Color): (s: string)
    ensures 0 <= c.a < 256 ==> |s| == 9 && s[0] == '#' && AllHexDigits(s[1..])
  {
    Hex2OfByte(c.r);
    Hex2OfByte(c.g);
    Hex2OfByte(c.b);
    Hex2OfAnyByte(c.a);
    "#" + Hex2(c.r) + Hex2(c.g) + Hex2(c.b) + Hex2(c.a)
  }

  /** `+`: channel-wise; r, g, b wrap modulo 256 and alpha is a plain sum. */
  function Add(x: Color, y: Color): Color
  {
    New(x.r + y.r, x.g + y.g, x.b + y.b, x.a + y.a)
  }

  /** `-`: channel-wise; r, g, b wrap modulo 256 and alpha is a plain difference. */
  function Sub(x: Color, y: Color): Color
  {
    New(x.r - y.r, x.g - y.g, x.b - y.b, x.a - y.a)
  }

  /** `text.lstrip("#")`. */
  function StripHashes(s: string): (t: string)
    ensures |t| <= |s| && (t != [] ==> t[0] != '#')
    ensures s[|s| - |t|..] == t
  {
    if s != [] && s[0] == '#' then StripHashes(s[1..]) else s
  }

  /** Python's `s[i:j]`: the bounds are clamped to the text. */
  function Slice(s: string, i: nat, j: nat): (t: string)
    requires i <= j
    ensures |t| == (if |s| <= i then 0 else if |s| <= j then |s| - i else j - i)
  {
    if |s| <= i then "" else if |s| <= j then s[i..] else s[i..j]
  }

  /** `from_hex` as written: r, g and b from [1:3], [3:5], [5:7] of the stripped text. */
  function FromHex(text: string): (r: Result<Color>)
    ensures |StripHashes(text)| < 6 ==> r.Err?
  {
    var h := StripHashes(text);
    var alpha := if |h| >= 9 then ParseHex(Slice(h, 7, 9)) else Some(255);
    match (ParseHex(Slice(h, 1, 3)), ParseHex(Slice(h, 3, 5)), ParseHex(Slice(h, 5, 7)), alpha)
    case (Some(r), Some(g), Some(b), Some(a)) => Ok(New(r, g, b, a))
    case _ => Err(ValueError)
  }

  /** `from_hex` as evidently intended: the channels from [0:2], [2:4], [4:6] and alpha from [6:8]. */
  function FromHexIntended(text: string): (r: Result<Color>)
    ensures |StripHashes(text)| < 5 ==> r.Err?
  {
    var h := StripHashes(text);
    var alpha := if |h| >= 8 then ParseHex(Slice(h, 6, 8)) else Some(255);
    match (ParseHex(Slice(h, 0, 2)), ParseHex(Slice(h, 2, 4)), ParseHex(Slice(h, 4, 6)), alpha)
    case (Some(r), Some(g), Some(b), Some(a)) => Ok(New(r, g, b, a))
    case _ => Err(ValueError)
  }

  /** Lemmas */

  /** Masking keeps exactly the residue modulo 256. */
  lemma MaskIsResidue(v: int, m: int)
    requires 0 <= m < 256 && (v - m) % 256 == 0
    ensures Mask(v) == m
  {
  }

  /** Adding then subtracting the same colour gives the first colour back. */
  lemma AddSubInverse(x: Color, y: Color)
    ensures Sub(Add(x, y), y) == x
  {
    WrapBack(x.r, y.r);
    WrapBack(x.g, y.g);
    WrapBack(x.b, y.b);
  }

  /** One channel: wrapping the sum and then the difference gives the channel back. */
  lemma WrapBack(x: Channel, y: Channel)
    ensures Mask(Mask(x + y) - y) == x
  {
    assert (Mask(x + y) - y - x) % 256 == 0;
    MaskIsResidue(Mask(x + y) - y, x);
  }

  lemma AddCommutes(x: Color, y: Color)
    ensures Add(x, y) == Add(y, x)
  {
  }

  /** A non-empty run of hex digits parses to its value. */
  lemma ParseHexDigits(s: string)
    requires |s| >= 1 && AllHexDigits(s)
    ensures ParseHex(s) == Some(HexDigitsValue(s))
  {
  }

  /** Every slice of a run of hex digits is one. */
  lemma HexSlice(h: string, i: nat, j: nat)
    requires i <= j && AllHexDigits(h)
    ensures AllHexDigits(Slice(h, i, j))
  {
    var t := Slice(h, i, j);
    forall k | 0 <= k < |t|
      ensures IsHexDigit(t[k])
    {
      assert t[k] == h[i + k];
    }
  }

  /** Stripping stops at the first character that is not '#'. */
  lemma StripOneHash(t: string)
    requires t != [] && t[0] != '#'
    ensures StripHashes("#" + t) == t
  {
    assert ("#" + t)[1..] == t;
  }

  lemma ByteDigits(n: int)
    requires 0 <= n < 256
    ensures |Hex2(n)| == 2 && AllHexDigits(Hex2(n)) && HexDigitsValue(Hex2(n)) == n
  {
    Hex2OfByte(n);
  }

  /** The intended parser on a stripped text of eight characters: the four pairs it reads. */
  lemma IntendedParts(text: string, h: string, r: int, g: int, b: int, a: int)
    requires StripHashes(text) == h && |h| >= 8
    requires ParseHex(Slice(h, 0, 2)) == Some(r) && ParseHex(Slice(h, 2, 4)) == Some(g)
    requires ParseHex(Slice(h, 4, 6)) == Some(b) && ParseHex(Slice(h, 6, 8)) == Some(a)
    ensures FromHexIntended(text) == Ok(New(r, g, b, a))
  {
  }

  /** The intended parser on "#" and eight hex digits reads four pairs. */
  lemma IntendedOnEightDigits(h: string)
    requires |h| == 8 && AllHexDigits(h)
    ensures FromHexIntended("#" + h) == Ok(Color(
      16 * HexValue(h[0]) + HexValue(h[1]), 16 * HexValue(h[2]) + HexValue(h[3]),
      16 * HexValue(h[4]) + HexValue(h[5]), 16 * HexValue(h[6]) + HexValue(h[7])))
  {
    var r, g, b, a := IntendedPairs(h);
    assert Color(r, g, b, a) == Color(
      16 * HexValue(h[0]) + HexValue(h[1]), 16 * HexValue(h[2]) + HexValue(h[3]),
      16 * HexValue(h[4]) + HexValue(h[5]), 16 * HexValue(h[6]) + HexValue(h[7]));
  }

  /** The intended parser on "#" and eight hex digits reads the four digit pairs. */
  lemma IntendedPairs(h: string) returns (r: Channel, g: Channel, b: Channel, a: int)
    requires |h| == 8 && AllHexDigits(h)
    ensures r == 16 * HexValue(h[0]) + HexValue(h[1]) && g == 16 * HexValue(h[2]) + HexValue(h[3])
    ensures b == 16 * HexValue(h[4]) + HexValue(h[5]) && a == 16 * HexValue(h[6]) + HexValue(h[7])
    ensures FromHexIntended("#" + h) == Ok(Color(r, g, b, a))
  {
    assert h[0] != '#' by { assert IsHexDigit(h[0]); }
    StripOneHash(h);
    r := ParsePairAt(h, 0, 1, 2);
    g := ParsePairAt(h, 2, 3, 4);
    b := ParsePairAt(h, 4, 5, 6);
    a := ParsePairAt(h, 6, 7, 8);
    IntendedParts("#" + h, h, r, g, b, a);
    NewOfBytes(r, g, b, a);
  }

  /** The intended parser reads back the digits `hex` printed. */
  lemma IntendedFromDigits(c: Color, h: string)
    requires |h| == 8 && AllHexDigits(h)
    requires HexValue(h[0]) == c.r / 16 && HexValue(h[1]) == c.r % 16
    requires HexValue(h[2]) == c.g / 16 && HexValue(h[3]) == c.g % 16
    requires HexValue(h[4]) == c.b / 16 && HexValue(h[5]) == c.b % 16
    requires HexValue(h[6]) == c.a / 16 && HexValue(h[7]) == c.a % 16
    ensures FromHexIntended("#" + h) == Ok(c)
  {
    var r, g, b, a := IntendedPairs(h);
    DivMod16(c.r);
    DivMod16(c.g);
    DivMod16(c.b);
    DivMod16(c.a);
    assert Color(r, g, b, a) == c;
  }

  lemma DivMod16(x: int)
    ensures 16 * (x / 16) + x % 16 == x
  {
  }

  /** A colour with a byte alpha survives the intended parser. */
  lemma HexRoundTripIntended(c: Color)
    requires 0 <= c.a < 256
    ensures FromHexIntended(Hex(c)) == Ok(c)
  {
    HexIsNibbles(c);
    NibbleValues(c);
    IntendedFromDigits(c, Nibbles(c));
  }

  /** Bytes pass the validators unchanged. */
  lemma NewOfBytes(r: int, g: int, b: int, a: int)
    requires 0 <= r < 256 && 0 <= g < 256 && 0 <= b < 256
    ensures New(r, g, b, a) == Color(r, g, b, a)
  {
  }

  lemma NewOfChannels(c: Color)
    ensures New(c.r, c.g, c.b, c.a) == c
  {
    assert Mask(c.r) == c.r && Mask(c.g) == c.g && Mask(c.b) == c.b;
  }

  /** The value of two hex digits. */
  lemma PairValue(s: string)
    requires |s| == 2 && AllHexDigits(s)
    ensures HexDigitsValue(s) == 16 * HexValue(s[0]) + HexValue(s[1])
  {
    assert s[..1][..0] == [];
    assert HexDigitsValue(s[..1]) == HexValue(s[0]);
  }

  /** Two hex digits at i read as one byte, which masking leaves alone. */
  lemma PairByte(h: string, i: nat)
    requires i + 2 <= |h| && AllHexDigits(h)
    ensures AllHexDigits(h[i..i + 2])
    ensures HexDigitsValue(h[i..i + 2]) == 16 * HexValue(h[i]) + HexValue(h[i + 1])
    ensures Mask(16 * HexValue(h[i]) + HexValue(h[i + 1])) == 16 * HexValue(h[i]) + HexValue(h[i + 1])
  {
    var s := h[i..i + 2];
    assert s[0] == h[i] && s[1] == h[i + 1];
    PairValue(s);
  }

  /** Two hex digits parse to one byte. */
  lemma ParsePair(s: string)
    requires |s| == 2 && AllHexDigits(s)
    ensures ParseHex(s) == Some(16 * HexValue(s[0]) + HexValue(s[1]))
  {
    PairValue(s);
    ParseHexDigits(s);
  }

  /** The slice [i:j] of a run of hex digits, the two digits at i and k, parses to one byte. */
  lemma ParsePairAt(h: string, i: nat, k: nat, j: nat) returns (v: int)
    requires k == i + 1 && j == i + 2 <= |h| && AllHexDigits(h)
    ensures ParseHex(Slice(h, i, j)) == Some(v)
    ensures v == 16 * HexValue(h[i]) + HexValue(h[k]) && 0 <= v < 256
  {
    var p := Slice(h, i, j);
    assert p == h[i..i + 2] && p[0] == h[i] && p[1] == h[k];
    HexSlice(h, i, j);
    ParsePair(p);
    v := 16 * HexValue(h[i]) + HexValue(h[k]);
  }

  /** The slice [5:7] of six hex digits is the last digit alone. */
  lemma ParseLast(h: string) returns (v: int)
    requires |h| == 6 && AllHexDigits(h)
    ensures ParseHex(Slice(h, 5, 7)) == Some(v)
    ensures v == HexValue(h[5]) && 0 <= v < 16
  {
    var last := Slice(h, 5, 7);
    assert last == [h[5]] && last[..0] == [];
    ParseHexDigits(last);
    v := HexValue(h[5]);
  }

  /** The as-written parser on a stripped text shorter than nine characters: the three pairs it
      reads, and alpha 255. */
  lemma AsWrittenParts(text: string, h: string, r: int, g: int, b: int)
    requires StripHashes(text) == h && |h| < 9
    requires ParseHex(Slice(h, 1, 3)) == Some(r) && ParseHex(Slice(h, 3, 5)) == Some(g)
    requires ParseHex(Slice(h, 5, 7)) == Some(b)
    ensures FromHex(text) == Ok(New(r, g, b, 255))
  {
  }

  /** The as-written parser on "#" and six to eight hex digits. */
  lemma AsWrittenOnDigits(h: string)
    requires 6 <= |h| <= 8 && AllHexDigits(h)
    ensures FromHex("#" + h) == Ok(New(
      HexDigitsValue(h[1..3]), HexDigitsValue(h[3..5]), HexDigitsValue(Slice(h, 5, 7)), 255))
  {
    assert h[0] != '#' by { assert IsHexDigit(h[0]); }
    StripOneHash(h);
    assert Slice(h, 1, 3) == h[1..3] && Slice(h, 3, 5) == h[3..5];
    HexSlice(h, 1, 3);
    HexSlice(h, 3, 5);
    HexSlice(h, 5, 7);
    ParseHexDigits(h[1..3]);
    ParseHexDigits(h[3..5]);
    ParseHexDigits(Slice(h, 5, 7));
    AsWrittenParts("#" + h, h, HexDigitsValue(h[1..3]), HexDigitsValue(h[3..5]), HexDigitsValue(Slice(h, 5, 7)));
  }

  /** The as-written parser on a stripped text of nine characters or more: the three pairs it
      reads and alpha from [7:9]. */
  lemma AsWrittenAlphaParts(text: string, h: string, r: int, g: int, b: int, a: int)
    requires StripHashes(text) == h && |h| >= 9
    requires ParseHex(Slice(h, 1, 3)) == Some(r) && ParseHex(Slice(h, 3, 5)) == Some(g)
    requires ParseHex(Slice(h, 5, 7)) == Some(b) && ParseHex(Slice(h, 7, 9)) == Some(a)
    ensures FromHex(text) == Ok(New(r, g, b, a))
  {
  }

  /** Two hex digits at i, whatever surrounds them, parse to one byte. */
  lemma ParsePairIn(h: string, i: nat) returns (v: int)
    requires i + 2 <= |h| && IsHexDigit(h[i]) && IsHexDigit(h[i + 1])
    ensures ParseHex(Slice(h, i, i + 2)) == Some(v)
    ensures v == 16 * HexValue(h[i]) + HexValue(h[i + 1])
  {
    var p := Slice(h, i, i + 2);
    assert p == h[i..i + 2] && p[0] == h[i] && p[1] == h[i + 1];
    ParsePair(p);
    v := 16 * HexValue(h[i]) + HexValue(h[i + 1]);
  }

  /** With nine or more characters after the leading '#'s, the as-written parser reads alpha
      from [7:9], so the first character and everything after the ninth are ignored: only
      h[1..9] has to be hex digits, and each of the four pairs there gives one channel. */
  lemma AsWrittenWithAlpha(text: string, h: string) returns (r: int, g: int, b: int, a: int)
    requires StripHashes(text) == h && |h| >= 9 && forall k :: 1 <= k < 9 ==> IsHexDigit(h[k])
    ensures FromHex(text) == Ok(New(r, g, b, a))
    ensures r == 16 * HexValue(h[1]) + HexValue(h[2]) && g == 16 * HexValue(h[3]) + HexValue(h[4])
    ensures b == 16 * HexValue(h[5]) + HexValue(h[6]) && a == 16 * HexValue(h[7]) + HexValue(h[8])
  {
    r, g, b, a := AlphaPairs(h);
    AsWrittenAlphaParts(text, h, r, g, b, a);
  }

  /** The four pairs h[1..3], h[3..5], h[5..7] and h[7..9] of hex digits, parsed. */
  lemma AlphaPairs(h: string) returns (r: int, g: int, b: int, a: int)
    requires |h| >= 9 && forall k :: 1 <= k < 9 ==> IsHexDigit(h[k])
    ensures ParseHex(Slice(h, 1, 3)) == Some(r) && ParseHex(Slice(h, 3, 5)) == Some(g)
    ensures ParseHex(Slice(h, 5, 7)) == Some(b) && ParseHex(Slice(h, 7, 9)) == Some(a)
    ensures r == 16 * HexValue(h[1]) + HexValue(h[2]) && g == 16 * HexValue(h[3]) + HexValue(h[4])
    ensures b == 16 * HexValue(h[5]) + HexValue(h[6]) && a == 16 * HexValue(h[7]) + HexValue(h[8])
  {
    r := ParsePairIn(h, 1);
    g := ParsePairIn(h, 3);
    b := ParsePairIn(h, 5);
    a := ParsePairIn(h, 7);
  }

  /** "#0ffeeddcc" reads as (255, 238, 221, 204): the leading '0' is skipped and the alpha pair
      is "cc". */
  lemma AlphaExample(text: string)
    requires text == "#0ffeeddcc"
    ensures FromHex(text) == Ok(Color(255, 238, 221, 204))
  {
    var h := text[1..];
    assert text == "#" + h && h[0] == '0';
    StripOneHash(h);
    AlphaExampleDigits(h);
    var r, g, b, a := AsWrittenWithAlpha(text, h);
    NewOfBytes(255, 238, 221, 204);
  }

  lemma AlphaExampleDigits(h: string)
    requires h == "0ffeeddcc"
    ensures |h| >= 9 && forall k :: 1 <= k < 9 ==> IsHexDigit(h[k])
    ensures 16 * HexValue(h[1]) + HexValue(h[2]) == 255 && 16 * HexValue(h[3]) + HexValue(h[4]) == 238
    ensures 16 * HexValue(h[5]) + HexValue(h[6]) == 221 && 16 * HexValue(h[7]) + HexValue(h[8]) == 204
  {
  }

  /** Eight hex digits: the bytes the as-written parser reads. */
  lemma AsWrittenValues(h: string) returns (r: Channel, g: Channel, b: Channel)
    requires |h| == 8 && AllHexDigits(h)
    ensures r == 16 * HexValue(h[1]) + HexValue(h[2]) && g == 16 * HexValue(h[3]) + HexValue(h[4])
    ensures b == 16 * HexValue(h[5]) + HexValue(h[6])
    ensures FromHex("#" + h) == Ok(Color(r, g, b, 255))
  {
    assert h[0] != '#' by { assert IsHexDigit(h[0]); }
    StripOneHash(h);
    r := ParsePairAt(h, 1, 2, 3);
    g := ParsePairAt(h, 3, 4, 5);
    b := ParsePairAt(h, 5, 6, 7);
    AsWrittenParts("#" + h, h, r, g, b);
    NewOfBytes(r, g, b, 255);
  }

  /** Eight hex digits: the as-written parser pairs the second digit with the third, the fourth
      with the fifth and the sixth with the seventh, and ignores the first and the last. */
  lemma AsWrittenPairs(h: string)
    requires |h| == 8 && AllHexDigits(h)
    ensures FromHex("#" + h) == Ok(Color(
      16 * HexValue(h[1]) + HexValue(h[2]), 16 * HexValue(h[3]) + HexValue(h[4]),
      16 * HexValue(h[5]) + HexValue(h[6]), 255))
  {
    var r, g, b := AsWrittenValues(h);
    assert Color(r, g, b, 255) == Color(
      16 * HexValue(h[1]) + HexValue(h[2]), 16 * HexValue(h[3]) + HexValue(h[4]),
      16 * HexValue(h[5]) + HexValue(h[6]), 255);
  }

  /** The eight digits `hex` prints for a colour with a byte alpha, high digit first. */
  function Nibbles(c: Color): (h: string)
    requires 0 <= c.a < 256
    ensures |h| == 8 && AllHexDigits(h)
  {
    [HexChar(c.r / 16), HexChar(c.r % 16), HexChar(c.g / 16), HexChar(c.g % 16),
     HexChar(c.b / 16), HexChar(c.b % 16), HexChar(c.a / 16), HexChar(c.a % 16)]
  }

  lemma JoinPairs(x0: char, x1: char, x2: char, x3: char, x4: char, x5: char, x6: char, x7: char)
    ensures "#" + [x0, x1] + [x2, x3] + [x4, x5] + [x6, x7] == "#" + [x0, x1, x2, x3, x4, x5, x6, x7]
  {
  }

  /** The digit values `hex` prints for a colour with a byte alpha. */
  lemma NibbleValues(c: Color)
    requires 0 <= c.a < 256
    ensures HexValue(Nibbles(c)[0]) == c.r / 16 && HexValue(Nibbles(c)[1]) == c.r % 16
    ensures HexValue(Nibbles(c)[2]) == c.g / 16 && HexValue(Nibbles(c)[3]) == c.g % 16
    ensures HexValue(Nibbles(c)[4]) == c.b / 16 && HexValue(Nibbles(c)[5]) == c.b % 16
    ensures HexValue(Nibbles(c)[6]) == c.a / 16 && HexValue(Nibbles(c)[7]) == c.a % 16
  {
  }

  /** From the digits `hex` printed, the as-written parser reads shifted channels. */
  lemma ShiftedFromDigits(c: Color, h: string)
    requires 0 <= c.a < 256 && |h| == 8 && AllHexDigits(h)
    requires HexValue(h[1]) == c.r % 16 && HexValue(h[2]) == c.g / 16
    requires HexValue(h[3]) == c.g % 16 && HexValue(h[4]) == c.b / 16
    requires HexValue(h[5]) == c.b % 16 && HexValue(h[6]) == c.a / 16
    ensures FromHex("#" + h) == Ok(Color(
      16 * (c.r % 16) + c.g / 16, 16 * (c.g % 16) + c.b / 16, 16 * (c.b % 16) + c.a / 16, 255))
  {
    var r, g, b := AsWrittenValues(h);
  }

  lemma HexIsNibbles(c: Color)
    requires 0 <= c.a < 256
    ensures Hex(c) == "#" + Nibbles(c)
  {
    Hex2OfByte(c.r);
    Hex2OfByte(c.g);
    Hex2OfByte(c.b);
    Hex2OfByte(c.a);
    JoinPairs(HexChar(c.r / 16), HexChar(c.r % 16), HexChar(c.g / 16), HexChar(c.g % 16),
      HexChar(c.b / 16), HexChar(c.b % 16), HexChar(c.a / 16), HexChar(c.a % 16));
  }

  /** The as-written parser shifts every channel by one digit: it reads red from the low digit of
      red and the high digit of green, and so on, and drops the alpha. */
  lemma HexRoundTripShifted(c: Color)
    requires 0 <= c.a < 256
    ensures FromHex(Hex(c)) == Ok(Color(
      16 * (c.r % 16) + c.g / 16, 16 * (c.g % 16) + c.b / 16, 16 * (c.b % 16) + c.a / 16, 255))
  {
    HexIsNibbles(c);
    NibbleValues(c);
    ShiftedFromDigits(c, Nibbles(c));
  }

  /** The channels the as-written parser reads back for (1, 2, 3, 255). */
  lemma ShiftedExample(c: Color)
    requires c == Color(1, 2, 3, 255)
    ensures 16 * (c.r % 16) + c.g / 16 == 16 && 16 * (c.g % 16) + c.b / 16 == 32
    ensures 16 * (c.b % 16) + c.a / 16 == 63
  {
  }

  /** The as-written parser does not give a printed colour back: #010203ff reads as (16, 32, 63, 255). */
  lemma HexRoundTripFails(c: Color)
    requires c == Color(1, 2, 3, 255)
    ensures FromHex(Hex(c)) == Ok(Color(16, 32, 63, 255))
    ensures FromHex(Hex(c)) != Ok(c)
  {
    HexRoundTripShifted(c);
    ShiftedExample(c);
  }

  /** Six hex digits: the as-written parser pairs digits 1-2 and 3-4 and reads digit 5 alone. */
  lemma AsWrittenSix(h: string)
    requires |h| == 6 && AllHexDigits(h)
    ensures FromHex("#" + h) == Ok(Color(
      16 * HexValue(h[1]) + HexValue(h[2]), 16 * HexValue(h[3]) + HexValue(h[4]), HexValue(h[5]), 255))
  {
    assert h[0] != '#' by { assert IsHexDigit(h[0]); }
    StripOneHash(h);
    var r := ParsePairAt(h, 1, 2, 3);
    var g := ParsePairAt(h, 3, 4, 5);
    var b := ParseLast(h);
    AsWrittenParts("#" + h, h, r, g, b);
    NewOfBytes(r, g, b, 255);
  }

  /** Six hex digits whose pairs are known bytes. */
  lemma SixFromDigits(h: string, r: Channel, g: Channel, b: Channel)
    requires |h| == 6 && AllHexDigits(h)
    requires 16 * HexValue(h[1]) + HexValue(h[2]) == r && 16 * HexValue(h[3]) + HexValue(h[4]) == g
    requires HexValue(h[5]) == b
    ensures FromHex("#" + h) == Ok(Color(r, g, b, 255))
  {
    AsWrittenSix(h);
  }

  /** WHITE, `from_hex("#ffffff")`, as the parser reads it: blue is 15. */
  lemma WhiteValue(text: string)
    requires text == "#ffffff"
    ensures FromHex(text) == Ok(Color(255, 255, 15, 255))
  {
    var h := text[1..];
    assert text == "#" + h && h == "ffffff";
    assert AllHexDigits(h) by {
      forall i | 0 <= i < |h| ensures IsHexDigit(h[i]) { }
    }
    SixFromDigits(h, 255, 255, 15);
  }

  /** RED, `from_hex("#ff0000")`, as the parser reads it: red is 240. */
  lemma RedValue(text: string)
    requires text == "#ff0000"
    ensures FromHex(text) == Ok(Color(240, 0, 0, 255))
  {
    var h := text[1..];
    assert text == "#" + h && h == "ff0000";
    assert AllHexDigits(h) by {
      forall i | 0 <= i < |h| ensures IsHexDigit(h[i]) { }
    }
    SixFromDigits(h, 240, 0, 0);
  }

  /** BLACK, `from_hex("#000000")`, as the parser reads it: black. */
  lemma BlackValue(text: string)
    requires text == "#000000"
    ensures FromHex(text) == Ok(Color(0, 0, 0, 255))
  {
    var h := text[1..];
    assert text == "#" + h && h == "000000";
    assert AllHexDigits(h) by {
      forall i | 0 <= i < |h| ensures IsHexDigit(h[i]) { }
    }
    SixFromDigits(h, 0, 0, 0);
  }
}

=== FILE: dispatcher.dfy ===
/**
 * `Dispatcher` (src/snakia/core/es/dispatcher.py): a FIFO event queue and per-event-class
 * subscriber lists, walked with a cursor that handlers move with `Action`s.
 *
 * Handlers and filters are identifiers; what they do is given by the functions `handle` and
 * `accepts` of the event's fields and current TTL. The walk can run forever in the program; here
 * each walk is given `fuel` steps and reports whether it finished.
 */
module Dispatching {
  import opened Wrappers
  import opened Lists
  import opened Actions
  import opened Events

  type HandlerId = nat
  type FilterId = nat

  /** `Subscriber(handler, filters, priority)`. */
  datatype Subscriber = Subscriber(handler: HandlerId, filter: Option<FilterId>, priority: int)

  /** The list `subscribers[kind]` of a defaultdict: empty when the key is missing. */
  function Lookup(m: map<Kind, seq<Subscriber>>, kind: Kind): seq<Subscriber>
  {
    if kind in m then m[kind] else []
  }

  /** Sorting */

  predicate SortedDesc(s: seq<Subscriber>)
  {
    forall i, j :: 0 <= i < j < |s| ==> s[i].priority >= s[j].priority
  }

  /** Inserts x in front of the first element whose priority is not above its own. */
  function Insert(x: Subscriber, t: seq<Subscriber>): (r: seq<Subscriber>)
    ensures multiset(r) == multiset(t) + multiset{x}
  {
    if t == [] || x.priority >= t[0].priority then [x] + t
    else
      assert t == [t[0]] + t[1..];
      [t[0]] + Insert(x, t[1..])
  }

  /** Inserting into a sorted list keeps it sorted, and puts x or the old head in front. */
  lemma {:induction false} InsertSorted(x: Subscriber, t: seq<Subscriber>)
    requires SortedDesc(t)
    ensures SortedDesc(Insert(x, t))
    ensures Insert(x, t)[0] == x || (t != [] && Insert(x, t)[0] == t[0])
  {
    if !(t == [] || x.priority >= t[0].priority) {
      var rest := Insert(x, t[1..]);
      InsertSorted(x, t[1..]);
      assert rest[0].priority <= t[0].priority;
      var r := [t[0]] + rest;
      forall i, j | 0 <= i < j < |r|
        ensures r[i].priority >= r[j].priority
      {
        if i == 0 {
          assert r[j] == rest[j - 1];
        } else {
          assert r[i] == rest[i - 1] && r[j] == rest[j - 1];
        }
      }
    }
  }

  /** `subscribers.sort(key=priority, reverse=True)`: descending priority, stable. */
  function SortByPriority(s: seq<Subscriber>): (r: seq<Subscriber>)
    ensures SortedDesc(r) && multiset(r) == multiset(s)
  {
    if s == [] then []
    else
      assert s == [s[0]] + s[1..];
      InsertSorted(s[0], SortByPriority(s[1..]));
      Insert(s[0], SortByPriority(s[1..]))
  }

  /** The subscribers of one priority, in list order. */
  function WithPriority(s: seq<Subscriber>, p: int): seq<Subscriber>
  {
    if s == [] then [] else (if s[0].priority == p then [s[0]] else []) + WithPriority(s[1..], p)
  }

  lemma {:induction false} InsertKeepsPriorityOrder(x: Subscriber, t: seq<Subscriber>, p: int)
    ensures WithPriority(Insert(x, t), p) == (if x.priority == p then [x] else []) + WithPriority(t, p)
  {
    if t == [] || x.priority >= t[0].priority {
      assert ([x] + t)[1..] == t;
    } else {
      InsertKeepsPriorityOrder(x, t[1..], p);
      assert ([t[0]] + Insert(x, t[1..]))[1..] == Insert(x, t[1..]);
    }
  }

  /** The sort is stable: subscribers of equal priority keep their relative order. */
  lemma {:induction false} SortIsStable(s: seq<Subscriber>, p: int)
    ensures WithPriority(SortByPriority(s), p) == WithPriority(s, p)
  {
    if s != [] {
      SortIsStable(s[1..], p);
      InsertKeepsPriorityOrder(s[0], SortByPriority(s[1..]), p);
    }
  }

  /** Unsubscribing */

  /** The entries `unsubscribe(sub)` takes away: same handler and priority, any filter. */
  predicate SameEntry(x: Subscriber, sub: Subscriber)
  {
    x.handler == sub.handler && x.priority == sub.priority
  }

  /** The list without the entries that match sub, the others in their order. */
  function Without(s: seq<Subscriber>, sub: Subscriber): (r: seq<Subscriber>)
    ensures |r| <= |s|
  {
    if s == [] then [] else (if SameEntry(s[0], sub) then [] else [s[0]]) + Without(s[1..], sub)
  }

  /** What is left is exactly the entries that do not match sub. */
  lemma {:induction false} WithoutMembers(s: seq<Subscriber>, sub: Subscriber, x: Subscriber)
    ensures x in Without(s, sub) <==> x in s && !SameEntry(x, sub)
  {
    if s != [] {
      WithoutMembers(s[1..], sub, x);
      assert s == [s[0]] + s[1..];
    }
  }

  /** No entry that matches sub is left. */
  lemma WithoutNoMatch(s: seq<Subscriber>, sub: Subscriber)
    ensures forall y :: y in Without(s, sub) ==> !SameEntry(y, sub)
  {
    forall y | y in Without(s, sub)
      ensures !SameEntry(y, sub)
    {
      WithoutMembers(s, sub, y);
    }
  }

  /** Filtering a concatenation filters each part. */
  lemma {:induction false} WithoutAppend(a: seq<Subscriber>, b: seq<Subscriber>, sub: Subscriber)
    ensures Without(a + b, sub) == Without(a, sub) + Without(b, sub)
  {
    if a == [] {
      assert a + b == b;
    } else {
      var h := if SameEntry(a[0], sub) then [] else [a[0]];
      assert (a + b)[0] == a[0] && (a + b)[1..] == a[1..] + b;
      calc {
        Without(a + b, sub);
        h + Without(a[1..] + b, sub);
        { WithoutAppend(a[1..], b, sub); }
        h + (Without(a[1..], sub) + Without(b, sub));
        (h + Without(a[1..], sub)) + Without(b, sub);
      }
    }
  }

  /** Removing the first copy of a matching entry from a kept prefix followed by it. */
  lemma RemoveAfterKept(kept: seq<Subscriber>, x: Subscriber, rest: seq<Subscriber>, sub: Subscriber)
    requires forall y :: y in kept ==> !SameEntry(y, sub)
    requires SameEntry(x, sub)
    ensures x in kept + [x] + rest
    ensures RemoveFirst(kept + [x] + rest, x) == kept + rest
  {
    RemoveFirstAt(kept, x, rest);
  }

  /** A matching entry after the kept prefix: it is the first of its value there, and
      removing it leaves the filtered prefix extended by nothing. */
  lemma UnsubscribeDrop(before: seq<Subscriber>, x: Subscriber, after: seq<Subscriber>, sub: Subscriber)
    requires SameEntry(x, sub)
    ensures x in Without(before, sub) + ([x] + after)
    ensures RemoveFirst(Without(before, sub) + ([x] + after), x) == Without(before + [x], sub) + after
  {
    var kept := Without(before, sub);
    WithoutNoMatch(before, sub);
    assert kept + ([x] + after) == kept + [x] + after;
    RemoveAfterKept(kept, x, after, sub);
    WithoutAppend(before, [x], sub);
    assert [x][0] == x && [x][1..] == [];
    assert Without([x], sub) == [];
    assert kept + [] == kept;
  }

  /** A non-matching entry after the kept prefix simply joins it. */
  lemma UnsubscribeKeep(before: seq<Subscriber>, x: Subscriber, after: seq<Subscriber>, sub: Subscriber)
    requires !SameEntry(x, sub)
    ensures Without(before, sub) + ([x] + after) == Without(before + [x], sub) + after
  {
    WithoutAppend(before, [x], sub);
    assert Without([x], sub) == [x];
  }

  /** One step of `unsubscribe`'s loop over the copy: a matching entry is the first of its value
      after the kept prefix, and removing it, or keeping a non-matching one, extends the prefix. */
  lemma UnsubscribeStep(copy: seq<Subscriber>, n: nat, sub: Subscriber)
    requires n < |copy|
    ensures var current := Without(copy[..n], sub) + copy[n..];
      if SameEntry(copy[n], sub) then
        copy[n] in current && RemoveFirst(current, copy[n]) == Without(copy[..n + 1], sub) + copy[n + 1..]
      else current == Without(copy[..n + 1], sub) + copy[n + 1..]
  {
    assert copy[..n + 1] == copy[..n] + [copy[n]];
    assert copy[n..] == [copy[n]] + copy[n + 1..];
    if SameEntry(copy[n], sub) {
      UnsubscribeDrop(copy[..n], copy[n], copy[n + 1..], sub);
    } else {
      UnsubscribeKeep(copy[..n], copy[n], copy[n + 1..], sub);
    }
  }

  /** The cursor walk */

  /** What one walk did: whether it reached the end, the final TTL, and the indices it called. */
  datatype Outcome = Outcome(completed: bool, ttl: int, calls: seq<nat>)

  /** The indices i, i+1, ..., n-1. */
  function Range(i: nat, n: nat): (r: seq<nat>)
    ensures |r| == if i <= n then n - i else 0
    decreases n - i
  {
    if i >= n then [] else [i] + Range(i + 1, n)
  }

  class Dispatcher {
    /** What handler h returns and what filter f says for an event with these fields and TTL. */
    const handle: (HandlerId, nat, int) -> Option<Action>
    const accepts: (FilterId, nat, int) -> bool
    /** `issubclass(base, Event)` on the classes of an MRO. */
    const isEventClass: Kind -> bool

    var subscribers: map<Kind, seq<Subscriber>>
    var queue: seq<Event>

    constructor(handle: (HandlerId, nat, int) -> Option<Action>, accepts: (FilterId, nat, int) -> bool,
                isEventClass: Kind -> bool)
      ensures this.handle == handle && this.accepts == accepts && this.isEventClass == isEventClass
      ensures subscribers == map[] && queue == []
    {
      this.handle := handle;
      this.accepts := accepts;
      this.isEventClass := isEventClass;
      subscribers := map[];
      queue := [];
    }

    /** The walk over a sorted list from cursor i, with an event of these fields and TTL. */
    function Walk(subs: seq<Subscriber>, i: nat, payload: nat, ttl: int, fuel: nat): (o: Outcome)
      requires i <= |subs|
      ensures ttl - o.ttl == |o.calls|
      ensures forall k :: 0 <= k < |o.calls| ==> o.calls[k] < |subs|
      decreases fuel
    {
      if i == |subs| then Outcome(true, ttl, [])
      else if fuel == 0 then Outcome(false, ttl, [])
      else
        var s := subs[i];
        if s.filter.Some? && !accepts(s.filter.value, payload, ttl) then Walk(subs, i, payload, ttl, fuel - 1)
        else
          var o := Walk(subs, NextCursor(i, |subs|, handle(s.handler, payload, ttl)), payload, ttl - 1, fuel - 1);
          Outcome(o.completed, o.ttl, [i] + o.calls)
    }

    /** A rejecting filter costs one step of fuel and nothing else. */
    lemma WalkSkipStep(subs: seq<Subscriber>, i: nat, payload: nat, ttl: int, fuel: nat)
      requires i < |subs| && fuel > 0
      requires subs[i].filter.Some? && !accepts(subs[i].filter.value, payload, ttl)
      ensures Walk(subs, i, payload, ttl, fuel) == Walk(subs, i, payload, ttl, fuel - 1)
    {
    }

    /** A call to subs[i] ends the walk the way the walk from the cursor the handler's action
        gives ends, with one less TTL. */
    lemma WalkCallStep(subs: seq<Subscriber>, i: nat, payload: nat, ttl: int, fuel: nat)
      requires i < |subs| && fuel > 0
      requires !(subs[i].filter.Some? && !accepts(subs[i].filter.value, payload, ttl))
      ensures var o := Walk(subs, i, payload, ttl, fuel);
        var o' := Walk(subs, NextCursor(i, |subs|, handle(subs[i].handler, payload, ttl)), payload, ttl - 1, fuel - 1);
        o.completed == o'.completed && o.ttl == o'.ttl
    {
    }

    /** Delivery of one event to the lists of the event classes in mro[k..]: the new lists, the
        final TTL, and whether every walk finished. */
    function Deliver(m: map<Kind, seq<Subscriber>>, mro: seq<Kind>, k: nat, payload: nat, ttl: int, fuel: nat)
      : (r: (map<Kind, seq<Subscriber>>, int, bool))
      requires k <= |mro|
      ensures r.1 <= ttl
      decreases |mro| - k
    {
      if k == |mro| then (m, ttl, true)
      else if !isEventClass(mro[k]) then Deliver(m, mro, k + 1, payload, ttl, fuel)
      else
        var subs := SortByPriority(Lookup(m, mro[k]));
        var o := Walk(subs, 0, payload, ttl, fuel);
        if !o.completed then (m[mro[k] := subs], o.ttl, false)
        else Deliver(m[mro[k] := subs], mro, k + 1, payload, o.ttl, fuel)
    }

    /** `subscribe`: appends to the list of exactly that class, duplicates included. */
    method Subscribe(kind: Kind, sub: Subscriber)
      modifies this
      ensures subscribers == old(subscribers)[kind := Lookup(old(subscribers), kind) + [sub]]
      ensures queue == old(queue)
    {
      subscribers := subscribers[kind := Lookup(subscribers, kind) + [sub]];
    }

    /** `on(event, filter, priority=-1)` applied to a handler: subscribes it and gives it back. */
    method On(kind: Kind, handler: HandlerId, filter: Option<FilterId> := None, priority: int := -1)
      returns (h: HandlerId)
      modifies this
      ensures h == handler
      ensures subscribers == old(subscribers)[kind := Lookup(old(subscribers), kind) + [Subscriber(handler, filter, priority)]]
      ensures queue == old(queue)
    {
      Subscribe(kind, Subscriber(handler, filter, priority));
      return handler;
    }

    /** `unsubscribe`: for each entry of a copy of the list that matches, removes the first equal entry. */
    method Unsubscribe(kind: Kind, sub: Subscriber)
      modifies this
      ensures subscribers == old(subscribers)[kind := Without(Lookup(old(subscribers), kind), sub)]
      ensures queue == old(queue)
    {
      var copy := Lookup(subscribers, kind);
      var current := copy;
      subscribers := subscribers[kind := current];
      var n := 0;
      while n < |copy|
        invariant n <= |copy|
        invariant current == Without(copy[..n], sub) + copy[n..]
        invariant subscribers == old(subscribers)[kind := current]
        invariant queue == old(queue)
      {
        UnsubscribeStep(copy, n, sub);
        if SameEntry(copy[n], sub) {
          current := RemoveFirst(current, copy[n]);
          subscribers := subscribers[kind := current];
        }
        n := n + 1;
      }
      assert copy[..n] == copy && copy[n..] == [];
      assert current == Without(copy, sub);
    }

    /** `publish`: enqueues at the tail. */
    method Publish(e: Event)
      modifies this
      ensures queue == old(queue) + [e]
      ensures subscribers == old(subscribers)
    {
      queue := queue + [e];
    }

    /** `__handle_event`: sorts the stored list in place, then walks it. */
    method HandleEvent(kind: Kind, e: Event, fuel: nat) returns (completed: bool)
      modifies this, e
      ensures var subs := SortByPriority(Lookup(old(subscribers), kind));
        && subscribers == old(subscribers)[kind := subs]
        && var o := Walk(subs, 0, e.payload, old(e.ttl), fuel);
        completed == o.completed && e.ttl == o.ttl
      ensures queue == old(queue)
    {
      var subs := SortByPriority(Lookup(subscribers, kind));
      subscribers := subscribers[kind := subs];
      completed := RunWalk(subs, e, fuel);
    }

    /** The cursor loop of `__handle_event` over a sorted list: skips a subscriber whose filter
        rejects the event, otherwise calls the handler, moves the cursor by its action and
        reduces the event's TTL. */
    method RunWalk(subs: seq<Subscriber>, e: Event, fuel: nat) returns (completed: bool)
      modifies e
      ensures var o := Walk(subs, 0, e.payload, old(e.ttl), fuel);
        completed == o.completed && e.ttl == o.ttl
    {
      var i := 0;
      var steps := 0;
      ghost var total := Walk(subs, 0, e.payload, e.ttl, fuel);
      while i < |subs| && steps < fuel
        invariant 0 <= i <= |subs| && steps <= fuel
        invariant var o := Walk(subs, i, e.payload, e.ttl, fuel - steps);
          total.completed == o.completed && total.ttl == o.ttl
        decreases fuel - steps
      {
        var s := subs[i];
        if s.filter.Some? && !accepts(s.filter.value, e.payload, e.ttl) {
          WalkSkipStep(subs, i, e.payload, e.ttl, fuel - steps);
          steps := steps + 1;
          continue;
        }
        var action := handle(s.handler, e.payload, e.ttl);
        WalkCallStep(subs, i, e.payload, e.ttl, fuel - steps);
        i := NextCursor(i, |subs|, action);
        steps := steps + 1;
        e.ReduceTtl();
      }
      completed := i == |subs|;
    }

    /** `update(block=False)`: takes the head of the queue, if any, and delivers it to the list of
        every event class of its MRO in order; delivery stops at a walk that does not finish. */
    method Update(fuel: nat) returns (delivered: bool)
      modifies this, queue
      ensures old(queue) == [] ==> queue == [] && subscribers == old(subscribers) && !delivered
      ensures old(queue) != [] ==>
        var e := old(queue)[0];
        var r := Deliver(old(subscribers), e.mro, 0, e.payload, old(e.ttl), fuel);
        && queue == old(queue)[1..] && subscribers == r.0 && e.ttl == r.1 && delivered == r.2
      ensures forall ev :: ev in old(queue) && ev != old(queue)[0] ==> ev.ttl == old(ev.ttl)
    {
      if queue == [] {
        return false;
      }
      var e := queue[0];
      queue := queue[1..];
      var k := 0;
      while k < |e.mro|
        invariant k <= |e.mro|
        invariant Deliver(old(subscribers), e.mro, 0, e.payload, old(e.ttl), fuel)
          == Deliver(subscribers, e.mro, k, e.payload, e.ttl, fuel)
        invariant queue == old(queue)[1..]
        invariant forall ev :: ev in old(queue) && ev != e ==> ev.ttl == old(ev.ttl)
      {
        if isEventClass(e.mro[k]) {
          var completed := HandleEvent(e.mro[k], e, fuel);
          if !completed {
            return false;
          }
        }
        k := k + 1;
      }
      return true;
    }
  }

  /** A subscriber that takes part without moving the cursor: no filter, and its handler never
      returns an action. */
  ghost predicate Plain(d: Dispatcher, s: Subscriber, payload: nat)
  {
    s.filter.None? && forall ttl :: d.handle(s.handler, payload, ttl).None?
  }

  /** With plain subscribers from i on, each runs exactly once in list order and the TTL drops by
      one per subscriber. */
  lemma {:induction false} PlainWalk(d: Dispatcher, subs: seq<Subscriber>, i: nat, payload: nat, ttl: int, fuel: nat)
    requires i <= |subs| && |subs| - i <= fuel
    requires forall k :: i <= k < |subs| ==> Plain(d, subs[k], payload)
    ensures d.Walk(subs, i, payload, ttl, fuel) == Outcome(true, ttl - (|subs| - i), Range(i, |subs|))
    decreases |subs| - i
  {
    if i < |subs| {
      assert Plain(d, subs[i], payload);
      assert d.handle(subs[i].handler, payload, ttl).None?;
      PlainWalk(d, subs, i + 1, payload, ttl - 1, fuel - 1);
    }
  }

  /** Delivery over a whole MRO */

  /** The event classes among mro[k..]: the bases `update` delivers to. */
  function EventClasses(d: Dispatcher, mro: seq<Kind>, k: nat): set<Kind>
    decreases |mro| - k
  {
    if k >= |mro| then {}
    else (if d.isEventClass(mro[k]) then {mro[k]} else {}) + EventClasses(d, mro, k + 1)
  }

  /** A class is among the event classes of mro[k..] exactly when it is an event class at some
      position from k on. */
  lemma {:induction false} EventClassesMembers(d: Dispatcher, mro: seq<Kind>, k: nat, kind: Kind)
    ensures kind in EventClasses(d, mro, k) <==> exists j :: k <= j < |mro| && mro[j] == kind && d.isEventClass(kind)
    decreases |mro| - k
  {
    if k < |mro| {
      EventClassesMembers(d, mro, k + 1, kind);
      if kind in EventClasses(d, mro, k + 1) {
        var j :| k + 1 <= j < |mro| && mro[j] == kind && d.isEventClass(kind);
      }
    }
  }

  /** The lists m with the list of every kind in ks sorted by priority; a kind in ks without a
      list gets the empty one. */
  function SortedLists(m: map<Kind, seq<Subscriber>>, ks: set<Kind>): map<Kind, seq<Subscriber>>
  {
    map kind | kind in m.Keys + ks :: if kind in ks then SortByPriority(Lookup(m, kind)) else m[kind]
  }

  /** The number of subscribers on the lists of the event classes in mro[k..]. */
  function EventCalls(d: Dispatcher, m: map<Kind, seq<Subscriber>>, mro: seq<Kind>, k: nat): int
    requires k <= |mro|
    decreases |mro| - k
  {
    if k == |mro| then 0
    else (if d.isEventClass(mro[k]) then |Lookup(m, mro[k])| else 0) + EventCalls(d, m, mro, k + 1)
  }

  /** No class appears twice in mro[k..], as in a Python MRO. */
  predicate DistinctFrom(mro: seq<Kind>, k: nat)
  {
    forall i, j :: k <= i < j < |mro| ==> mro[i] != mro[j]
  }

  /** Every list of an event class in mro[k..] holds at most fuel subscribers, all plain. */
  ghost predicate PlainLists(d: Dispatcher, m: map<Kind, seq<Subscriber>>, mro: seq<Kind>, k: nat, payload: nat, fuel: nat)
  {
    forall j :: k <= j < |mro| && d.isEventClass(mro[j]) ==>
      |Lookup(m, mro[j])| <= fuel && forall s :: s in Lookup(m, mro[j]) ==> Plain(d, s, payload)
  }

  /** The list of a class that is not an event class of mro[k..] is neither read nor written by
      the delivery: it is there afterwards exactly when it was there before, and unchanged. */
  lemma {:induction false} DeliverFrame(d: Dispatcher, m: map<Kind, seq<Subscriber>>, mro: seq<Kind>, k: nat,
                                        payload: nat, ttl: int, fuel: nat, kind: Kind)
    requires k <= |mro| && kind !in EventClasses(d, mro, k)
    ensures var r := d.Deliver(m, mro, k, payload, ttl, fuel);
      (kind in r.0 <==> kind in m) && (kind in m ==> r.0[kind] == m[kind])
    decreases |mro| - k
  {
    if k < |mro| {
      assert EventClasses(d, mro, k + 1) <= EventClasses(d, mro, k);
      if d.isEventClass(mro[k]) {
        assert mro[k] in EventClasses(d, mro, k);
        var subs := SortByPriority(Lookup(m, mro[k]));
        DeliverFrame(d, m[mro[k] := subs], mro, k + 1, payload, d.Walk(subs, 0, payload, ttl, fuel).ttl, fuel, kind);
      } else {
        DeliverFrame(d, m, mro, k + 1, payload, ttl, fuel, kind);
      }
    }
  }

  /** The count of calls only reads the lists of the classes in mro[k..]. */
  lemma {:induction false} EventCallsFrame(d: Dispatcher, m: map<Kind, seq<Subscriber>>, m': map<Kind, seq<Subscriber>>, mro: seq<Kind>, k: nat)
    requires k <= |mro|
    requires forall j :: k <= j < |mro| ==> Lookup(m, mro[j]) == Lookup(m', mro[j])
    ensures EventCalls(d, m, mro, k) == EventCalls(d, m', mro, k)
    decreases |mro| - k
  {
    if k < |mro| {
      EventCallsFrame(d, m, m', mro, k + 1);
    }
  }

  /** The sorted list holds the subscribers of the list, as many of them. */
  lemma SortedSameMembers(s: seq<Subscriber>)
    ensures |SortByPriority(s)| == |s|
    ensures forall x :: x in SortByPriority(s) <==> x in s
  {
    var r := SortByPriority(s);
    assert |multiset(r)| == |multiset(s)|;
    forall x
      ensures x in r <==> x in s
    {
      assert x in r <==> x in multiset(r);
      assert x in s <==> x in multiset(s);
    }
  }

  /** The event classes of mro[k..] are those of mro[k + 1..] and mro[k] when it is one; with
      distinct classes, mro[k] is not among those of mro[k + 1..]. */
  lemma EventClassesStep(d: Dispatcher, mro: seq<Kind>, k: nat)
    requires k < |mro|
    ensures EventClasses(d, mro, k)
      == EventClasses(d, mro, k + 1) + (if d.isEventClass(mro[k]) then {mro[k]} else {})
    ensures DistinctFrom(mro, k) ==> mro[k] !in EventClasses(d, mro, k + 1)
  {
    EventClassesMembers(d, mro, k + 1, mro[k]);
  }

  /** A class of the MRO that is not an event class is skipped: it adds no list and no call. */
  lemma DeliverSkipStep(d: Dispatcher, m: map<Kind, seq<Subscriber>>, mro: seq<Kind>, k: nat,
                        payload: nat, ttl: int, fuel: nat)
    requires k < |mro| && !d.isEventClass(mro[k])
    ensures var r, r' := d.Deliver(m, mro, k, payload, ttl, fuel), d.Deliver(m, mro, k + 1, payload, ttl, fuel);
      r.0 == r'.0 && r.1 == r'.1 && r.2 == r'.2
    ensures EventCalls(d, m, mro, k) == EventCalls(d, m, mro, k + 1)
    ensures EventClasses(d, mro, k) == EventClasses(d, mro, k + 1)
  {
    EventClassesStep(d, mro, k);
  }

  /** A walk of the sorted list of an event class that finishes hands the re-sorted lists and its
      final TTL on to the next class of the MRO. */
  lemma DeliverEventStep(d: Dispatcher, m: map<Kind, seq<Subscriber>>, mro: seq<Kind>, k: nat,
                         payload: nat, ttl: int, fuel: nat, ttl': int)
    requires k < |mro| && d.isEventClass(mro[k])
    requires var o := d.Walk(SortByPriority(Lookup(m, mro[k])), 0, payload, ttl, fuel); o.completed && o.ttl == ttl'
    ensures var r, r' := d.Deliver(m, mro, k, payload, ttl, fuel),
                         d.Deliver(m[mro[k] := SortByPriority(Lookup(m, mro[k]))], mro, k + 1, payload, ttl', fuel);
      r.0 == r'.0 && r.1 == r'.1 && r.2 == r'.2
  {
  }

  /** The sorted list of the first event class holds as many subscribers as its list, all plain. */
  lemma PlainStep(d: Dispatcher, m: map<Kind, seq<Subscriber>>, mro: seq<Kind>, k: nat, payload: nat, fuel: nat)
    requires k < |mro| && d.isEventClass(mro[k]) && PlainLists(d, m, mro, k, payload, fuel)
    ensures var subs := SortByPriority(Lookup(m, mro[k]));
      |subs| == |Lookup(m, mro[k])| <= fuel && forall i :: 0 <= i < |subs| ==> Plain(d, subs[i], payload)
  {
    SortedSameMembers(Lookup(m, mro[k]));
  }

  /** With distinct classes, replacing the list of mro[k] leaves the lists of mro[k + 1..] as
      they were. */
  lemma PlainListsRest(d: Dispatcher, m: map<Kind, seq<Subscriber>>, mro: seq<Kind>, k: nat, payload: nat, fuel: nat,
                       v: seq<Subscriber>)
    requires k < |mro| && DistinctFrom(mro, k) && PlainLists(d, m, mro, k, payload, fuel)
    ensures DistinctFrom(mro, k + 1)
    ensures forall j :: k + 1 <= j < |mro| ==> Lookup(m[mro[k] := v], mro[j]) == Lookup(m, mro[j])
    ensures PlainLists(d, m[mro[k] := v], mro, k + 1, payload, fuel)
  {
    forall j | k + 1 <= j < |mro|
      ensures Lookup(m[mro[k] := v], mro[j]) == Lookup(m, mro[j])
    {
      assert mro[k] != mro[j];
    }
  }

  /** At an event class with a plain list, the walk of the sorted list finishes with one call
      per subscriber. */
  lemma PlainEventWalk(d: Dispatcher, m: map<Kind, seq<Subscriber>>, mro: seq<Kind>, k: nat,
                       payload: nat, ttl: int, fuel: nat)
    requires k < |mro| && d.isEventClass(mro[k]) && PlainLists(d, m, mro, k, payload, fuel)
    ensures |SortByPriority(Lookup(m, mro[k]))| == |Lookup(m, mro[k])|
    ensures var o := d.Walk(SortByPriority(Lookup(m, mro[k])), 0, payload, ttl, fuel);
      o.completed && o.ttl == ttl - |Lookup(m, mro[k])|
  {
    PlainStep(d, m, mro, k, payload, fuel);
    PlainWalk(d, SortByPriority(Lookup(m, mro[k])), 0, payload, ttl, fuel);
  }

  /** At an event class with distinct classes after it, the calls counted from k are those of
      its list and those counted from k + 1 once its list is replaced by one as long. */
  lemma EventCallsStep(d: Dispatcher, m: map<Kind, seq<Subscriber>>, mro: seq<Kind>, k: nat, v: seq<Subscriber>)
    requires k < |mro| && d.isEventClass(mro[k]) && DistinctFrom(mro, k)
    requires |v| == |Lookup(m, mro[k])|
    ensures EventCalls(d, m, mro, k) == |v| + EventCalls(d, m[mro[k] := v], mro, k + 1)
  {
    forall j | k + 1 <= j < |mro|
      ensures Lookup(m, mro[j]) == Lookup(m[mro[k] := v], mro[j])
    {
      assert mro[k] != mro[j];
    }
    EventCallsFrame(d, m, m[mro[k] := v], mro, k + 1);
  }

  /** If x holds, for kind, the lists m with that of k0 sorted and then those of ks, it holds
      the lists m with those of ks + {k0} sorted. */
  lemma ListAfterSort(m: map<Kind, seq<Subscriber>>, k0: Kind, ks: set<Kind>, x: map<Kind, seq<Subscriber>>, kind: Kind)
    requires k0 !in ks
    requires var m' := m[k0 := SortByPriority(Lookup(m, k0))];
      (kind in x <==> kind in m' || kind in ks) &&
      Lookup(x, kind) == if kind in ks then SortByPriority(Lookup(m', kind)) else Lookup(m', kind)
    ensures (kind in x <==> kind in m || kind in ks + {k0})
    ensures Lookup(x, kind) == if kind in ks + {k0} then SortByPriority(Lookup(m, kind)) else Lookup(m, kind)
  {
  }

  /** The TTL half of `PlainDeliver`: every walk finishes, one call per subscriber. */
  lemma {:induction false} PlainDeliverTtl(d: Dispatcher, m: map<Kind, seq<Subscriber>>, mro: seq<Kind>, k: nat,
                                           payload: nat, ttl: int, fuel: nat)
    requires k <= |mro| && DistinctFrom(mro, k)
    requires PlainLists(d, m, mro, k, payload, fuel)
    ensures var r := d.Deliver(m, mro, k, payload, ttl, fuel);
      r.2 && r.1 == ttl - EventCalls(d, m, mro, k)
    decreases |mro| - k
  {
    if k == |mro| {
    } else if !d.isEventClass(mro[k]) {
      DeliverSkipStep(d, m, mro, k, payload, ttl, fuel);
      PlainDeliverTtl(d, m, mro, k + 1, payload, ttl, fuel);
    } else {
      var subs := SortByPriority(Lookup(m, mro[k]));
      PlainEventWalk(d, m, mro, k, payload, ttl, fuel);
      DeliverEventStep(d, m, mro, k, payload, ttl, fuel, ttl - |Lookup(m, mro[k])|);
      PlainListsRest(d, m, mro, k, payload, fuel, subs);
      PlainDeliverTtl(d, m[mro[k] := subs], mro, k + 1, payload, ttl - |Lookup(m, mro[k])|, fuel);
      EventCallsStep(d, m, mro, k, subs);
    }
  }

  /** A delivery in which every walk finished went through the walk of the sorted list of an
      event class mro[k] and on to mro[k + 1..] with the re-sorted lists. */
  lemma DeliverFinishedStep(d: Dispatcher, m: map<Kind, seq<Subscriber>>, mro: seq<Kind>, k: nat,
                            payload: nat, ttl: int, fuel: nat)
    requires k < |mro| && d.isEventClass(mro[k]) && d.Deliver(m, mro, k, payload, ttl, fuel).2
    ensures var subs := SortByPriority(Lookup(m, mro[k]));
      var r, r' := d.Deliver(m, mro, k, payload, ttl, fuel),
                   d.Deliver(m[mro[k] := subs], mro, k + 1, payload, d.Walk(subs, 0, payload, ttl, fuel).ttl, fuel);
      r'.2 && r.0 == r'.0
  {
  }

  /** Whatever the handlers do, a delivery in which every walk finished leaves the list of an
      event class of mro[k..] sorted by priority and any other list as it was. */
  lemma {:induction false} FinishedDeliverList(d: Dispatcher, m: map<Kind, seq<Subscriber>>, mro: seq<Kind>, k: nat,
                                               payload: nat, ttl: int, fuel: nat, kind: Kind)
    requires k <= |mro| && DistinctFrom(mro, k) && d.Deliver(m, mro, k, payload, ttl, fuel).2
    ensures var r := d.Deliver(m, mro, k, payload, ttl, fuel);
      (kind in r.0 <==> kind in m || kind in EventClasses(d, mro, k)) &&
      Lookup(r.0, kind) == if kind in EventClasses(d, mro, k) then SortByPriority(Lookup(m, kind)) else Lookup(m, kind)
    decreases |mro| - k
  {
    if k < |mro| {
      EventClassesStep(d, mro, k);
      if !d.isEventClass(mro[k]) {
        DeliverSkipStep(d, m, mro, k, payload, ttl, fuel);
        FinishedDeliverList(d, m, mro, k + 1, payload, ttl, fuel, kind);
      } else {
        var subs := SortByPriority(Lookup(m, mro[k]));
        var ttl' := d.Walk(subs, 0, payload, ttl, fuel).ttl;
        DeliverFinishedStep(d, m, mro, k, payload, ttl, fuel);
        FinishedDeliverList(d, m[mro[k] := subs], mro, k + 1, payload, ttl', fuel, kind);
        ListAfterSort(m, mro[k], EventClasses(d, mro, k + 1), d.Deliver(m[mro[k] := subs], mro, k + 1, payload, ttl', fuel).0, kind);
      }
    }
  }

  /** `update` with plain subscribers and enough fuel: every list of an event class of the MRO is
      sorted by priority and walked to its end, the TTL drops by one per subscriber on those
      lists, and every other list stays as it was. */
  lemma PlainDeliver(d: Dispatcher, m: map<Kind, seq<Subscriber>>, mro: seq<Kind>,
                     payload: nat, ttl: int, fuel: nat)
    requires DistinctFrom(mro, 0)
    requires PlainLists(d, m, mro, 0, payload, fuel)
    ensures d.Deliver(m, mro, 0, payload, ttl, fuel)
      == (SortedLists(m, EventClasses(d, mro, 0)), ttl - EventCalls(d, m, mro, 0), true)
  {
    var r := d.Deliver(m, mro, 0, payload, ttl, fuel);
    var sorted := SortedLists(m, EventClasses(d, mro, 0));
    PlainDeliverTtl(d, m, mro, 0, payload, ttl, fuel);
    forall kind
      ensures (kind in r.0 <==> kind in sorted) && (kind in r.0 ==> r.0[kind] == sorted[kind])
    {
      FinishedDeliverList(d, m, mro, 0, payload, ttl, fuel, kind);
    }
    assert r.0 == sorted;
  }

  /** A subscriber whose filter rejects the event stops the walk for good: the cursor and the TTL
      never change again, whatever the fuel. */
  lemma {:induction false} RejectingFilterNeverFinishes(d: Dispatcher, subs: seq<Subscriber>, i: nat, payload: nat, ttl: int, fuel: nat)
    requires i < |subs| && subs[i].filter.Some? && !d.accepts(subs[i].filter.value, payload, ttl)
    ensures d.Walk(subs, i, payload, ttl, fuel) == Outcome(false, ttl, [])
    decreases fuel
  {
    if fuel > 0 {
      RejectingFilterNeverFinishes(d, subs, i, payload, ttl, fuel - 1);
    }
  }

  /** Rewinding can cycle: if every subscriber is unfiltered, the last one always answers
      `go_start()` and the others return nothing, a list of at most 257 subscribers never finishes. */
  lemma {:induction false} GoStartCycles(d: Dispatcher, subs: seq<Subscriber>, last: HandlerId, i: nat, payload: nat, ttl: int, fuel: nat)
    requires 0 < |subs| <= 257 && i < |subs|
    requires forall k :: 0 <= k < |subs| ==> subs[k].filter.None?
    requires forall k, t :: 0 <= k < |subs| - 1 ==> d.handle(subs[k].handler, payload, t).None?
    requires subs[|subs| - 1].handler == last
    requires forall t :: d.handle(last, payload, t) == Some(GoStart())
    ensures !d.Walk(subs, i, payload, ttl, fuel).completed
    decreases fuel
  {
    if fuel > 0 {
      var next := NextCursor(i, |subs|, d.handle(subs[i].handler, payload, ttl));
      if i < |subs| - 1 {
        assert next == i + 1;
      } else {
        assert next == 0;
      }
      GoStartCycles(d, subs, last, next, payload, ttl - 1, fuel - 1);
    }
  }

  /** A handler answering `Action(move=0)` is called again and again. */
  lemma {:induction false} ZeroMoveRepeats(d: Dispatcher, subs: seq<Subscriber>, i: nat, payload: nat, ttl: int, fuel: nat)
    requires i < |subs| && subs[i].filter.None?
    requires forall t :: d.handle(subs[i].handler, payload, t) == Some(Next(0))
    ensures var o := d.Walk(subs, i, payload, ttl, fuel);
      !o.completed && o.ttl == ttl - fuel && forall k :: 0 <= k < |o.calls| ==> o.calls[k] == i
    decreases fuel
  {
    if fuel > 0 {
      ZeroMoveRepeats(d, subs, i, payload, ttl - 1, fuel - 1);
    }
  }

  /** Unsubscribing a subscriber just subscribed leaves the list as unsubscribing it from the old list. */
  lemma SubscribeThenUnsubscribe(s: seq<Subscriber>, sub: Subscriber)
    ensures Without(s + [sub], sub) == Without(s, sub)
  {
    WithoutAppend(s, [sub], sub);
    assert Without([sub], sub) == [];
  }
}

=== FILE: event.dfy ===
/**
 * `Event`: the base of everything the dispatcher delivers, with its time-to-live counter
 * (src/snakia/core/es/event.py).
 */
module Events {
  import opened Wrappers

  /** An event class; `mro` lists the classes of an event's method resolution order. */
  type Kind = nat

  const DefaultTtl: int := 64

  /** The `ge=0` validator on `ttl`. */
  function CheckTtl(ttl: int): (r: Result<int>)
    ensures r.Ok? <==> ttl >= 0
    ensures r.Ok? ==> r.value == ttl
    ensures r.Err? ==> r.error == ValueError
  {
    if ttl < 0 then Err(ValueError) else Ok(ttl)
  }

  class Event {
    /** The runtime class, the classes of its MRO (most derived first) and the subclass's fields. */
    const kind: Kind
    const mro: seq<Kind>
    const payload: nat
    var ttl: int

    constructor(kind: Kind, mro: seq<Kind>, payload: nat, ttl: int)
      requires CheckTtl(ttl).Ok?
      ensures this.kind == kind && this.mro == mro && this.payload == payload && this.ttl == ttl
    {
      this.kind := kind;
      this.mro := mro;
      this.payload := payload;
      this.ttl := ttl;
    }

    /** `reduce_ttl`: one less, with no lower bound. */
    method ReduceTtl()
      modifies this
      ensures ttl == old(ttl) - 1
    {
      ttl := ttl - 1;
    }
  }

  /** Constructing an event: a negative `ttl` is refused by validation. */
  method Create(kind: Kind, mro: seq<Kind>, payload: nat, ttl: int := DefaultTtl) returns (r: Result<Event>)
    ensures r.Ok? <==> ttl >= 0
    ensures r.Ok? ==> fresh(r.value) && r.value.ttl == ttl && r.value.kind == kind && r.value.mro == mro
                       && r.value.payload == payload
    ensures r.Err? ==> r.error == ValueError
  {
    var checked := CheckTtl(ttl);
    if checked.Err? {
      return Err(checked.error);
    }
    var e := new Event(kind, mro, payload, checked.value);
    return Ok(e);
  }
}

=== FILE: health.dfy ===
/**
 * The example `HealthProcessor` (examples/health_plugin.py): per tick, heal every entity that has
 * Heal and Health, then damage every entity that has Damage and Health, removing spent effects and
 * the Health of entities whose health drops to 0 or below.
 *
 * The `DeathEvent`s the processor publishes are returned as the list of entities they name, in
 * publication order.
 */
module HealthPlugin {
  import opened Wrappers
  import opened Ecs

  /** `HealthComponent`, `DamageComponent` and `HealComponent`. */
  datatype HealthComp =
    | Health(maxValue: int, value: int)
    | Damage(damage: int, ticks: int)
    | Heal(heal: int, ticks: int)

  const HEALTH: ComponentType := 0
  const DAMAGE: ComponentType := 1
  const HEAL: ComponentType := 2

  function KindOf(c: HealthComp): ComponentType
  {
    match c
    case Health(_, _) => HEALTH
    case Damage(_, _) => DAMAGE
    case Heal(_, _) => HEAL
  }

  /** The field defaults: `HealthComponent()` is 100 of 100, and an effect lasts one tick. */
  function DefaultHealth(): (c: HealthComp)
    ensures c.Health? && c.maxValue == 100 && c.value == 100
  {
    Health(100, 100)
  }

  function NewDamage(damage: int, ticks: int := 1): (c: HealthComp)
    ensures c.Damage? && c.damage == damage && c.ticks == ticks
  {
    Damage(damage, ticks)
  }

  function NewHeal(heal: int, ticks: int := 1): (c: HealthComp)
    ensures c.Heal? && c.heal == heal && c.ticks == ticks
  {
    Heal(heal, ticks)
  }

  /** Every component sits under its own type. */
  predicate WellTyped(rec: Record<HealthComp>)
  {
    forall t :: t in rec ==> KindOf(rec[t]) == t
  }

  /** The heal loop's effect on one record. */
  function HealStep(rec: Record<HealthComp>): (r: Record<HealthComp>)
    requires WellTyped(rec)
    ensures WellTyped(r)
  {
    if HEAL in rec && HEALTH in rec then
      var hl := rec[HEAL];
      var h := rec[HEALTH];
      var healed := rec[HEALTH := Health(h.maxValue, h.value + hl.heal)];
      if hl.ticks - 1 <= 0 then healed - {HEAL} else healed[HEAL := Heal(hl.heal, hl.ticks - 1)]
    else rec
  }

  /** The damage loop's effect on one record before the death check: the health lowered and the
      damage spent by one tick. */
  function Hit(rec: Record<HealthComp>): (r: Record<HealthComp>)
    requires WellTyped(rec) && DAMAGE in rec && HEALTH in rec
    ensures WellTyped(r)
  {
    var d := rec[DAMAGE];
    var h := rec[HEALTH];
    var hit := rec[HEALTH := Health(h.maxValue, h.value - d.damage)];
    if d.ticks - 1 <= 0 then hit - {DAMAGE} else hit[DAMAGE := Damage(d.damage, d.ticks - 1)]
  }

  /** The damage loop's effect on one record, and whether it publishes a death. */
  function DamageStep(rec: Record<HealthComp>): (r: (Record<HealthComp>, bool))
    requires WellTyped(rec)
    ensures WellTyped(r.0)
  {
    if DAMAGE in rec && HEALTH in rec then
      if rec[HEALTH].value - rec[DAMAGE].damage <= 0 then (Hit(rec) - {HEALTH}, true) else (Hit(rec), false)
    else (rec, false)
  }

  /** One `process` call seen from one entity: its heal, then its damage. */
  function Tick(rec: Record<HealthComp>): (r: (Record<HealthComp>, bool))
    requires WellTyped(rec)
    ensures WellTyped(r.0)
  {
    DamageStep(HealStep(rec))
  }

  /** Tick n times, ignoring deaths. */
  function Ticks(rec: Record<HealthComp>, n: nat): (r: Record<HealthComp>)
    requires WellTyped(rec)
    ensures WellTyped(r)
  {
    if n == 0 then rec else Ticks(Tick(rec).0, n - 1)
  }

  /** Lemmas */

  /** Healing adds the heal amount to the health, without any cap at max_value, and never
      removes Health; the Heal component is spent after its ticks. */
  lemma HealAdds(rec: Record<HealthComp>)
    requires WellTyped(rec) && HEAL in rec && HEALTH in rec
    ensures var r := HealStep(rec);
      && HEALTH in r && r[HEALTH].value == rec[HEALTH].value + rec[HEAL].heal
      && r[HEALTH].maxValue == rec[HEALTH].maxValue
      && (HEAL in r <==> rec[HEAL].ticks > 1)
      && (HEAL in r ==> r[HEAL].ticks == rec[HEAL].ticks - 1)
  {
  }

  /** A death is published exactly when the entity had Damage and Health and its health fell to 0
      or below; then its Health is gone, otherwise Health is kept. */
  lemma DeathRule(rec: Record<HealthComp>)
    requires WellTyped(rec)
    ensures var (r, died) := Tick(rec);
      var mid := HealStep(rec);
      && (died <==> DAMAGE in mid && HEALTH in mid && mid[HEALTH].value - mid[DAMAGE].damage <= 0)
      && (died ==> HEALTH !in r)
      && (!died ==> (HEALTH in r <==> HEALTH in rec))
  {
  }

  /** Components of other types are never touched. */
  lemma OtherTypesUntouched(rec: Record<HealthComp>, t: ComponentType)
    requires WellTyped(rec) && t != HEALTH && t != DAMAGE && t != HEAL
    ensures (t in Tick(rec).0 <==> t in rec) && (t in rec ==> Tick(rec).0[t] == rec[t])
  {
  }

  /** A record with Health(m, v) and Damage(d, t), and no Heal: after k < t ticks that leave the
      health positive, the health is v - k*d and the damage has t - k ticks left. */
  lemma {:induction false} DamageCountdown(m: int, v: int, d: int, t: int, k: nat)
    requires k < t && v - k * d > 0 && d >= 0
    ensures Ticks(map[HEALTH := Health(m, v), DAMAGE := Damage(d, t)], k)
      == map[HEALTH := Health(m, v - k * d), DAMAGE := Damage(d, t - k)]
  {
    if k > 0 {
      var rec := map[HEALTH := Health(m, v), DAMAGE := Damage(d, t)];
      var next := map[HEALTH := Health(m, v - d), DAMAGE := Damage(d, t - 1)];
      var w := CountdownArith(v, d, k);
      CountdownStep(m, v, d, t);
      assert Ticks(rec, k) == Ticks(next, k - 1);
      DamageCountdown(m, v - d, d, t - 1, k - 1);
    }
  }

  /** The health left after the first of k hits of d, and after the other k - 1. */
  lemma CountdownArith(v: int, d: int, k: nat) returns (w: int)
    requires k > 0 && v - k * d > 0 && d >= 0
    ensures w == v - d && w > 0 && w - (k - 1) * d == v - k * d
  {
    w := v - d;
    assert k * d == (k - 1) * d + d;
    assert (k - 1) * d >= 0;
  }

  /** One tick of a record with Health(m, v) and Damage(d, t), no Heal, that leaves health and
      damage ticks: the health drops by d and the damage has one tick less. */
  lemma CountdownStep(m: int, v: int, d: int, t: int)
    requires v - d > 0 && t > 1
    ensures Tick(map[HEALTH := Health(m, v), DAMAGE := Damage(d, t)]).0
      == map[HEALTH := Health(m, v - d), DAMAGE := Damage(d, t - 1)]
  {
    var rec := map[HEALTH := Health(m, v), DAMAGE := Damage(d, t)];
    assert HEAL !in rec;
    assert HealStep(rec) == rec;
    var next := rec[HEALTH := Health(m, v - d)];
    HitParts(rec, next);
    DamageStepParts(rec);
    assert next[DAMAGE := Damage(d, t - 1)] == map[HEALTH := Health(m, v - d), DAMAGE := Damage(d, t - 1)];
  }

  /** The effects last exactly their ticks: Health 100 with Damage(10, ticks=2) is 90 after one
      tick and 80 with the Damage spent after two. */
  lemma TwoTicksOfDamage()
    ensures Tick(map[HEALTH := Health(100, 100), DAMAGE := Damage(10, 2)])
      == (map[HEALTH := Health(100, 90), DAMAGE := Damage(10, 1)], false)
    ensures Tick(map[HEALTH := Health(100, 90), DAMAGE := Damage(10, 1)])
      == (map[HEALTH := Health(100, 80)], false)
  {
    var p := map[HEALTH := Health(100, 100), DAMAGE := Damage(10, 2)];
    assert p[HEALTH := Health(100, 90)][DAMAGE := Damage(10, 1)] == map[HEALTH := Health(100, 90), DAMAGE := Damage(10, 1)];
    var r := map[HEALTH := Health(100, 90), DAMAGE := Damage(10, 1)];
    assert r[HEALTH := Health(100, 80)] - {DAMAGE} == map[HEALTH := Health(100, 80)];
  }

  /** The player of the example, `HealthComponent()` with `DamageComponent(damage=10, ticks=10)`,
      is alive after 9 ticks and dies on the 10th, losing both Health and Damage. */
  lemma PlayerDiesOnTenthTick()
    ensures var player := map[HEALTH := DefaultHealth(), DAMAGE := NewDamage(10, 10)];
      var before := Ticks(player, 9);
      && before == map[HEALTH := Health(100, 10), DAMAGE := Damage(10, 1)]
      && Tick(before) == (map[], true)
  {
    DamageCountdown(100, 100, 10, 10, 9);
    var before := map[HEALTH := Health(100, 10), DAMAGE := Damage(10, 1)];
    assert before[HEALTH := Health(100, 0)] - {DAMAGE} - {HEALTH} == map[];
  }

  /** The heal loop of `process`: heals one entity. */
  method HealEntity(sys: System<HealthComp>, e: Entity)
    requires sys.Valid() && sys.kindOf == KindOf
    requires e in sys.entities && HEAL in sys.entities[e] && HEALTH in sys.entities[e]
    modifies sys
    ensures sys.Valid()
    ensures WellTyped(old(sys.entities)[e])
    ensures sys.entities == old(sys.entities)[e := HealStep(old(sys.entities)[e])]
    ensures sys.processors == old(sys.processors) && sys.counter == old(sys.counter) && sys.dead == old(sys.dead)
  {
    var rec := sys.entities[e];
    RecordWellTyped(sys, e);
    var hl := rec[HEAL];
    var h := rec[HEALTH];
    ghost var start := sys.entities;
    ghost var next := rec[HEALTH := Health(h.maxValue, h.value + hl.heal)];
    HealStepParts(rec, next);
    SetEffect(sys, e, Health(h.maxValue, h.value + hl.heal));
    if hl.ticks - 1 <= 0 {
      DropEffect(sys, e, HEAL);
      Overwrite(start, e, next, next - {HEAL});
    } else {
      SetEffect(sys, e, Heal(hl.heal, hl.ticks - 1));
      Overwrite(start, e, next, next[HEAL := Heal(hl.heal, hl.ticks - 1)]);
    }
  }

  /** The heal step writes the raised Health, then spends one tick of Heal, dropping it when
      none is left. */
  lemma HealStepParts(rec: Record<HealthComp>, next: Record<HealthComp>)
    requires WellTyped(rec) && HEAL in rec && HEALTH in rec
    requires next == rec[HEALTH := Health(rec[HEALTH].maxValue, rec[HEALTH].value + rec[HEAL].heal)]
    ensures rec[HEAL].ticks - 1 <= 0 ==> HealStep(rec) == next - {HEAL}
    ensures rec[HEAL].ticks - 1 > 0 ==> HealStep(rec) == next[HEAL := Heal(rec[HEAL].heal, rec[HEAL].ticks - 1)]
  {
  }

  /** The hit writes the lowered Health, then spends one tick of Damage, dropping it when none
      is left. */
  lemma HitParts(rec: Record<HealthComp>, next: Record<HealthComp>)
    requires WellTyped(rec) && DAMAGE in rec && HEALTH in rec
    requires next == rec[HEALTH := Health(rec[HEALTH].maxValue, rec[HEALTH].value - rec[DAMAGE].damage)]
    ensures rec[DAMAGE].ticks - 1 <= 0 ==> Hit(rec) == next - {DAMAGE}
    ensures rec[DAMAGE].ticks - 1 > 0 ==> Hit(rec) == next[DAMAGE := Damage(rec[DAMAGE].damage, rec[DAMAGE].ticks - 1)]
  {
  }

  /** The damage step on an entity with Damage and Health: the hit, then the loss of Health
      when the hit leaves none. */
  lemma DamageStepParts(rec: Record<HealthComp>)
    requires WellTyped(rec) && DAMAGE in rec && HEALTH in rec
    ensures DamageStep(rec).1 <==> rec[HEALTH].value - rec[DAMAGE].damage <= 0
    ensures DamageStep(rec).0 == if DamageStep(rec).1 then Hit(rec) - {HEALTH} else Hit(rec)
  {
  }

  /** Writing an entity's record twice keeps the second. */
  lemma Overwrite(m: map<Entity, Record<HealthComp>>, e: Entity, a: Record<HealthComp>, b: Record<HealthComp>)
    ensures m[e := a][e := b] == m[e := b]
  {
  }

  /** Every record of a valid system of these components is well typed. */
  lemma RecordWellTyped(sys: System<HealthComp>, e: Entity)
    requires sys.Valid() && sys.kindOf == KindOf && e in sys.entities
    ensures WellTyped(sys.entities[e])
  {
    forall t | t in sys.entities[e]
      ensures KindOf(sys.entities[e][t]) == t
    {
      assert sys.kindOf(sys.entities[e][t]) == t;
    }
  }

  /** `add_component` on an entity that has a record: the component replaces the one of its type. */
  method SetEffect(sys: System<HealthComp>, e: Entity, c: HealthComp)
    requires sys.Valid() && sys.kindOf == KindOf && e in sys.entities
    modifies sys
    ensures sys.Valid() && sys.kindOf == KindOf
    ensures var rec: Record<HealthComp> := old(sys.entities)[e][KindOf(c) := c]; sys.entities == old(sys.entities)[e := rec]
    ensures sys.processors == old(sys.processors) && sys.counter == old(sys.counter) && sys.dead == old(sys.dead)
  {
    sys.AddComponent(e, c);
  }

  /** `remove_component` on an entity that has a record. */
  method DropEffect(sys: System<HealthComp>, e: Entity, t: ComponentType)
    requires sys.Valid() && sys.kindOf == KindOf && e in sys.entities
    modifies sys
    ensures sys.Valid() && sys.kindOf == KindOf
    ensures sys.entities == old(sys.entities)[e := old(sys.entities)[e] - {t}]
    ensures sys.processors == old(sys.processors) && sys.counter == old(sys.counter) && sys.dead == old(sys.dead)
  {
    var removed := sys.RemoveComponent(e, t);
  }

  /** The damage loop of `process`, up to the death check. */
  method HitEntity(sys: System<HealthComp>, e: Entity) returns (value: int)
    requires sys.Valid() && sys.kindOf == KindOf
    requires e in sys.entities && DAMAGE in sys.entities[e] && HEALTH in sys.entities[e]
    modifies sys
    ensures sys.Valid()
    ensures WellTyped(old(sys.entities)[e])
    ensures value == old(sys.entities)[e][HEALTH].value - old(sys.entities)[e][DAMAGE].damage
    ensures sys.entities == old(sys.entities)[e := Hit(old(sys.entities)[e])]
    ensures sys.processors == old(sys.processors) && sys.counter == old(sys.counter) && sys.dead == old(sys.dead)
  {
    var rec := sys.entities[e];
    RecordWellTyped(sys, e);
    var d := rec[DAMAGE];
    var h := rec[HEALTH];
    value := h.value - d.damage;
    ghost var start := sys.entities;
    ghost var next := rec[HEALTH := Health(h.maxValue, value)];
    HitParts(rec, next);
    SetEffect(sys, e, Health(h.maxValue, value));
    if d.ticks - 1 <= 0 {
      DropEffect(sys, e, DAMAGE);
      Overwrite(start, e, next, next - {DAMAGE});
    } else {
      SetEffect(sys, e, Damage(d.damage, d.ticks - 1));
      Overwrite(start, e, next, next[DAMAGE := Damage(d.damage, d.ticks - 1)]);
    }
  }

  /** The damage loop of `process`: damages one entity, and reports whether it died. */
  method DamageEntity(sys: System<HealthComp>, e: Entity) returns (died: bool)
    requires sys.Valid() && sys.kindOf == KindOf
    requires e in sys.entities && DAMAGE in sys.entities[e] && HEALTH in sys.entities[e]
    modifies sys
    ensures sys.Valid()
    ensures WellTyped(old(sys.entities)[e])
    ensures died == DamageStep(old(sys.entities)[e]).1
    ensures sys.entities == old(sys.entities)[e := DamageStep(old(sys.entities)[e]).0]
    ensures sys.processors == old(sys.processors) && sys.counter == old(sys.counter) && sys.dead == old(sys.dead)
  {
    ghost var start := sys.entities;
    ghost var rec := start[e];
    var value := HitEntity(sys, e);
    DamageStepParts(rec);
    died := value <= 0;
    if died {
      DropEffect(sys, e, HEALTH);
      Overwrite(start, e, Hit(rec), Hit(rec) - {HEALTH});
    }
  }

  /** Part way through the heal loop: the entities of left are untouched, all others healed. */
  ghost predicate HealedBut(cur: map<Entity, Record<HealthComp>>, start: map<Entity, Record<HealthComp>>, left: set<Entity>)
  {
    && cur.Keys == start.Keys
    && forall x :: x in start ==> WellTyped(start[x]) && cur[x] == if x in left then start[x] else HealStep(start[x])
  }

  /** Part way through the damage loop: the entities of left are untouched, all others damaged. */
  ghost predicate DamagedBut(cur: map<Entity, Record<HealthComp>>, start: map<Entity, Record<HealthComp>>, left: set<Entity>)
  {
    && cur.Keys == start.Keys
    && forall x :: x in start ==> WellTyped(start[x]) && cur[x] == if x in left then start[x] else DamageStep(start[x]).0
  }

  /** The deaths published part way through the damage loop: once each, for the damaged
      entities that died. */
  ghost predicate DeathsBut(deaths: seq<Entity>, start: map<Entity, Record<HealthComp>>, left: set<Entity>)
  {
    && (forall x :: x in deaths <==> x in start && x !in left && WellTyped(start[x]) && DamageStep(start[x]).1)
    && forall i, j :: 0 <= i < j < |deaths| ==> deaths[i] != deaths[j]
  }

  lemma DeathStep(deaths: seq<Entity>, start: map<Entity, Record<HealthComp>>, left: set<Entity>, e: Entity, died: bool)
    requires e in left && e in start && WellTyped(start[e]) && died == DamageStep(start[e]).1
    requires DeathsBut(deaths, start, left)
    ensures DeathsBut(if died then deaths + [e] else deaths, start, left - {e})
  {
  }

  lemma HealLoopStep(cur: map<Entity, Record<HealthComp>>, start: map<Entity, Record<HealthComp>>, left: set<Entity>, e: Entity)
    requires e in left && e in start && HealedBut(cur, start, left)
    ensures HealedBut(cur[e := HealStep(start[e])], start, left - {e})
  {
  }

  lemma DamageLoopStep(cur: map<Entity, Record<HealthComp>>, start: map<Entity, Record<HealthComp>>, left: set<Entity>, e: Entity)
    requires e in left && e in start && DamagedBut(cur, start, left)
    ensures DamagedBut(cur[e := DamageStep(start[e]).0], start, left - {e})
  {
  }

  /** The heal loop, over the entities holding Heal and Health when it starts. */
  method HealAll(sys: System<HealthComp>)
    requires sys.Valid() && sys.kindOf == KindOf
    modifies sys
    ensures sys.Valid()
    ensures sys.entities.Keys == old(sys.entities).Keys
    ensures forall e :: e in old(sys.entities) ==>
      WellTyped(old(sys.entities)[e]) && sys.entities[e] == HealStep(old(sys.entities)[e])
    ensures sys.processors == old(sys.processors) && sys.counter == old(sys.counter) && sys.dead == old(sys.dead)
  {
    var healing := sys.GetComponents([HEAL, HEALTH]);
    var todo := healing.value.Keys;
    assert forall e :: e in todo <==> e in sys.entities && [HEAL, HEALTH][0] in sys.entities[e] && [HEAL, HEALTH][1] in sys.entities[e];
    HealEach(sys, todo);
  }

  /** The body of the heal loop, run for each entity of todo. */
  method HealEach(sys: System<HealthComp>, todo: set<Entity>)
    requires sys.Valid() && sys.kindOf == KindOf
    requires forall e :: e in todo <==> e in sys.entities && HEAL in sys.entities[e] && HEALTH in sys.entities[e]
    modifies sys
    ensures sys.Valid()
    ensures sys.entities.Keys == old(sys.entities).Keys
    ensures forall e :: e in old(sys.entities) ==>
      WellTyped(old(sys.entities)[e]) && sys.entities[e] == HealStep(old(sys.entities)[e])
    ensures sys.processors == old(sys.processors) && sys.counter == old(sys.counter) && sys.dead == old(sys.dead)
  {
    ghost var start := sys.entities;
    var left := todo;
    while left != {}
      invariant sys.Valid() && sys.kindOf == KindOf
      invariant left <= todo && HealedBut(sys.entities, start, left)
      invariant sys.processors == old(sys.processors) && sys.counter == old(sys.counter) && sys.dead == old(sys.dead)
      decreases left
    {
      ghost var member := SomeMember(left);
      var e :| e in left;
      ghost var cur := sys.entities;
      HealEntity(sys, e);
      HealLoopStep(cur, start, left, e);
      left := left - {e};
    }
  }

  /** The damage loop, over the entities holding Damage and Health when it starts; the entities
      that die, in publication order. */
  method DamageAll(sys: System<HealthComp>) returns (deaths: seq<Entity>)
    requires sys.Valid() && sys.kindOf == KindOf
    modifies sys
    ensures sys.Valid()
    ensures sys.entities.Keys == old(sys.entities).Keys
    ensures forall e :: e in old(sys.entities) ==>
      WellTyped(old(sys.entities)[e]) && sys.entities[e] == DamageStep(old(sys.entities)[e]).0
    ensures forall e :: e in deaths <==> e in old(sys.entities) && DamageStep(old(sys.entities)[e]).1
    ensures forall i, j :: 0 <= i < j < |deaths| ==> deaths[i] != deaths[j]
    ensures sys.processors == old(sys.processors) && sys.counter == old(sys.counter) && sys.dead == old(sys.dead)
  {
    var damaging := sys.GetComponents([DAMAGE, HEALTH]);
    var todo := damaging.value.Keys;
    assert forall e :: e in todo <==> e in sys.entities && [DAMAGE, HEALTH][0] in sys.entities[e] && [DAMAGE, HEALTH][1] in sys.entities[e];
    deaths := DamageEach(sys, todo);
  }

  /** The body of the damage loop, run for each entity of todo. */
  method DamageEach(sys: System<HealthComp>, todo: set<Entity>) returns (deaths: seq<Entity>)
    requires sys.Valid() && sys.kindOf == KindOf
    requires forall e :: e in todo <==> e in sys.entities && DAMAGE in sys.entities[e] && HEALTH in sys.entities[e]
    modifies sys
    ensures sys.Valid()
    ensures sys.entities.Keys == old(sys.entities).Keys
    ensures forall e :: e in old(sys.entities) ==>
      WellTyped(old(sys.entities)[e]) && sys.entities[e] == DamageStep(old(sys.entities)[e]).0
    ensures forall e :: e in deaths <==> e in old(sys.entities) && DamageStep(old(sys.entities)[e]).1
    ensures forall i, j :: 0 <= i < j < |deaths| ==> deaths[i] != deaths[j]
    ensures sys.processors == old(sys.processors) && sys.counter == old(sys.counter) && sys.dead == old(sys.dead)
  {
    ghost var start := sys.entities;
    var left := todo;
    deaths := [];
    while left != {}
      invariant sys.Valid() && sys.kindOf == KindOf
      invariant left <= todo && DamagedBut(sys.entities, start, left)
      invariant DeathsBut(deaths, start, left)
      invariant sys.processors == old(sys.processors) && sys.counter == old(sys.counter) && sys.dead == old(sys.dead)
      decreases left
    {
      ghost var member := SomeMember(left);
      var e :| e in left;
      ghost var cur := sys.entities;
      var died := DamageEntity(sys, e);
      DamageLoopStep(cur, start, left, e);
      DeathStep(deaths, start, left, e, died);
      if died {
        deaths := deaths + [e];
      }
      left := left - {e};
    }
  }

  /** `HealthProcessor.process`: the heal loop over the holders of Heal and Health, then the damage
      loop over the holders of Damage and Health, publishing a death for each entity that dies;
      each entity ends up ticked once. */
  method Process(sys: System<HealthComp>) returns (deaths: seq<Entity>)
    requires sys.Valid() && sys.kindOf == KindOf
    modifies sys
    ensures sys.Valid()
    ensures sys.entities.Keys == old(sys.entities).Keys
    ensures forall e :: e in old(sys.entities) ==>
      WellTyped(old(sys.entities)[e]) && sys.entities[e] == Tick(old(sys.entities)[e]).0
    ensures forall e :: e in deaths <==> e in old(sys.entities) && Tick(old(sys.entities)[e]).1
    ensures forall i, j :: 0 <= i < j < |deaths| ==> deaths[i] != deaths[j]
    ensures sys.processors == old(sys.processors) && sys.counter == old(sys.counter) && sys.dead == old(sys.dead)
  {
    HealAll(sys);
    deaths := DamageAll(sys);
  }
}

=== FILE: horizontal_split.dfy ===
/**
 * `HorizontalSplitWidget.on_render` (src/snakia/core/tui/widgets/horizontal_split.py): the
 * children's canvases side by side, left to right, one splitter column between neighbours, as
 * tall as the tallest child; the rest of a shorter child's band keeps the blank default.
 */
module HorizontalSplits {
  import opened CanvasChars
  import opened Canvases

  /** The splitter used when none is given. */
  const DefaultSplitter := "|"

  /** The summed widths of the first n children. */
  function SumWidths(children: seq<Canvas>, n: nat): nat
    requires n <= |children|
  {
    if n == 0 then 0 else SumWidths(children, n - 1) + children[n - 1].width
  }

  /** The tallest of the first n children. */
  function MaxHeight(children: seq<Canvas>, n: nat): (h: nat)
    requires 1 <= n <= |children|
    ensures forall i :: 0 <= i < n ==> children[i].height <= h
    ensures exists i :: 0 <= i < n && children[i].height == h
  {
    if n == 1 then children[0].height
    else
      var rest := MaxHeight(children, n - 1);
      if children[n - 1].height > rest then children[n - 1].height else rest
  }

  /** The width of the result: all children plus one splitter column between each two. */
  function TotalWidth(children: seq<Canvas>): nat
    requires children != []
  {
    SumWidths(children, |children|) + |children| - 1
  }

  /** The column where child i's band starts: the widths before it plus one splitter each. */
  function Offset(children: seq<Canvas>, i: nat): nat
    requires i <= |children|
  {
    SumWidths(children, i) + i
  }

  /** The column of child i's column dx. */
  function Column(children: seq<Canvas>, i: nat, dx: int): (X: int)
    requires i < |children| && 0 <= dx < children[i].width
    ensures Offset(children, i) <= X < SplitterColumn(children, i)
  {
    Offset(children, i) + dx
  }

  /** The column just right of child i's band, where the splitter after it goes. */
  function SplitterColumn(children: seq<Canvas>, i: nat): nat
    requires i < |children|
  {
    Offset(children, i) + children[i].width
  }

  /** Bands and splitters come strictly left to right. */
  lemma {:induction false} OffsetsIncrease(children: seq<Canvas>, j: nat, i: nat)
    requires j < i <= |children|
    ensures SplitterColumn(children, j) < Offset(children, i)
    decreases i - j
  {
    if i > j + 1 {
      OffsetsIncrease(children, j, i - 1);
    }
  }

  /** Every column of the result lies in the band of the returned child, or is the
      splitter column right after it, and no splitter follows the last child. */
  function BandOf(children: seq<Canvas>, X: int, i: nat := 0): (b: nat)
    requires children != [] && i < |children| && Offset(children, i) <= X < TotalWidth(children)
    ensures i <= b < |children| && Offset(children, b) <= X <= SplitterColumn(children, b)
    ensures X == SplitterColumn(children, b) ==> b < |children| - 1
    decreases |children| - i
  {
    if i == |children| - 1 || X <= SplitterColumn(children, i) then i
    else BandOf(children, X, i + 1)
  }

  /** Every band ends inside the result, and every splitter column but the last child's lies
      inside it. */
  lemma SplittersFit(children: seq<Canvas>)
    requires children != []
    ensures forall i :: 0 <= i < |children| ==> SplitterColumn(children, i) <= TotalWidth(children)
    ensures forall i :: 0 <= i < |children| - 1 ==> SplitterColumn(children, i) < TotalWidth(children)
  {
    var n := |children|;
    forall i | 0 <= i < n
      ensures SplitterColumn(children, i) <= TotalWidth(children)
      ensures i < n - 1 ==> SplitterColumn(children, i) < TotalWidth(children)
    {
      OffsetsIncrease(children, i, n);
      if i < n - 1 {
        OffsetsIncrease(children, i, n - 1);
      }
    }
  }

  /** The bands do not overlap: a column lies in the band of at most one child. */
  lemma BandsDisjoint(children: seq<Canvas>, j: nat, i: nat, X: int)
    requires j < i < |children|
    requires Offset(children, j) <= X < SplitterColumn(children, j)
    ensures !(Offset(children, i) <= X <= SplitterColumn(children, i))
  {
    OffsetsIncrease(children, j, i);
  }

  /** What child i shows at its column dx and row dy of the result: its own cell, or the
      blank default below a child shorter than the tallest. */
  function Band(child: Canvas, dx: int, dy: int): (c: CanvasChar)
    requires child.Valid() && 0 <= dx < child.width && 0 <= dy
    reads child
    ensures dy >= child.height ==> c == Blank
  {
    if dy < child.height then child.Get(dx, dy) else Blank
  }

  /** The result has the size the children call for, so every band and splitter fits. */
  ghost predicate Frame(result: Canvas, children: seq<Canvas>)
    reads result, children
  {
    && children != [] && result.Valid() && result !in children
    && (forall j :: 0 <= j < |children| ==> children[j].Valid())
    && result.width == TotalWidth(children) && result.height == MaxHeight(children, |children|)
    && (forall j :: 0 <= j < |children| ==> SplitterColumn(children, j) <= result.width)
    && (forall j :: 0 <= j < |children| - 1 ==> SplitterColumn(children, j) < result.width)
  }

  /** The first `bands` children and the first `splitters` splitter columns are in place. */
  ghost predicate Placed(result: Canvas, children: seq<Canvas>, bands: nat, splitters: nat, splitter: string)
    reads result, children
    requires Frame(result, children) && bands <= |children| && splitters < |children|
  {
    && (forall j, dx, dy :: 0 <= j < bands && 0 <= dx < children[j].width && 0 <= dy < result.height ==>
          result.Get(Column(children, j, dx), dy) == Band(children[j], dx, dy))
    && (forall j, y :: 0 <= j < splitters && 0 <= y < result.height ==>
          result.Get(SplitterColumn(children, j), y) == Plain(splitter))
  }

  /** Every column from X on still holds the blank default. */
  ghost predicate BlankFrom(result: Canvas, X: int)
    reads result
    requires result.Valid()
  {
    forall X', Y :: 0 <= X' && X <= X' < result.width && 0 <= Y < result.height ==> result.Get(X', Y) == Blank
  }

  /** The first half of one pass of the loop: `copy_from(canvas, x_offset, 0)` for child i. */
  method CopyChild(result: Canvas, children: seq<Canvas>, i: nat, splitter: string)
    requires Frame(result, children) && i < |children|
    requires Placed(result, children, i, i, splitter) && BlankFrom(result, Offset(children, i))
    modifies result
    ensures Frame(result, children)
    ensures Placed(result, children, i + 1, i, splitter) && BlankFrom(result, SplitterColumn(children, i))
  {
    forall j | 0 <= j < i
      ensures SplitterColumn(children, j) < Offset(children, i)
    {
      OffsetsIncrease(children, j, i);
    }
    var child := children[i];
    var xOffset := Offset(children, i);
    label before:
    result.CopyFrom(child, xOffset, 0);
    forall j, dx, dy | 0 <= j < i + 1 && 0 <= dx < children[j].width && 0 <= dy < result.height
      ensures result.Get(Column(children, j, dx), dy) == Band(children[j], dx, dy)
    {
      var X := Column(children, j, dx);
      if j == i && dy < child.height {
        assert X - xOffset == dx;
      } else {
        assert result.Get(X, dy) == old@before(result.Get(X, dy));
      }
    }
    forall j, y | 0 <= j < i && 0 <= y < result.height
      ensures result.Get(SplitterColumn(children, j), y) == Plain(splitter)
    {
      var X := SplitterColumn(children, j);
      assert result.Get(X, y) == old@before(result.Get(X, y));
    }
    forall X, Y | 0 <= X && SplitterColumn(children, i) <= X < result.width && 0 <= Y < result.height
      ensures result.Get(X, Y) == Blank
    {
      assert result.Get(X, Y) == old@before(result.Get(X, Y));
    }
  }

  /** The second half of one pass, for every child but the last: the splitter column right
      after child i's band. */
  method PlaceSplitter(result: Canvas, children: seq<Canvas>, i: nat, splitter: string)
    requires Frame(result, children) && i < |children| - 1
    requires Placed(result, children, i + 1, i, splitter) && BlankFrom(result, SplitterColumn(children, i))
    modifies result
    ensures Frame(result, children)
    ensures Placed(result, children, i + 1, i + 1, splitter) && BlankFrom(result, Offset(children, i + 1))
  {
    forall j | 0 <= j < i
      ensures SplitterColumn(children, j) < SplitterColumn(children, i)
    {
      OffsetsIncrease(children, j, i);
    }
    var X := SplitterColumn(children, i);
    label before:
    result.SetColumn(X, Plain(splitter));
    forall j, dx, dy | 0 <= j < i + 1 && 0 <= dx < children[j].width && 0 <= dy < result.height
      ensures result.Get(Column(children, j, dx), dy) == Band(children[j], dx, dy)
    {
      var X' := Column(children, j, dx);
      assert result.Get(X', dy) == old@before(result.Get(X', dy));
    }
    forall j, y | 0 <= j < i && 0 <= y < result.height
      ensures result.Get(SplitterColumn(children, j), y) == Plain(splitter)
    {
      var X' := SplitterColumn(children, j);
      assert result.Get(X', y) == old@before(result.Get(X', y));
    }
    forall X', Y | 0 <= X' && Offset(children, i + 1) <= X' < result.width && 0 <= Y < result.height
      ensures result.Get(X', Y) == Blank
    {
      assert result.Get(X', Y) == old@before(result.Get(X', Y));
    }
  }

  /** The rendered split. */
  method RenderHorizontalSplit(children: seq<Canvas>, splitter: string := DefaultSplitter) returns (result: Canvas)
    requires forall i :: 0 <= i < |children| ==> children[i].Valid()
    ensures fresh(result) && result.Valid()
    ensures children == [] ==> result.width == 0 && result.height == 0
    ensures children != [] ==> result.width == TotalWidth(children) && result.height == MaxHeight(children, |children|)
    ensures forall i :: 0 <= i < |children| ==> SplitterColumn(children, i) <= result.width
    ensures forall i :: 0 <= i < |children| - 1 ==> SplitterColumn(children, i) < result.width
    ensures forall i, dx, dy :: 0 <= i < |children| && 0 <= dx < children[i].width && 0 <= dy < result.height ==>
      result.Get(Column(children, i, dx), dy) == if dy < children[i].height then children[i].Get(dx, dy) else Blank
    ensures forall i, y :: 0 <= i < |children| - 1 && 0 <= y < result.height ==>
      result.Get(SplitterColumn(children, i), y) == Plain(splitter)
  {
    if children == [] {
      result := new Canvas(0, 0, Blank);
      return;
    }
    var n := |children|;
    var width := TotalWidth(children);
    var height := MaxHeight(children, n);
    result := new Canvas(width, height, Blank);
    SplittersFit(children);
    var i := 0;
    while i < n - 1
      invariant 0 <= i < n && Frame(result, children) && fresh(result)
      invariant Placed(result, children, i, i, splitter) && BlankFrom(result, Offset(children, i))
    {
      CopyChild(result, children, i, splitter);
      PlaceSplitter(result, children, i, splitter);
      i := i + 1;
    }
    CopyChild(result, children, n - 1, splitter);
  }
}

=== FILE: int_field.dfy ===
/**
 * `IntField`: an integer stored as its minimal unsigned little-endian bytes
 * (src/snakia/field/int.py).
 */
module IntField {
  import opened Wrappers
  import opened ByteCodec

  /** `deserialize`: the unsigned little-endian value; no bytes read as 0. */
  function Deserialize(serialized: seq<Byte>): (v: nat)
    ensures v < Pow256(|serialized|)
    ensures serialized == [] ==> v == 0
  {
    FromLittleEndian(serialized)
  }

  /** `serialize`: `(bit_length + 7) // 8` bytes, little-endian; negative values overflow. */
  function Serialize(value: int): (r: Result<seq<Byte>>)
    ensures r.Ok? <==> value >= 0
    ensures r.Err? ==> r.error == OverflowError
    ensures r.Ok? ==> |r.value| == (BitLength(value) + 7) / 8 && Deserialize(r.value) == value
  {
    LengthFits(value);
    ToBytes(value, (BitLength(Abs(value)) + 7) / 8)
  }

  lemma LengthFits(value: int)
    ensures value >= 0 ==> value < Pow256((BitLength(Abs(value)) + 7) / 8)
  {
    if value >= 0 { ByteLengthBounds(value); }
  }

  /** Zero is written as no bytes at all. */
  lemma ZeroIsEmpty()
    ensures Serialize(0) == Ok([])
  {
  }

  /** Byte i of the encoding is `(value >> 8i) & 0xFF`. */
  lemma SerializeDigits(value: nat, i: nat)
    requires i < |Serialize(value).value|
    ensures Serialize(value).value[i] == (value / Pow256(i)) % 256
  {
    LittleEndianDigits(value, ByteLength(value), i);
  }

  /** The encoding is minimal: the last byte of a positive value is never zero. */
  lemma SerializeIsMinimal(value: nat)
    requires value > 0
    ensures var b := Serialize(value).value; b != [] && b[|b| - 1] != 0
  {
    var n := ByteLength(value);
    ByteLengthBounds(value);
    SerializeDigits(value, n - 1);
    TopDigit(value, Pow256(n - 1));
  }

  /** Bytes ending in a non-zero byte read as a value that needs all of them. */
  lemma {:induction false} NoTrailingZeroLowerBound(b: seq<Byte>)
    requires b != [] && b[|b| - 1] != 0
    ensures Pow256(|b| - 1) <= FromLittleEndian(b)
  {
    if |b| > 1 {
      NoTrailingZeroLowerBound(b[1..]);
      MulMonotone(256, Pow256(|b| - 2), FromLittleEndian(b[1..]));
    }
  }

  /** Bytes ending in a zero byte read as a value that fits in one byte fewer. */
  lemma {:induction false} TrailingZeroUpperBound(b: seq<Byte>)
    requires b != [] && b[|b| - 1] == 0
    ensures FromLittleEndian(b) < Pow256(|b| - 1)
  {
    if |b| > 1 {
      TrailingZeroUpperBound(b[1..]);
      MulMonotone(256, FromLittleEndian(b[1..]), Pow256(|b| - 2) - 1);
    }
  }

  /** Re-encoding a decoded value gives the same bytes exactly when they have no trailing zero byte. */
  lemma SerializeDeserialize(b: seq<Byte>)
    ensures Serialize(Deserialize(b)) == Ok(b) <==> (b == [] || b[|b| - 1] != 0)
  {
    var v := Deserialize(b);
    if b == [] {
    } else if b[|b| - 1] != 0 {
      NoTrailingZeroLowerBound(b);
      ByteLengthUnique(v, |b|);
      FromLittleEndianRoundTrip(b);
    } else {
      TrailingZeroUpperBound(b);
      ByteLengthBounds(v);
      var m := ByteLength(v);
      if m >= |b| {
        Pow256Monotone(|b| - 1, m - 1);
      }
      assert |Serialize(v).value| != |b|;
    }
  }
}

=== FILE: linux_release.dfy ===
/**
 * The os-release(5) parser of `LinuxLayer` (src/snakia/platform/linux.py), as a function of the
 * file text, and the accessors with their defaults.
 */
module LinuxRelease {
  import opened Wrappers
  import opened Texts

  /** One assignment line: the variable name and its unquoted, unescaped value. */
  datatype Entry = Entry(name: string, value: string)

  predicate IsNameChar(c: char)
  {
    'a' <= c <= 'z' || 'A' <= c <= 'Z' || '0' <= c <= '9' || c == '_'
  }

  /** `[a-zA-Z0-9_]+`. */
  predicate IsName(s: string)
  {
    s != [] && forall i :: 0 <= i < |s| ==> IsNameChar(s[i])
  }

  predicate IsQuote(c: char) { c == '"' || c == '\'' }

  /** The characters a backslash escapes: \ $ " ' and `. */
  predicate IsEscapable(c: char) { c == '\\' || c == '$' || c == '"' || c == '\'' || c == '`' }

  /** The position of the first '=' in s, if there is one. */
  function FirstEquals(s: string): (r: Option<nat>)
    ensures r.Some? ==> r.value < |s| && s[r.value] == '=' && '=' !in s[..r.value]
    ensures r.None? ==> '=' !in s
  {
    if s == [] then None
    else if s[0] == '=' then Some(0)
    else
      match FirstEquals(s[1..])
      case None => None
      case Some(i) =>
        assert s[..i + 1] == [s[0]] + s[1..][..i];
        Some(i + 1)
  }

  /** The `(?P<quote>["']?)(?P<value>.*)(?P=quote)$` part: matching quotes around a text of at
      least two characters are dropped, anything else is kept as it is. */
  function Unquote(s: string): (v: string)
    ensures |v| == |s| || |v| == |s| - 2
  {
    if |s| >= 2 && IsQuote(s[0]) && s[|s| - 1] == s[0] then s[1..|s| - 1] else s
  }

  /** `re.sub(r"\\([\\$\"'`])", r"\1", s)`: scanning left to right, a backslash before an
      escapable character is dropped and that character is kept as it is. */
  function Unescape(s: string): (r: string)
    ensures |r| <= |s|
  {
    if |s| >= 2 && s[0] == '\\' && IsEscapable(s[1]) then [s[1]] + Unescape(s[2..])
    else if s == [] then []
    else [s[0]] + Unescape(s[1..])
  }

  /** The inverse of unescaping: a backslash before every escapable character. */
  function Escape(s: string): (r: string)
  {
    if s == [] then [] else (if IsEscapable(s[0]) then ['\\', s[0]] else [s[0]]) + Escape(s[1..])
  }

  /** The line regular expression, anchored at both ends: a name, '=' and the value. */
  function MatchLine(line: string): (r: Option<Entry>)
    ensures r.Some? ==> IsName(r.value.name)
  {
    match FirstEquals(line)
    case None => None
    case Some(i) =>
      if IsName(line[..i]) then Some(Entry(line[..i], Unescape(Unquote(line[i + 1..])))) else None
  }

  /** The dictionary built from the lines, in order, starting from {"ID": "linux"}. */
  function Info(lines: seq<string>): (info: map<string, string>)
    ensures "ID" in info
  {
    if lines == [] then map["ID" := "linux"]
    else
      var before := Info(lines[..|lines| - 1]);
      match MatchLine(lines[|lines| - 1])
      case Some(e) => before[e.name := e.value]
      case None => before
  }

  /** The value the last line assigning `name` gives it, if any line does. */
  function LastValue(lines: seq<string>, name: string): (r: Option<string>)
  {
    if lines == [] then None
    else
      var e := MatchLine(lines[|lines| - 1]);
      if e.Some? && e.value.name == name then Some(e.value.value) else LastValue(lines[..|lines| - 1], name)
  }

  /** `os_release`, parsing the text of the file: one pass over its lines. */
  method OsRelease(raw: string) returns (info: map<string, string>)
    ensures info == Info(Split(raw, '\n'))
  {
    var lines := Split(raw, '\n');
    info := map["ID" := "linux"];
    var n := 0;
    while n < |lines|
      invariant n <= |lines|
      invariant info == Info(lines[..n])
    {
      assert lines[..n + 1][..n] == lines[..n];
      var mo := MatchLine(lines[n]);
      if mo.Some? {
        info := info[mo.value.name := mo.value.value];
      }
      n := n + 1;
    }
    assert lines[..n] == lines;
  }

  /** `dict.get(key, default)`. */
  function Get(info: map<string, string>, key: string, default: string): string
  {
    if key in info then info[key] else default
  }

  function DistroName(raw: string): string { Get(Info(Split(raw, '\n')), "name", "linux") }
  function DistroPrettyName(raw: string): string { Get(Info(Split(raw, '\n')), "PRETTY_NAME", "Linux") }
  function DistroId(raw: string): string { Get(Info(Split(raw, '\n')), "ID", "linux") }
  function VersionId(raw: string): string { Get(Info(Split(raw, '\n')), "VERSION_ID", "0") }
  function Codename(raw: string): string { Get(Info(Split(raw, '\n')), "VERSION_CODENAME", "unknown") }

  /** Lemmas */

  /** The dictionary holds "ID" and the names some line assigns, each with the value of the last
      line assigning it; "ID" defaults to "linux". */
  lemma {:induction false} InfoIsLastValue(lines: seq<string>, name: string)
    ensures name in Info(lines) <==> name == "ID" || LastValue(lines, name).Some?
    ensures name in Info(lines) ==> Info(lines)[name] == LastValue(lines, name).GetOr("linux")
  {
    if lines != [] {
      InfoIsLastValue(lines[..|lines| - 1], name);
    }
  }

  /** Each accessor gives the value the last line assigning its key sets, or its default. */
  lemma Accessors(raw: string)
    ensures var lines := Split(raw, '\n');
      && DistroName(raw) == LastValue(lines, "name").GetOr("linux")
      && DistroPrettyName(raw) == LastValue(lines, "PRETTY_NAME").GetOr("Linux")
      && DistroId(raw) == LastValue(lines, "ID").GetOr("linux")
      && VersionId(raw) == LastValue(lines, "VERSION_ID").GetOr("0")
      && Codename(raw) == LastValue(lines, "VERSION_CODENAME").GetOr("unknown")
  {
    var lines := Split(raw, '\n');
    InfoIsLastValue(lines, "name");
    InfoIsLastValue(lines, "PRETTY_NAME");
    InfoIsLastValue(lines, "ID");
    InfoIsLastValue(lines, "VERSION_ID");
    InfoIsLastValue(lines, "VERSION_CODENAME");
  }

  /** A line `NAME=text`, NAME free of '=', is read as NAME and the unquoted, unescaped text when
      NAME is a name, and is ignored otherwise. */
  lemma MatchAssignment(name: string, text: string)
    requires '=' !in name
    ensures MatchLine(name + "=" + text)
      == if IsName(name) then Some(Entry(name, Unescape(Unquote(text)))) else None
  {
    var line := name + "=" + text;
    FirstEqualsAfterName(name, text);
    assert line[..|name|] == name && line[|name| + 1..] == text;
  }

  lemma FirstEqualsAfterName(name: string, text: string)
    requires '=' !in name
    ensures FirstEquals(name + "=" + text) == Some(|name|)
  {
    var line := name + "=" + text;
    var r := FirstEquals(line);
    assert line[|name|] == '=';
    assert r.Some?;
  }

  /** Quoting a text with double or single quotes is undone by the parser. */
  lemma UnquoteQuoted(q: char, v: string)
    requires IsQuote(q)
    ensures Unquote([q] + v + [q]) == v
  {
    assert ([q] + v + [q])[1..|v| + 1] == v;
  }

  /** A text without a matching pair of quotes around it is read as it is: the regex then
      matches with an empty `quote` group. */
  lemma UnquoteVerbatim(s: string)
    requires !(|s| >= 2 && IsQuote(s[0]) && s[|s| - 1] == s[0])
    ensures Unquote(s) == s
  { }

  /** Unescaping undoes escaping. */
  lemma {:induction false} UnescapeEscape(s: string)
    ensures Unescape(Escape(s)) == s
  {
    if s != [] {
      UnescapeEscape(s[1..]);
      var head := if IsEscapable(s[0]) then ['\\', s[0]] else [s[0]];
      var e := head + Escape(s[1..]);
      if IsEscapable(s[0]) {
        assert e[2..] == Escape(s[1..]);
      } else {
        assert e[1..] == Escape(s[1..]);
      }
      assert [s[0]] + s[1..] == s;
    }
  }

  /** A later assignment overrides an earlier one. */
  lemma LaterLineWins(lines: seq<string>, name: string, text: string)
    requires IsName(name)
    ensures var info := Info(lines + [name + "=" + text]);
      name in info && info[name] == Unescape(Unquote(text))
  {
    MatchAssignment(name, text);
    assert (lines + [name + "=" + text])[..|lines|] == lines;
  }
}

=== FILE: lists.dfy ===
/**
 * Python's `list.remove(x)`, which both the processor registry
 * (src/snakia/core/ecs/system.py) and the event dispatcher (src/snakia/core/es/dispatcher.py)
 * use on their lists.
 */
module Lists {
  /** `list.remove(x)`: drops the first element equal to x. */
  function RemoveFirst<T(==)>(s: seq<T>, x: T): (r: seq<T>)
    requires x in s
    ensures |r| == |s| - 1
  {
    if s[0] == x then s[1..] else [s[0]] + RemoveFirst(s[1..], x)
  }

  /** When x does not occur before a given position, `remove(x)` drops exactly that position
      and keeps everything around it in order. */
  lemma {:induction false} RemoveFirstAt<T>(kept: seq<T>, x: T, rest: seq<T>)
    requires x !in kept
    ensures x in kept + [x] + rest && RemoveFirst(kept + [x] + rest, x) == kept + rest
  {
    var s := kept + [x] + rest;
    assert s[|kept|] == x;
    if kept != [] {
      assert s[0] == kept[0] && kept[0] in kept;
      assert s[1..] == kept[1..] + [x] + rest;
      RemoveFirstAt(kept[1..], x, rest);
      assert kept == [kept[0]] + kept[1..];
    }
  }
}

=== FILE: numerals.dfy ===
/**
 * Decimal and hexadecimal numerals as Python's `str(int)`, `format(n, "02x")`,
 * `int(text)` and `int(text, 16)` produce and read them, restricted to ASCII
 * digits with an optional sign.
 */
module Numerals {
  import opened Wrappers

  predicate IsDigit(c: char) { '0' <= c <= '9' }

  predicate IsHexDigit(c: char) {
    IsDigit(c) || 'a' <= c <= 'f' || 'A' <= c <= 'F'
  }

  predicate AllDigits(s: string) { forall i :: 0 <= i < |s| ==> IsDigit(s[i]) }

  predicate AllHexDigits(s: string) { forall i :: 0 <= i < |s| ==> IsHexDigit(s[i]) }

  function DigitValue(c: char): (d: nat)
    requires IsDigit(c)
    ensures d < 10
  {
    (c - '0') as nat
  }

  function HexValue(c: char): (d: nat)
    requires IsHexDigit(c)
    ensures d < 16
  {
    if IsDigit(c) then DigitValue(c)
    else if 'a' <= c <= 'f' then (c - 'a') as nat + 10
    else (c - 'A') as nat + 10
  }

  function DigitChar(d: nat): (c: char)
    requires d < 10
    ensures IsDigit(c) && DigitValue(c) == d
  {
    ('0' as int + d) as char
  }

  /** The lower-case digit Python's `x` format uses. */
  function HexChar(d: nat): (c: char)
    requires d < 16
    ensures IsHexDigit(c) && HexValue(c) == d
    ensures !('A' <= c <= 'F')
  {
    if d < 10 then DigitChar(d) else ('a' as int + (d - 10)) as char
  }

  /** The value of a run of decimal digits, most significant first. */
  function DigitsValue(s: string): nat
    requires AllDigits(s)
  {
    if s == [] then 0 else DigitsValue(s[..|s| - 1]) * 10 + DigitValue(s[|s| - 1])
  }

  /** The value of a run of hexadecimal digits, most significant first. */
  function HexDigitsValue(s: string): nat
    requires AllHexDigits(s)
  {
    if s == [] then 0 else HexDigitsValue(s[..|s| - 1]) * 16 + HexValue(s[|s| - 1])
  }

  /** `str(n)` for a non-negative integer: no leading zeros, "0" for zero. */
  function Decimal(n: nat): (s: string)
    ensures 1 <= |s| && AllDigits(s)
    ensures s[0] == '0' ==> n == 0
  {
    if n < 10 then [DigitChar(n)] else Decimal(n / 10) + [DigitChar(n % 10)]
  }

  /** `str(i)` for any integer. */
  function SignedDecimal(i: int): (s: string)
    ensures 1 <= |s|
  {
    if i < 0 then "-" + Decimal(-i) else Decimal(i)
  }

  /** The minimal lower-case hexadecimal digits of `n`. */
  function HexDigits(n: nat): (s: string)
    ensures 1 <= |s| && AllHexDigits(s)
  {
    if n < 16 then [HexChar(n)] else HexDigits(n / 16) + [HexChar(n % 16)]
  }

  /** `format(n, "02x")`: lower-case hex, zero-padded to two characters, sign first. */
  function Hex2(n: int): (s: string)
    ensures 2 <= |s|
  {
    if n < 0 then "-" + HexDigits(-n)
    else if n < 16 then "0" + HexDigits(n)
    else HexDigits(n)
  }

  /** `int(text)`: an optional sign followed by at least one decimal digit. */
  function ParseInt(s: string): (r: Option<int>)
    ensures r.Some? <==>
      (|s| >= 1 && AllDigits(s)) || (|s| >= 2 && (s[0] == '+' || s[0] == '-') && AllDigits(s[1..]))
    ensures r.Some? && s[0] != '-' ==> r.value >= 0
  {
    if |s| >= 1 && AllDigits(s) then Some(DigitsValue(s))
    else if |s| >= 2 && (s[0] == '+' || s[0] == '-') && AllDigits(s[1..]) then
      var v: int := DigitsValue(s[1..]);
      Some(if s[0] == '-' then -v else v)
    else None
  }

  /** `int(text, 16)`: an optional sign followed by at least one hexadecimal digit. */
  function ParseHex(s: string): (r: Option<int>)
    ensures r.Some? <==>
      (|s| >= 1 && AllHexDigits(s)) || (|s| >= 2 && (s[0] == '+' || s[0] == '-') && AllHexDigits(s[1..]))
  {
    if |s| >= 1 && AllHexDigits(s) then Some(HexDigitsValue(s))
    else if |s| >= 2 && (s[0] == '+' || s[0] == '-') && AllHexDigits(s[1..]) then
      var v: int := HexDigitsValue(s[1..]);
      Some(if s[0] == '-' then -v else v)
    else None
  }

  /** Reading back what `str(n)` wrote gives `n`. */
  lemma {:induction false} DecimalRoundTrip(n: nat)
    ensures DigitsValue(Decimal(n)) == n
  {
    if n >= 10 {
      var s := Decimal(n);
      assert s[..|s| - 1] == Decimal(n / 10);
      DecimalRoundTrip(n / 10);
    }
  }

  lemma ParseDecimal(n: nat)
    ensures ParseInt(Decimal(n)) == Some(n)
  {
    DecimalRoundTrip(n);
  }

  /** A byte formats as exactly two hex digits, high nibble first. */
  lemma Hex2OfByte(n: nat)
    requires n < 256
    ensures Hex2(n) == [HexChar(n / 16), HexChar(n % 16)]
    ensures AllHexDigits(Hex2(n)) && HexDigitsValue(Hex2(n)) == n
  {
    if n < 16 {
      assert Hex2(n) == "0" + [HexChar(n)];
      assert HexDigitsValue(Hex2(n)[..1]) == 0;
    } else {
      assert HexDigits(n / 16) == [HexChar(n / 16)];
      assert Hex2(n) == [HexChar(n / 16)] + [HexChar(n % 16)];
      assert Hex2(n)[..1] == [HexChar(n / 16)];
      assert HexDigitsValue(Hex2(n)[..1]) == n / 16 by {
        assert Hex2(n)[..1][..0] == [];
      }
    }
  }
}

=== FILE: plain_text_renderer.dfy ===
/**
 * `PlainTextRenderer` (src/snakia/core/tui/render/plain_text.py): writes a canvas to its target
 * row by row, one write per cell holding the cell's character and one newline write after every
 * row, without any styling; the screen-control operations write nothing.
 */
module PlainTextRenderers {
  import opened CanvasChars
  import opened Canvases
  import opened Texts

  /** The text a sequence of writes puts on the target. */
  function Concat(writes: seq<string>): string
  {
    if writes == [] then "" else writes[0] + Concat(writes[1..])
  }

  /** The writes for cells x, x+1, … of row y: each cell's character, in order. */
  function RowFrom(c: Canvas, y: int, x: nat): seq<string>
    requires c.Valid() && 0 <= y < c.height
    reads c
    decreases c.width - x
  {
    if x >= c.width then [] else [Str(c.Get(x, y))] + RowFrom(c, y, x + 1)
  }

  /** What `render` writes for rows y, y+1, …: each row's cells followed by a newline. */
  function ScreenFrom(c: Canvas, y: nat): seq<string>
    requires c.Valid()
    reads c
    decreases c.height - y
  {
    if y >= c.height then [] else RowFrom(c, y, 0) + ["\n"] + ScreenFrom(c, y + 1)
  }

  /** The text of rows y, y+1, …, one string per row. */
  function Lines(c: Canvas, y: nat): (lines: seq<string>)
    requires c.Valid()
    reads c
    ensures |lines| == if y <= c.height then c.height - y else 0
    ensures forall k :: 0 <= k < |lines| ==> lines[k] == Concat(RowFrom(c, y + k, 0))
    decreases c.height - y
  {
    if y >= c.height then [] else [Concat(RowFrom(c, y, 0))] + Lines(c, y + 1)
  }

  /** No cell holds a newline. */
  predicate NoNewlines(c: Canvas)
    requires c.Valid()
    reads c
  {
    forall x, y :: 0 <= x < c.width && 0 <= y < c.height ==> '\n' !in Str(c.Get(x, y))
  }

  /** Lemmas */

  /** Writing two batches puts their texts one after the other. */
  lemma {:induction false} ConcatAppend(a: seq<string>, b: seq<string>)
    ensures Concat(a + b) == Concat(a) + Concat(b)
  {
    if a == [] {
      assert a + b == b;
    } else {
      assert (a + b)[1..] == a[1..] + b;
      ConcatAppend(a[1..], b);
    }
  }

  /** One write per cell: row y from x on is width − x writes, the cells' characters. */
  lemma {:induction false} RowWrites(c: Canvas, y: int, x: nat)
    requires c.Valid() && 0 <= y < c.height && x <= c.width
    ensures |RowFrom(c, y, x)| == c.width - x
    ensures forall k :: 0 <= k < c.width - x ==> RowFrom(c, y, x)[k] == Str(c.Get(x + k, y))
    decreases c.width - x
  {
    if x < c.width {
      RowWrites(c, y, x + 1);
    }
  }

  /** One `render` makes (height − y) × (width + 1) writes for rows y, y+1, …. */
  lemma {:induction false} ScreenWriteCount(c: Canvas, y: nat)
    requires c.Valid() && y <= c.height
    ensures |ScreenFrom(c, y)| == (c.height - y) * (c.width + 1)
    decreases c.height - y
  {
    if y < c.height {
      RowWrites(c, y, 0);
      ScreenWriteCount(c, y + 1);
      ScreenStep(c, y);
      MulStep(c.height - y - 1, c.width + 1);
    }
  }

  /** The writes for rows y, y+1, …: row y's cells, its newline, then the rows below. */
  lemma ScreenStep(c: Canvas, y: nat)
    requires c.Valid() && y < c.height
    ensures ScreenFrom(c, y) == RowFrom(c, y, 0) + ["\n"] + ScreenFrom(c, y + 1)
  {
  }

  lemma MulStep(a: int, b: int)
    ensures (a + 1) * b == b + a * b
  {
  }

  /** A row's text holds a newline only where one of its cells does. */
  lemma {:induction false} RowHasNoNewline(c: Canvas, y: int, x: nat)
    requires c.Valid() && 0 <= y < c.height && NoNewlines(c)
    ensures '\n' !in Concat(RowFrom(c, y, x))
    decreases c.width - x
  {
    if x < c.width {
      RowHasNoNewline(c, y, x + 1);
      RowTextStep(c, y, x);
      assert '\n' !in Str(c.Get(x, y));
      NoNewlineAppend(Str(c.Get(x, y)), Concat(RowFrom(c, y, x + 1)));
    }
  }

  /** The text of row y from x on is cell x's character followed by the text from x + 1 on. */
  lemma RowTextStep(c: Canvas, y: int, x: nat)
    requires c.Valid() && 0 <= y < c.height && x < c.width
    ensures Concat(RowFrom(c, y, x)) == Str(c.Get(x, y)) + Concat(RowFrom(c, y, x + 1))
  {
    assert RowFrom(c, y, x)[1..] == RowFrom(c, y, x + 1);
  }

  lemma NoNewlineAppend(s: string, t: string)
    requires '\n' !in s && '\n' !in t
    ensures '\n' !in s + t
  {
  }

  /** Split at its newlines, the written text gives back the canvas's rows, with the empty
      piece after the final newline. */
  lemma {:induction false} ScreenLines(c: Canvas, y: nat)
    requires c.Valid() && NoNewlines(c)
    ensures Split(Concat(ScreenFrom(c, y)), '\n') == Lines(c, y) + [""]
    decreases c.height - y
  {
    if y < c.height {
      RowHasNoNewline(c, y, 0);
      ScreenLines(c, y + 1);
      ScreenTextStep(c, y);
      LinesStep(c, y);
      SplitLinesStep(Concat(RowFrom(c, y, 0)), Concat(ScreenFrom(c, y + 1)), Lines(c, y + 1));
    }
  }

  /** The rows from y on: row y's text, then the rows below. */
  lemma LinesStep(c: Canvas, y: nat)
    requires c.Valid() && y < c.height
    ensures Lines(c, y) == [Concat(RowFrom(c, y, 0))] + Lines(c, y + 1)
  {
  }

  /** A newline-free line, a newline and a text that splits into lines gives one more line. */
  lemma SplitLinesStep(line: string, text: string, lines: seq<string>)
    requires '\n' !in line && Split(text, '\n') == lines + [""]
    ensures Split(line + ['\n'] + text, '\n') == [line] + lines + [""]
  {
    SplitAtFirstSep(line, text, '\n');
    assert [line] + lines + [""] == [line] + (lines + [""]);
  }

  /** The text written for rows y, y+1, …: row y's text, a newline, then the text below. */
  lemma ScreenTextStep(c: Canvas, y: nat)
    requires c.Valid() && y < c.height
    ensures Concat(ScreenFrom(c, y)) == Concat(RowFrom(c, y, 0)) + ['\n'] + Concat(ScreenFrom(c, y + 1))
  {
    var row := RowFrom(c, y, 0);
    var rest := ScreenFrom(c, y + 1);
    ScreenStep(c, y);
    ConcatAppend(row + ["\n"], rest);
    ConcatAppend(row, ["\n"]);
    assert Concat(["\n"]) == "\n";
  }

  class PlainTextRenderer {
    /** Every write made to the render target so far, in order. */
    var writes: seq<string>

    constructor()
      ensures writes == []
    {
      writes := [];
    }

    /** `render(canvas)`: the canvas's rows, each followed by a newline. */
    method Render(canvas: Canvas)
      requires canvas.Valid()
      modifies this
      ensures writes == old(writes) + ScreenFrom(canvas, 0)
    {
      var y := 0;
      while y < canvas.height
        invariant 0 <= y <= canvas.height
        invariant writes + ScreenFrom(canvas, y) == old(writes) + ScreenFrom(canvas, 0)
      {
        RenderRow(canvas, y);
        writes := writes + ["\n"];
        y := y + 1;
      }
    }

    /** The inner loop of `render`: the characters of row y. */
    method RenderRow(canvas: Canvas, y: int)
      requires canvas.Valid() && 0 <= y < canvas.height
      modifies this
      ensures writes == old(writes) + RowFrom(canvas, y, 0)
    {
      var x := 0;
      while x < canvas.width
        invariant 0 <= x <= canvas.width
        invariant writes + RowFrom(canvas, y, x) == old(writes) + RowFrom(canvas, y, 0)
      {
        writes := writes + [Str(canvas.Get(x, y))];
        x := x + 1;
      }
    }

    /** `clear_screen`: nothing is written. */
    method ClearScreen()
      ensures writes == old(writes)
    {
    }

    /** `hide_cursor`: nothing is written. */
    method HideCursor()
      ensures writes == old(writes)
    {
    }

    /** `show_cursor`: nothing is written. */
    method ShowCursor()
      ensures writes == old(writes)
    {
    }

    /** `set_cursor_position(x, y)`: nothing is written. */
    method SetCursorPosition(x: int, y: int)
      ensures writes == old(writes)
    {
    }
  }
}

=== FILE: platform_os.dfy ===
/**
 * `PlatformOS`: the operating-system enumeration and its resolution from the platform string
 * (src/snakia/platform/os.py). The platform string, `sys.platform` in the program, is a parameter.
 */
module PlatformOs {
  import opened Wrappers
  import opened Texts

  datatype PlatformOS = UNKNOWN | ANDROID | FREEBSD | IOS | LINUX | MACOS | WINDOWS

  /** The integer value of each member. */
  function Value(os: PlatformOS): (v: nat)
    ensures v <= 6
  {
    match os
    case UNKNOWN => 0
    case ANDROID => 1
    case FREEBSD => 2
    case IOS => 3
    case LINUX => 4
    case MACOS => 5
    case WINDOWS => 6
  }

  /** `PlatformOS(v)`: the member with value v, if any. */
  function FromValue(v: int): (r: Option<PlatformOS>)
    ensures r.Some? <==> 0 <= v <= 6
    ensures r.Some? ==> Value(r.value) == v
  {
    if v == 0 then Some(UNKNOWN)
    else if v == 1 then Some(ANDROID)
    else if v == 2 then Some(FREEBSD)
    else if v == 3 then Some(IOS)
    else if v == 4 then Some(LINUX)
    else if v == 5 then Some(MACOS)
    else if v == 6 then Some(WINDOWS)
    else None
  }

  /** Every member is found again from its value, so the values are distinct. */
  lemma ValueRoundTrip(os: PlatformOS)
    ensures FromValue(Value(os)) == Some(os)
  {
  }

  /** `is_apple`: membership in [MACOS, IOS]. */
  predicate IsApple(os: PlatformOS)
  {
    os in [MACOS, IOS]
  }

  /** `is_linux`: membership in [LINUX, ANDROID]. */
  predicate IsLinux(os: PlatformOS)
  {
    os in [LINUX, ANDROID]
  }

  /** Apple and Linux systems are disjoint, and UNKNOWN, FREEBSD and WINDOWS are neither. */
  lemma Families(os: PlatformOS)
    ensures IsApple(os) <==> os == MACOS || os == IOS
    ensures IsLinux(os) <==> os == LINUX || os == ANDROID
    ensures !(IsApple(os) && IsLinux(os))
  {
    if IsApple(os) { assert os == [MACOS, IOS][0] || os == [MACOS, IOS][1]; }
    if IsLinux(os) { assert os == [LINUX, ANDROID][0] || os == [LINUX, ANDROID][1]; }
  }

  const WindowsNames: seq<string> := ["win32", "win16", "dos", "cygwin", "msys"]

  /** `resolve`: a chain of checks in which a later match overrides an earlier one. */
  function Resolve(platform: string): PlatformOS
  {
    var r0 := UNKNOWN;
    var r1 := if platform in WindowsNames then WINDOWS else r0;
    var r2 := if StartsWith(platform, "linux") then LINUX else r1;
    var r3 := if StartsWith(platform, "freebsd") then FREEBSD else r2;
    var r4 := if platform == "darwin" then MACOS else r3;
    var r5 := if platform == "ios" then IOS else r4;
    var r6 := if platform == "android" then ANDROID else r5;
    if StartsWith(platform, "java") then UNKNOWN else r6
  }

  /** The classes of platform strings `resolve` recognises; at most one of them holds. */
  predicate IsWindowsName(p: string) { p in WindowsNames }
  predicate IsLinuxName(p: string) { StartsWith(p, "linux") }
  predicate IsFreeBsdName(p: string) { StartsWith(p, "freebsd") }

  lemma PrefixesExclusive(p: string)
    ensures !(IsLinuxName(p) && IsFreeBsdName(p))
    ensures IsLinuxName(p) || IsFreeBsdName(p) ==> !StartsWith(p, "java") && !IsWindowsName(p)
    ensures IsLinuxName(p) || IsFreeBsdName(p) ==> p != "darwin" && p != "ios" && p != "android"
  {
    if IsLinuxName(p) {
      assert p[0] == 'l';
    }
    if IsFreeBsdName(p) {
      assert p[0] == 'f';
    }
  }

  /** What `resolve` gives, class by class: each platform string gets exactly one member. */
  lemma ResolveClasses(p: string)
    ensures Resolve(p) == WINDOWS <==> IsWindowsName(p)
    ensures Resolve(p) == LINUX <==> IsLinuxName(p)
    ensures Resolve(p) == FREEBSD <==> IsFreeBsdName(p)
    ensures Resolve(p) == MACOS <==> p == "darwin"
    ensures Resolve(p) == IOS <==> p == "ios"
    ensures Resolve(p) == ANDROID <==> p == "android"
    ensures Resolve(p) == UNKNOWN <==>
      !IsWindowsName(p) && !IsLinuxName(p) && !IsFreeBsdName(p) && p !in ["darwin", "ios", "android"]
  {
    PrefixesExclusive(p);
    if StartsWith(p, "java") {
      assert p[0] == 'j';
    }
  }
}

=== FILE: random.dfy ===
/**
 * The generic algorithms of `Random` (src/snakia/random/random.py) over an abstract source of
 * random bits.
 *
 * `bits` is abstract in the program; here it is a source of draws: the call of `bits(k)` made
 * at position i of the stream returns `source(i, k)`, and a source must keep every draw of k
 * bits below 2^k. The generator's state is the number of draws made so far. `below` retries
 * without bound in the program; here every rejection loop is bounded by `fuel` attempts and
 * reports `None` when the fuel runs out.
 */
module Randomness {
  import opened Wrappers
  import opened ByteCodec

  function Swap<T>(s: seq<T>, i: nat, j: nat): (t: seq<T>)
    requires i < |s| && j < |s|
    ensures |t| == |s| && t[i] == s[j] && t[j] == s[i]
    ensures forall m :: 0 <= m < |s| && m != i && m != j ==> t[m] == s[m]
  {
    s[i := s[j]][j := s[i]]
  }

  /** The swap keeps the multiset of elements. */
  lemma SwapPermutes<T>(s: seq<T>, i: nat, j: nat)
    requires i < |s| && j < |s|
    ensures multiset(Swap(s, i, j)) == multiset(s)
  {
    assert multiset(s[i := s[j]]) == multiset(s) - multiset{s[i]} + multiset{s[j]};
  }

  method SwapInPlace<T>(a: array<T>, i: nat, j: nat)
    requires i < a.Length && j < a.Length
    modifies a
    ensures a[..] == Swap(old(a[..]), i, j)
  {
    a[i], a[j] := a[j], a[i];
  }

  class Random {
    /** The draw at position i of the stream for `bits(k)` is `source(i, k)`. */
    const source: (nat, nat) -> nat
    var drawn: nat

    constructor(source: (nat, nat) -> nat)
      ensures this.source == source && drawn == 0
    {
      this.source := source;
      drawn := 0;
    }

    /** What a `bits` implementation promises: a draw of k bits is below 2^k. */
    ghost predicate InRange()
    {
      forall pos, k :: source(pos, k) < Pow2(k)
    }

    /** The value the draw at position pos gives for `bits(k)`. */
    function BitsAt(pos: nat, k: nat): nat
    {
      source(pos, k)
    }

    /** `below(n)` from stream position pos with at most fuel attempts: the result and the next position. */
    function BelowFrom(pos: nat, n: int, fuel: nat): (r: (Option<nat>, nat))
      ensures pos <= r.1 <= pos + fuel
      ensures r.0.Some? ==> r.0.value < n
      decreases fuel
    {
      if fuel == 0 then (None, pos)
      else
        var x := BitsAt(pos, BitLength(Abs(n)));
        if x < n then (Some(x), pos + 1) else BelowFrom(pos + 1, n, fuel - 1)
    }

    /** The shuffle loop from index i down to 1: the sequence, the next position, and whether it finished. */
    function ShuffleFrom<T>(s: seq<T>, i: int, pos: nat, fuel: nat): (r: (seq<T>, nat, bool))
      requires i < |s|
      ensures |r.0| == |s|
      ensures i <= 0 ==> r == (s, pos, true)
      decreases i
    {
      if i <= 0 then (s, pos, true)
      else
        var b := BelowFrom(pos, i + 1, fuel);
        if b.0.None? then (s, b.1, false)
        else ShuffleFrom(Swap(s, i, b.0.value), i - 1, b.1, fuel)
    }

    /** One pass of the shuffle loop: the draw `below(i + 1)` gives j and the next position;
        without j the loop stops, with it positions i and j swap and the loop goes on at i - 1. */
    lemma ShuffleStep<T>(s: seq<T>, i: int, pos: nat, fuel: nat, j: Option<nat>, next: nat)
      requires 0 < i < |s| && (j, next) == BelowFrom(pos, i + 1, fuel)
      ensures j.None? ==> ShuffleFrom(s, i, pos, fuel) == (s, next, false)
      ensures j.Some? ==> j.value <= i && ShuffleFrom(s, i, pos, fuel) == ShuffleFrom(Swap(s, i, j.value), i - 1, next, fuel)
    {
    }

    /** The shuffle keeps the multiset of elements. */
    lemma {:induction false} ShufflePermutes<T>(s: seq<T>, i: int, pos: nat, fuel: nat)
      requires i < |s|
      ensures multiset(ShuffleFrom(s, i, pos, fuel).0) == multiset(s)
      decreases i
    {
      if i > 0 {
        var b := BelowFrom(pos, i + 1, fuel);
        ShuffleStep(s, i, pos, fuel, b.0, b.1);
        if b.0.Some? {
          var t := Swap(s, i, b.0.value);
          SwapPermutes(s, i, b.0.value);
          ShufflePermutes(t, i - 1, b.1, fuel);
          assert ShuffleFrom(s, i, pos, fuel).0 == ShuffleFrom(t, i - 1, b.1, fuel).0;
        }
      }
    }

    /** `bits(k)`. */
    method Bits(k: nat) returns (x: nat)
      modifies this
      ensures x == BitsAt(old(drawn), k) && drawn == old(drawn) + 1
      ensures InRange() ==> x < Pow2(k)
    {
      x := BitsAt(drawn, k);
      drawn := drawn + 1;
    }

    /** `below(n)`: rejection sampling with `n.bit_length()` bits per attempt. */
    method Below(n: int, fuel: nat) returns (r: Option<nat>)
      modifies this
      ensures (r, drawn) == BelowFrom(old(drawn), n, fuel)
    {
      var k := BitLength(Abs(n));
      var attempts := 0;
      while attempts < fuel
        invariant attempts <= fuel
        invariant BelowFrom(old(drawn), n, fuel) == BelowFrom(drawn, n, fuel - attempts)
      {
        var x := Bits(k);
        if x < n {
          return Some(x);
        }
        attempts := attempts + 1;
      }
      return None;
    }

    /** `int(start, end)`: `below(end + 1 - start) + start`. */
    method Int(start: int, end: int, fuel: nat) returns (r: Option<int>)
      modifies this
      ensures var (b, next) := BelowFrom(old(drawn), end + 1 - start, fuel);
        drawn == next && r == (if b.Some? then Some(b.value + start) else None)
      ensures r.Some? ==> start <= r.value <= end
    {
      var b := Below(end + 1 - start, fuel);
      if b.Some? {
        r := Some(b.value + start);
      } else {
        r := None;
      }
    }

    /** `choice(seq)`: the element at `below(len(seq))`. */
    method Choice<T>(s: seq<T>, fuel: nat) returns (r: Option<T>)
      modifies this
      ensures var (b, next) := BelowFrom(old(drawn), |s|, fuel);
        drawn == next && r == (if b.Some? then Some(s[b.value]) else None)
      ensures r.Some? ==> r.value in s
    {
      var b := Below(|s|, fuel);
      if b.Some? {
        r := Some(s[b.value]);
      } else {
        r := None;
      }
    }

    /** `bytes(n)`: `bits(8n)` written as n little-endian bytes. */
    method Bytes(n: nat) returns (r: seq<Byte>)
      requires InRange()
      modifies this
      ensures |r| == n && FromLittleEndian(r) == BitsAt(old(drawn), 8 * n)
      ensures drawn == old(drawn) + 1
    {
      var x := Bits(8 * n);
      Pow2Bytes(n);
      var encoded := ToBytes(x, n);
      r := encoded.value;
    }

    /** `shuffle(seq)`: Fisher-Yates from the last index down to 1, swapping in place. */
    method Shuffle<T>(a: array<T>, fuel: nat) returns (completed: bool)
      modifies this, a
      ensures (a[..], drawn, completed) == ShuffleFrom(old(a[..]), a.Length - 1, old(drawn), fuel)
    {
      ghost var outcome := ShuffleFrom(a[..], a.Length - 1, drawn, fuel);
      var i := a.Length - 1;
      while i > 0
        invariant i < a.Length
        invariant outcome == ShuffleFrom(a[..], i, drawn, fuel)
      {
        var swapped := ShufflePass(a, i, fuel);
        if !swapped {
          return false;
        }
        i := i - 1;
      }
      return true;
    }

    /** One pass of the loop of `shuffle`: j = `below(i + 1)`, then the swap of positions i and j. */
    method ShufflePass<T>(a: array<T>, i: int, fuel: nat) returns (swapped: bool)
      requires 0 < i < a.Length
      modifies this, a
      ensures swapped ==> ShuffleFrom(old(a[..]), i, old(drawn), fuel) == ShuffleFrom(a[..], i - 1, drawn, fuel)
      ensures !swapped ==> ShuffleFrom(old(a[..]), i, old(drawn), fuel) == (a[..], drawn, false)
    {
      var j := Below(i + 1, fuel);
      ShuffleStep(old(a[..]), i, old(drawn), fuel, j, drawn);
      if j.None? {
        return false;
      }
      SwapInPlace(a, i, j.value);
      return true;
    }
  }

  /** Every draw of `n.bit_length()` bits at the positions from, …, to - 1 is at least n. */
  ghost predicate Rejects(rng: Random, from: nat, to: nat, n: int)
  {
    forall p :: from <= p < to ==> rng.BitsAt(p, BitLength(Abs(n))) >= n
  }

  /** The outcome r of `below(n)` from position pos with fuel attempts is the first fit: a
      value comes from the last draw taken, every earlier draw being rejected, and no value
      means every one of the fuel attempts was rejected. */
  ghost predicate FirstFit(rng: Random, pos: nat, n: int, fuel: nat, r: (Option<nat>, nat))
  {
    && (r.0.Some? ==> pos < r.1 && r.0.value == rng.BitsAt(r.1 - 1, BitLength(Abs(n))) && Rejects(rng, pos, r.1 - 1, n))
    && (r.0.None? ==> r.1 == pos + fuel && Rejects(rng, pos, r.1, n))
  }

  /** `below(n)` returns the first draw of `n.bit_length()` bits that is below n; when the fuel
      runs out, every attempt was rejected. */
  lemma {:induction false} BelowIsFirstFit(rng: Random, pos: nat, n: int, fuel: nat)
    ensures FirstFit(rng, pos, n, fuel, rng.BelowFrom(pos, n, fuel))
    decreases fuel
  {
    if fuel > 0 && rng.BitsAt(pos, BitLength(Abs(n))) >= n {
      BelowRejectStep(rng, pos, n, fuel);
      BelowIsFirstFit(rng, pos + 1, n, fuel - 1);
      FirstFitCons(rng, pos, n, fuel, rng.BelowFrom(pos + 1, n, fuel - 1));
    }
  }

  /** A rejected draw in front of the first fit of the remaining attempts keeps it the first fit. */
  lemma FirstFitCons(rng: Random, pos: nat, n: int, fuel: nat, r: (Option<nat>, nat))
    requires fuel > 0 && rng.BitsAt(pos, BitLength(Abs(n))) >= n && FirstFit(rng, pos + 1, n, fuel - 1, r)
    ensures FirstFit(rng, pos, n, fuel, r)
  {
    RejectsCons(rng, pos, if r.0.Some? then r.1 - 1 else r.1, n);
  }

  /** A rejected draw in front of a rejected run makes a longer rejected run. */
  lemma RejectsCons(rng: Random, pos: nat, to: nat, n: int)
    requires rng.BitsAt(pos, BitLength(Abs(n))) >= n && Rejects(rng, pos + 1, to, n)
    ensures Rejects(rng, pos, to, n)
  {
  }

  /** A rejected attempt moves on to the next position with one attempt fewer. */
  lemma BelowRejectStep(rng: Random, pos: nat, n: int, fuel: nat)
    requires fuel > 0 && rng.BitsAt(pos, BitLength(Abs(n))) >= n
    ensures rng.BelowFrom(pos, n, fuel) == rng.BelowFrom(pos + 1, n, fuel - 1)
  {
  }

  /** `below(n)` never returns for n <= 0: every attempt is rejected, whatever the bits. */
  lemma {:induction false} BelowNeedsPositive(rng: Random, pos: nat, n: int, fuel: nat)
    requires n <= 0
    ensures rng.BelowFrom(pos, n, fuel) == (None, pos + fuel)
    decreases fuel
  {
    if fuel > 0 {
      BelowNeedsPositive(rng, pos + 1, n, fuel - 1);
    }
  }

  /** An attempt is accepted whenever the draw fits, and a draw of n.bit_length() bits fits at
      least half the time: 2^bit_length(n) <= 2n. */
  lemma {:induction false} AcceptanceAtLeastHalf(n: nat)
    requires n > 0
    ensures Pow2(BitLength(n)) <= 2 * n
  {
    if n > 1 {
      AcceptanceAtLeastHalf(n / 2);
    }
  }
}

=== FILE: scheduling.dfy ===
/**
 * Processor ordering of `System._sort_processors` (src/snakia/core/ecs/system.py): a dependency
 * graph built from the `before`/`after` class lists of the processors, then sorted topologically.
 *
 * A processor is an instance identified by `id`; `classes` is the set of classes it is an instance
 * of, so `isinstance(q, c)` is `c in q.classes`. The topological sort of the graph library is
 * stood for by Kahn's algorithm: any topological order is an acceptable result, and a graph with a
 * cycle is an error.
 */
module Scheduling {
  import opened Wrappers

  type ProcessorType = nat

  datatype Processor = Processor(id: nat, classes: set<ProcessorType>, before: seq<ProcessorType>, after: seq<ProcessorType>)

  /** `isinstance(q, c)` for some class c of cs. */
  predicate InstanceOfAny(q: Processor, cs: seq<ProcessorType>)
  {
    exists c :: c in cs && c in q.classes
  }

  /** An edge a -> b: a is an instance of a class in b.after, or b of a class in a.before. */
  predicate HasEdge(a: Processor, b: Processor)
  {
    InstanceOfAny(a, b.after) || InstanceOfAny(b, a.before)
  }

  /** The edges of the graph over the processors of ps. */
  function Edges(ps: seq<Processor>): set<(Processor, Processor)>
  {
    set a, b | a in ps && b in ps && HasEdge(a, b) :: (a, b)
  }

  /** Graph construction */

  /** The edges q -> p for the instances q in qs of a class of cs. */
  function AfterEdges(qs: seq<Processor>, p: Processor, cs: seq<ProcessorType>): set<(Processor, Processor)>
  {
    set q | q in qs && InstanceOfAny(q, cs) :: (q, p)
  }

  /** The edges p -> q for the instances q in qs of a class of cs. */
  function BeforeEdges(qs: seq<Processor>, p: Processor, cs: seq<ProcessorType>): set<(Processor, Processor)>
  {
    set q | q in qs && InstanceOfAny(q, cs) :: (p, q)
  }

  /** The edges the processors of done add, over the node list ps. */
  function EdgesOf(ps: seq<Processor>, done: seq<Processor>): set<(Processor, Processor)>
  {
    if done == [] then {}
    else
      var p := done[|done| - 1];
      EdgesOf(ps, done[..|done| - 1]) + AfterEdges(ps, p, p.after) + BeforeEdges(ps, p, p.before)
  }

  lemma AfterEdgesStep(qs: seq<Processor>, p: Processor, cs: seq<ProcessorType>, c: ProcessorType, k: nat)
    requires k < |qs|
    ensures AfterEdges(qs, p, cs) + AfterEdges(qs[..k + 1], p, [c])
      == AfterEdges(qs, p, cs) + AfterEdges(qs[..k], p, [c]) + (if c in qs[k].classes then {(qs[k], p)} else {})
  {
    assert qs[..k + 1] == qs[..k] + [qs[k]];
    if c in qs[k].classes {
      assert InstanceOfAny(qs[k], [c]) by { assert c in [c]; }
    }
    forall q | q in qs[..k + 1] && InstanceOfAny(q, [c])
      ensures c in q.classes
    {
      var c' :| c' in [c] && c' in q.classes;
    }
  }

  lemma BeforeEdgesStep(qs: seq<Processor>, p: Processor, cs: seq<ProcessorType>, c: ProcessorType, k: nat)
    requires k < |qs|
    ensures BeforeEdges(qs, p, cs) + BeforeEdges(qs[..k + 1], p, [c])
      == BeforeEdges(qs, p, cs) + BeforeEdges(qs[..k], p, [c]) + (if c in qs[k].classes then {(p, qs[k])} else {})
  {
    assert qs[..k + 1] == qs[..k] + [qs[k]];
    if c in qs[k].classes {
      assert InstanceOfAny(qs[k], [c]) by { assert c in [c]; }
    }
    forall q | q in qs[..k + 1] && InstanceOfAny(q, [c])
      ensures c in q.classes
    {
      var c' :| c' in [c] && c' in q.classes;
    }
  }

  lemma AfterClassesStep(qs: seq<Processor>, p: Processor, cs: seq<ProcessorType>, j: nat)
    requires j < |cs|
    ensures AfterEdges(qs, p, cs[..j + 1]) == AfterEdges(qs, p, cs[..j]) + AfterEdges(qs, p, [cs[j]])
  {
    assert cs[..j + 1] == cs[..j] + [cs[j]];
    forall q | InstanceOfAny(q, cs[..j + 1])
      ensures InstanceOfAny(q, cs[..j]) || InstanceOfAny(q, [cs[j]])
    {
      var c :| c in cs[..j + 1] && c in q.classes;
      if c == cs[j] { assert c in [cs[j]]; }
    }
    forall q | InstanceOfAny(q, [cs[j]])
      ensures InstanceOfAny(q, cs[..j + 1])
    {
      var c :| c in [cs[j]] && c in q.classes;
      assert c in cs[..j + 1];
    }
    forall q | InstanceOfAny(q, cs[..j])
      ensures InstanceOfAny(q, cs[..j + 1])
    {
      var c :| c in cs[..j] && c in q.classes;
      assert c in cs[..j + 1];
    }
  }

  lemma BeforeClassesStep(qs: seq<Processor>, p: Processor, cs: seq<ProcessorType>, j: nat)
    requires j < |cs|
    ensures BeforeEdges(qs, p, cs[..j + 1]) == BeforeEdges(qs, p, cs[..j]) + BeforeEdges(qs, p, [cs[j]])
  {
    assert cs[..j + 1] == cs[..j] + [cs[j]];
    forall q | InstanceOfAny(q, cs[..j + 1])
      ensures InstanceOfAny(q, cs[..j]) || InstanceOfAny(q, [cs[j]])
    {
      var c :| c in cs[..j + 1] && c in q.classes;
      if c == cs[j] { assert c in [cs[j]]; }
    }
    forall q | InstanceOfAny(q, [cs[j]])
      ensures InstanceOfAny(q, cs[..j + 1])
    {
      var c :| c in [cs[j]] && c in q.classes;
      assert c in cs[..j + 1];
    }
    forall q | InstanceOfAny(q, cs[..j])
      ensures InstanceOfAny(q, cs[..j + 1])
    {
      var c :| c in cs[..j] && c in q.classes;
      assert c in cs[..j + 1];
    }
  }

  /** Adds the edges q -> p for every q that is an instance of a class of p.after. */
  method AddAfterEdges(ps: seq<Processor>, p: Processor, edges0: set<(Processor, Processor)>)
    returns (edges: set<(Processor, Processor)>)
    ensures edges == edges0 + AfterEdges(ps, p, p.after)
  {
    edges := edges0;
    var j := 0;
    while j < |p.after|
      invariant j <= |p.after|
      invariant edges == edges0 + AfterEdges(ps, p, p.after[..j])
    {
      var k := 0;
      while k < |ps|
        invariant k <= |ps|
        invariant edges == edges0 + AfterEdges(ps, p, p.after[..j]) + AfterEdges(ps[..k], p, [p.after[j]])
      {
        AfterEdgesStep(ps, p, p.after[..j], p.after[j], k);
        if p.after[j] in ps[k].classes {
          edges := edges + {(ps[k], p)};
        }
        k := k + 1;
      }
      assert ps[..k] == ps;
      AfterClassesStep(ps, p, p.after, j);
      j := j + 1;
    }
    assert p.after[..j] == p.after;
  }

  /** Adds the edges p -> q for every q that is an instance of a class of p.before. */
  method AddBeforeEdges(ps: seq<Processor>, p: Processor, edges0: set<(Processor, Processor)>)
    returns (edges: set<(Processor, Processor)>)
    ensures edges == edges0 + BeforeEdges(ps, p, p.before)
  {
    edges := edges0;
    var j := 0;
    while j < |p.before|
      invariant j <= |p.before|
      invariant edges == edges0 + BeforeEdges(ps, p, p.before[..j])
    {
      var k := 0;
      while k < |ps|
        invariant k <= |ps|
        invariant edges == edges0 + BeforeEdges(ps, p, p.before[..j]) + BeforeEdges(ps[..k], p, [p.before[j]])
      {
        BeforeEdgesStep(ps, p, p.before[..j], p.before[j], k);
        if p.before[j] in ps[k].classes {
          edges := edges + {(p, ps[k])};
        }
        k := k + 1;
      }
      assert ps[..k] == ps;
      BeforeClassesStep(ps, p, p.before, j);
      j := j + 1;
    }
    assert p.before[..j] == p.before;
  }

  /** The edge loops of `_sort_processors`: every edge the declarations of the processors ask for. */
  method BuildEdges(ps: seq<Processor>) returns (edges: set<(Processor, Processor)>)
    ensures edges == Edges(ps)
  {
    edges := {};
    var i := 0;
    while i < |ps|
      invariant i <= |ps|
      invariant edges == EdgesOf(ps, ps[..i])
    {
      assert ps[..i + 1][..i] == ps[..i];
      edges := AddAfterEdges(ps, ps[i], edges);
      edges := AddBeforeEdges(ps, ps[i], edges);
      i := i + 1;
    }
    assert ps[..i] == ps;
    EdgesOfAll(ps);
  }

  lemma {:induction false} EdgesOfMembers(ps: seq<Processor>, done: seq<Processor>, a: Processor, b: Processor)
    ensures (a, b) in EdgesOf(ps, done) <==>
      (b in done && a in ps && InstanceOfAny(a, b.after)) || (a in done && b in ps && InstanceOfAny(b, a.before))
  {
    if done != [] {
      var last := done[|done| - 1];
      EdgesOfMembers(ps, done[..|done| - 1], a, b);
      assert done == done[..|done| - 1] + [last];
      if (a, b) in AfterEdges(ps, last, last.after) {
        var q :| q in ps && InstanceOfAny(q, last.after) && (q, last) == (a, b);
      }
      if (a, b) in BeforeEdges(ps, last, last.before) {
        var q :| q in ps && InstanceOfAny(q, last.before) && (last, q) == (a, b);
      }
      if b == last && a in ps && InstanceOfAny(a, b.after) {
        assert (a, b) in AfterEdges(ps, last, last.after);
      }
      if a == last && b in ps && InstanceOfAny(b, a.before) {
        assert (a, b) in BeforeEdges(ps, last, last.before);
      }
    }
  }

  lemma EdgesOfAll(ps: seq<Processor>)
    ensures EdgesOf(ps, ps) == Edges(ps)
  {
    forall a, b | (a, b) in EdgesOf(ps, ps)
      ensures (a, b) in Edges(ps)
    {
      EdgesOfMembers(ps, ps, a, b);
    }
    forall a, b | (a, b) in Edges(ps)
      ensures (a, b) in EdgesOf(ps, ps)
    {
      EdgesOfMembers(ps, ps, a, b);
    }
    forall e | e in EdgesOf(ps, ps)
      ensures e in Edges(ps)
    {
      assert e == (e.0, e.1);
    }
    forall e | e in Edges(ps)
      ensures e in EdgesOf(ps, ps)
    {
      assert e == (e.0, e.1);
    }
  }

  /** Topological order */

  predicate Distinct<T(==)>(s: seq<T>)
  {
    forall i, j :: 0 <= i < j < |s| ==> s[i] != s[j]
  }

  /** order lists the nodes once each, and every edge goes forward in it. */
  ghost predicate IsTopoOrder(nodes: seq<Processor>, edges: set<(Processor, Processor)>, order: seq<Processor>)
  {
    && Distinct(order)
    && |order| == |nodes|
    && (forall x :: x in order <==> x in nodes)
    && (forall i, j :: 0 <= i < |order| && 0 <= j < |order| && (order[i], order[j]) in edges ==> i < j)
  }

  /** The graph's nodes: the list without repeats, in order of first occurrence. */
  function Dedupe(ps: seq<Processor>): (r: seq<Processor>)
    ensures Distinct(r)
    ensures forall x :: x in r <==> x in ps
  {
    if ps == [] then []
    else
      var rest := Dedupe(ps[..|ps| - 1]);
      assert ps == ps[..|ps| - 1] + [ps[|ps| - 1]];
      if ps[|ps| - 1] in rest then rest else rest + [ps[|ps| - 1]]
  }

  /** A node none of whose predecessors is among the remaining nodes. */
  predicate Ready(r: Processor, remaining: seq<Processor>, edges: set<(Processor, Processor)>)
  {
    forall q :: q in remaining ==> (q, r) !in edges
  }

  /** The first index from i on of a ready node. */
  function FirstReady(remaining: seq<Processor>, edges: set<(Processor, Processor)>, i: nat): (r: Option<nat>)
    requires i <= |remaining|
    ensures r.Some? ==> i <= r.value < |remaining| && Ready(remaining[r.value], remaining, edges)
    ensures r.None? ==> forall k :: i <= k < |remaining| ==> !Ready(remaining[k], remaining, edges)
    decreases |remaining| - i
  {
    if i == |remaining| then None
    else if Ready(remaining[i], remaining, edges) then Some(i)
    else FirstReady(remaining, edges, i + 1)
  }

  /** Kahn's algorithm: repeatedly takes a ready node out; fails when none is left ready. */
  function TopoSort(remaining: seq<Processor>, edges: set<(Processor, Processor)>): (r: Result<seq<Processor>>)
    ensures r.Err? ==> r.error == CycleError
    decreases |remaining|
  {
    if remaining == [] then Ok([])
    else
      match FirstReady(remaining, edges, 0)
      case None => Err(CycleError)
      case Some(i) =>
        var rest := TopoSort(remaining[..i] + remaining[i + 1..], edges);
        if rest.Err? then rest else Ok([remaining[i]] + rest.value)
  }

  lemma RemoveAtMembers(s: seq<Processor>, i: nat)
    requires i < |s| && Distinct(s)
    ensures Distinct(s[..i] + s[i + 1..])
    ensures forall x :: x in s[..i] + s[i + 1..] <==> x in s && x != s[i]
  {
    var t := s[..i] + s[i + 1..];
    forall a, b | 0 <= a < b < |t|
      ensures t[a] != t[b]
    {
      var a' := if a < i then a else a + 1;
      var b' := if b < i then b else b + 1;
      assert t[a] == s[a'] && t[b] == s[b'];
    }
    forall x | x in s
      ensures x in t <==> x != s[i]
    {
      var k :| 0 <= k < |s| && s[k] == x;
      if k < i {
        assert t[k] == x;
      } else if k > i {
        assert t[k - 1] == x;
      }
    }
  }

  /** A result of the sort lists the nodes and puts every edge forward. */
  lemma {:induction false} TopoSortSound(remaining: seq<Processor>, edges: set<(Processor, Processor)>)
    requires Distinct(remaining)
    ensures TopoSort(remaining, edges).Ok? ==> IsTopoOrder(remaining, edges, TopoSort(remaining, edges).value)
    decreases |remaining|
  {
    if remaining != [] && TopoSort(remaining, edges).Ok? {
      var i := FirstReady(remaining, edges, 0).value;
      var rest := remaining[..i] + remaining[i + 1..];
      RemoveAtMembers(remaining, i);
      TopoSortSound(rest, edges);
      var tail := TopoSort(rest, edges).value;
      assert TopoSort(remaining, edges).value == [remaining[i]] + tail;
      ReadyFirst(remaining, edges, i, tail);
    }
  }

  /** A ready node in front of an order of the other nodes makes an order of all of them. */
  lemma ReadyFirst(remaining: seq<Processor>, edges: set<(Processor, Processor)>, i: nat, tail: seq<Processor>)
    requires Distinct(remaining) && i < |remaining| && Ready(remaining[i], remaining, edges)
    requires IsTopoOrder(remaining[..i] + remaining[i + 1..], edges, tail)
    ensures IsTopoOrder(remaining, edges, [remaining[i]] + tail)
  {
    var h := remaining[i];
    var rest := remaining[..i] + remaining[i + 1..];
    RemoveAtMembers(remaining, i);
    var order := [h] + tail;
    forall a, b | 0 <= a < |order| && 0 <= b < |order| && (order[a], order[b]) in edges
      ensures a < b
    {
      assert order[a] in remaining;
      if a > 0 && b > 0 {
        assert order[a] == tail[a - 1] && order[b] == tail[b - 1];
      }
    }
    forall x
      ensures x in order <==> x in remaining
    {
      assert x in order <==> x == h || x in tail;
    }
    forall a, b | 0 <= a < b < |order|
      ensures order[a] != order[b]
    {
      if a == 0 {
        assert order[b] == tail[b - 1] && order[b] in rest;
      } else {
        assert order[a] == tail[a - 1] && order[b] == tail[b - 1];
      }
    }
  }

  /** Taking a node out of a topological order leaves one of the other nodes. */
  lemma DropFromOrder(nodes: seq<Processor>, edges: set<(Processor, Processor)>, order: seq<Processor>, i: nat)
    returns (order': seq<Processor>)
    requires Distinct(nodes) && i < |nodes| && IsTopoOrder(nodes, edges, order)
    ensures IsTopoOrder(nodes[..i] + nodes[i + 1..], edges, order')
  {
    var h := nodes[i];
    assert h in order;
    var k :| 0 <= k < |order| && order[k] == h;
    order' := order[..k] + order[k + 1..];
    RemoveAtMembers(order, k);
    RemoveAtMembers(nodes, i);
    forall a, b | 0 <= a < |order'| && 0 <= b < |order'| && (order'[a], order'[b]) in edges
      ensures a < b
    {
      var a' := if a < k then a else a + 1;
      var b' := if b < k then b else b + 1;
      assert order'[a] == order[a'] && order'[b] == order[b'];
    }
    forall x
      ensures x in order' <==> x in nodes[..i] + nodes[i + 1..]
    {
      assert x in order <==> x in nodes;
      assert x in order' <==> x in order && x != h;
      assert x in nodes[..i] + nodes[i + 1..] <==> x in nodes && x != h;
    }
  }

  /** The first node of a topological order has no predecessor among the nodes. */
  lemma FirstIsReady(nodes: seq<Processor>, edges: set<(Processor, Processor)>, order: seq<Processor>)
    requires nodes != [] && IsTopoOrder(nodes, edges, order)
    ensures order[0] in nodes && Ready(order[0], nodes, edges)
  {
    forall q | q in nodes
      ensures (q, order[0]) !in edges
    {
      assert q in order;
    }
  }

  /** When the sort fails, the graph has no topological order: it has a cycle. */
  lemma {:induction false} TopoSortComplete(remaining: seq<Processor>, edges: set<(Processor, Processor)>)
    requires Distinct(remaining)
    ensures TopoSort(remaining, edges).Err? ==> !exists order :: IsTopoOrder(remaining, edges, order)
    decreases |remaining|
  {
    if remaining != [] && TopoSort(remaining, edges).Err? {
      match FirstReady(remaining, edges, 0)
      case None =>
        forall order
          ensures !IsTopoOrder(remaining, edges, order)
        {
          if IsTopoOrder(remaining, edges, order) {
            FirstIsReady(remaining, edges, order);
          }
        }
      case Some(i) =>
        var rest := remaining[..i] + remaining[i + 1..];
        RemoveAtMembers(remaining, i);
        TopoSortComplete(rest, edges);
        forall order
          ensures !IsTopoOrder(remaining, edges, order)
        {
          if IsTopoOrder(remaining, edges, order) {
            var order' := DropFromOrder(remaining, edges, order, i);
          }
        }
    }
  }

  /** `_sort_processors` as a function of the list: the order, or the cycle error. */
  function SortProcessors(ps: seq<Processor>): Result<seq<Processor>>
  {
    TopoSort(Dedupe(ps), Edges(ps))
  }

  /** The sort succeeds exactly when the declarations admit an order, and then gives one. */
  lemma SortProcessorsSpec(ps: seq<Processor>)
    ensures SortProcessors(ps).Ok? ==> IsTopoOrder(Dedupe(ps), Edges(ps), SortProcessors(ps).value)
    ensures SortProcessors(ps).Err? <==> !exists order :: IsTopoOrder(Dedupe(ps), Edges(ps), order)
  {
    TopoSortSound(Dedupe(ps), Edges(ps));
    TopoSortComplete(Dedupe(ps), Edges(ps));
    if SortProcessors(ps).Ok? {
      var order := SortProcessors(ps).value;
      assert IsTopoOrder(Dedupe(ps), Edges(ps), order);
      assert exists order :: IsTopoOrder(Dedupe(ps), Edges(ps), order);
    }
  }

  /** In a sorted list, every instance of a class in p.after comes before p, and p before every
      instance of a class in p.before. */
  lemma DeclarationsRespected(ps: seq<Processor>, order: seq<Processor>, p: Processor, q: Processor, c: ProcessorType)
    requires IsTopoOrder(Dedupe(ps), Edges(ps), order)
    requires p in ps && q in ps
    ensures c in p.after && c in q.classes ==>
      exists a, b :: 0 <= a < b < |order| && order[a] == q && order[b] == p
    ensures c in p.before && c in q.classes ==>
      exists a, b :: 0 <= a < b < |order| && order[a] == p && order[b] == q
  {
    assert p in order && q in order;
    var a :| 0 <= a < |order| && order[a] == q;
    var b :| 0 <= b < |order| && order[b] == p;
    if c in p.after && c in q.classes {
      assert HasEdge(q, p);
      assert (q, p) in Edges(ps);
    }
    if c in p.before && c in q.classes {
      assert HasEdge(p, q);
      assert (p, q) in Edges(ps);
    }
  }

  /** A processor that is an instance of a class it must run after can never be ordered. */
  lemma SelfDependencyIsCycle(ps: seq<Processor>, p: Processor, c: ProcessorType)
    requires p in ps && c in p.after && c in p.classes
    ensures SortProcessors(ps).Err?
  {
    assert HasEdge(p, p);
    assert (p, p) in Edges(ps);
    SortProcessorsSpec(ps);
    forall order
      ensures !IsTopoOrder(Dedupe(ps), Edges(ps), order)
    {
      if IsTopoOrder(Dedupe(ps), Edges(ps), order) {
      }
    }
  }
}

=== FILE: system.dfy ===
/**
 * The entity/component registry `System` (src/snakia/core/ecs/system.py).
 *
 * Components are values of a type C whose component type is given by `kindOf`. The registry keeps
 * two maps that must agree: the index, component type -> set of entities, and the records,
 * entity -> (component type -> component). Both are default-dicts in the program: reading a
 * missing entity record creates an empty one, which the model does explicitly (`Touch`).
 */
module Ecs {
  import opened Wrappers
  import opened Lists
  import opened Scheduling

  type Entity = int
  type ComponentType = nat
  type Index = map<ComponentType, set<Entity>>
  type Record<C> = map<ComponentType, C>

  /** `components[t]` of the index, a missing type reading as the empty set. */
  function IndexOf(idx: Index, t: ComponentType): set<Entity>
  {
    if t in idx then idx[t] else {}
  }

  /** No type is kept with an empty set of entities. */
  predicate NoEmptySets(idx: Index)
  {
    forall t :: t in idx ==> idx[t] != {}
  }

  /** `entities[e]` of the default-dict: the record, empty when there is none. */
  function RecordOf<C>(m: map<Entity, Record<C>>, e: Entity): Record<C>
  {
    if e in m then m[e] else map[]
  }

  /** The records after `entities[e]` has been read: an empty record is created if none exists. */
  function Touch<C>(m: map<Entity, Record<C>>, e: Entity): (r: map<Entity, Record<C>>)
    ensures e in r && r[e] == RecordOf(m, e)
    ensures forall x :: x in r <==> x in m || x == e
    ensures forall x :: x in m ==> r[x] == m[x]
  {
    if e in m then m else m[e := map[]]
  }

  /** `components[t].discard(e)` followed by deleting the type if its set became empty. */
  function Discard(idx: Index, t: ComponentType, e: Entity): (r: Index)
    requires NoEmptySets(idx)
    ensures NoEmptySets(r)
    ensures forall u :: IndexOf(r, u) == if u == t then IndexOf(idx, u) - {e} else IndexOf(idx, u)
  {
    var s := IndexOf(idx, t) - {e};
    if s == {} then idx - {t} else idx[t := s]
  }

  /** The record `create_entity` builds: each component is added unless its type is present. */
  function FirstWins<C>(kindOf: C -> ComponentType, rec: Record<C>, cs: seq<C>): (r: Record<C>)
    ensures forall t :: t in r <==> t in rec || exists i :: 0 <= i < |cs| && kindOf(cs[i]) == t
  {
    if cs == [] then rec
    else
      var before := FirstWins(kindOf, rec, cs[..|cs| - 1]);
      var c := cs[|cs| - 1];
      assert cs == cs[..|cs| - 1] + [c];
      if kindOf(c) in before then before else before[kindOf(c) := c]
  }

  /** A type already in the record keeps its component; otherwise the first component of the type wins. */
  lemma {:induction false} FirstComponentWins<C>(kindOf: C -> ComponentType, rec: Record<C>, cs: seq<C>, t: ComponentType, i: nat)
    requires t !in rec && i < |cs| && kindOf(cs[i]) == t
    requires forall j :: 0 <= j < i ==> kindOf(cs[j]) != t
    ensures t in FirstWins(kindOf, rec, cs) && FirstWins(kindOf, rec, cs)[t] == cs[i]
  {
    var init := cs[..|cs| - 1];
    if i < |cs| - 1 {
      FirstComponentWins(kindOf, rec, init, t, i);
    } else {
      assert forall j :: 0 <= j < |init| ==> kindOf(init[j]) != t;
    }
  }

  lemma FirstWinsStep<C>(kindOf: C -> ComponentType, rec: Record<C>, cs: seq<C>, i: nat)
    requires i < |cs|
    ensures var before := FirstWins(kindOf, rec, cs[..i]);
      FirstWins(kindOf, rec, cs[..i + 1]) == if kindOf(cs[i]) in before then before else before[kindOf(cs[i]) := cs[i]]
  {
    assert cs[..i + 1][..i] == cs[..i];
  }

  lemma {:induction false} ExistingComponentKept<C>(kindOf: C -> ComponentType, rec: Record<C>, cs: seq<C>, t: ComponentType)
    requires t in rec
    ensures t in FirstWins(kindOf, rec, cs) && FirstWins(kindOf, rec, cs)[t] == rec[t]
  {
    if cs != [] {
      ExistingComponentKept(kindOf, rec, cs[..|cs| - 1], t);
    }
  }

  /** The components of a record for the types ts, in argument order. */
  function ComponentsIn<C>(rec: Record<C>, ts: seq<ComponentType>): (r: seq<C>)
    requires forall i :: 0 <= i < |ts| ==> ts[i] in rec
    ensures |r| == |ts| && forall i :: 0 <= i < |ts| ==> r[i] == rec[ts[i]]
  {
    if ts == [] then [] else [rec[ts[0]]] + ComponentsIn(rec, ts[1..])
  }

  /** A member of a non-empty set. */
  lemma SomeMember<T>(s: set<T>) returns (x: T)
    requires s != {}
    ensures x in s
  {
    x :| x in s;
  }

  /** The registry invariant on values: the index and the records describe the same pairs, and
      every stored component sits under its own type. */
  ghost predicate Consistent<C>(kindOf: C -> ComponentType, idx: Index, ents: map<Entity, Record<C>>)
  {
    && NoEmptySets(idx)
    && (forall t, e :: t in idx && e in idx[t] ==> e in ents && t in ents[e])
    && (forall e, t :: e in ents && t in ents[e] ==> t in idx && e in idx[t])
    && (forall e, t :: e in ents && t in ents[e] ==> kindOf(ents[e][t]) == t)
  }

  /** Reading a record, which creates an empty one, keeps the registry consistent. */
  lemma TouchConsistent<C>(kindOf: C -> ComponentType, idx: Index, ents: map<Entity, Record<C>>, e: Entity)
    requires Consistent(kindOf, idx, ents)
    ensures Consistent(kindOf, idx, Touch(ents, e))
  {
  }

  /** Indexing an entity under a component's type and storing the component in its record. */
  lemma AddConsistent<C>(kindOf: C -> ComponentType, idx: Index, ents: map<Entity, Record<C>>, e: Entity, c: C)
    requires Consistent(kindOf, idx, ents)
    ensures var t := kindOf(c);
      Consistent(kindOf, idx[t := IndexOf(idx, t) + {e}], ents[e := RecordOf(ents, e)[t := c]])
  {
    var t := kindOf(c);
    var idx' := idx[t := IndexOf(idx, t) + {e}];
    var ents' := ents[e := RecordOf(ents, e)[t := c]];
    forall u, x | u in idx' && x in idx'[u]
      ensures x in ents' && u in ents'[x]
    {
      if !(u == t && x == e) {
        assert x in idx[u];
      }
    }
  }

  /** Indexing an entity under a component's type and storing the component only when its record
      has none of that type. */
  lemma AddIfAbsentConsistent<C>(kindOf: C -> ComponentType, idx: Index, ents: map<Entity, Record<C>>, e: Entity, c: C)
    requires Consistent(kindOf, idx, ents) && e in ents
    ensures var t := kindOf(c);
      Consistent(kindOf, idx[t := IndexOf(idx, t) + {e}], ents[e := if t in ents[e] then ents[e] else ents[e][t := c]])
  {
    var t := kindOf(c);
    if t !in ents[e] {
      AddConsistent(kindOf, idx, ents, e, c);
    } else {
      assert t in idx && e in idx[t];
      assert IndexOf(idx, t) + {e} == idx[t];
      assert idx[t := IndexOf(idx, t) + {e}] == idx;
      assert ents[e := ents[e]] == ents;
    }
  }

  /** Unindexing an entity from one type and dropping that type from its record. */
  lemma RemoveConsistent<C>(kindOf: C -> ComponentType, idx: Index, ents: map<Entity, Record<C>>, e: Entity, t: ComponentType)
    requires Consistent(kindOf, idx, ents)
    ensures Consistent(kindOf, Discard(idx, t, e), ents[e := RecordOf(ents, e) - {t}])
  {
    var idx' := Discard(idx, t, e);
    var ents' := ents[e := RecordOf(ents, e) - {t}];
    forall u, x | u in idx' && x in idx'[u]
      ensures x in ents' && u in ents'[x]
    {
      assert x in IndexOf(idx', u);
      assert x in IndexOf(idx, u);
    }
    forall x, u | x in ents' && u in ents'[x]
      ensures u in idx' && x in idx'[u]
    {
      assert x in IndexOf(idx, u);
      assert x in IndexOf(idx', u);
    }
  }

  /** Dropping a record once the entity is in no index set. */
  lemma DeleteConsistent<C>(kindOf: C -> ComponentType, idx: Index, idx': Index, ents: map<Entity, Record<C>>, e: Entity)
    requires Consistent(kindOf, idx, ents) && NoEmptySets(idx')
    requires forall u :: IndexOf(idx', u) == IndexOf(idx, u) - {e}
    ensures Consistent(kindOf, idx', ents - {e})
  {
    forall u, x | u in idx' && x in idx'[u]
      ensures x in ents - {e} && u in (ents - {e})[x]
    {
      assert x in IndexOf(idx', u);
      assert x in IndexOf(idx, u);
    }
    forall x, u | x in ents - {e} && u in (ents - {e})[x]
      ensures u in idx' && x in idx'[u]
    {
      assert x in IndexOf(idx, u);
      assert x in IndexOf(idx', u);
    }
  }

  /** Writing a record twice keeps the second. */
  lemma SetTwice<C>(m: map<Entity, Record<C>>, e: Entity, a: Record<C>, b: Record<C>)
    ensures m[e := a][e := b] == m[e := b]
  {
  }

  /** Creating a record and then writing it is writing it. */
  lemma TouchThenSet<C>(m: map<Entity, Record<C>>, e: Entity, r: Record<C>)
    ensures Touch(m, e)[e := r] == m[e := r]
  {
  }

  /** Processor removal */

  predicate Matches(p: Processor, t: ProcessorType) { t in p.classes }

  /** The iteration of `remove_processor` from list position i: the list iterator reads the next
      position of the current list, so after a removal the element that moved into its place is passed over. */
  function Scan(ps: seq<Processor>, i: nat, t: ProcessorType): seq<Processor>
    decreases |ps| - i
  {
    if i >= |ps| then ps
    else if Matches(ps[i], t) then Scan(RemoveFirst(ps, ps[i]), i + 1, t)
    else Scan(ps, i + 1, t)
  }

  /** What the removal does to a list without repeats: a match is dropped and the element after it
      is kept unexamined. */
  function SkipRemove(ps: seq<Processor>, t: ProcessorType): (r: seq<Processor>)
    ensures |r| <= |ps|
  {
    if ps == [] then []
    else if !Matches(ps[0], t) then [ps[0]] + SkipRemove(ps[1..], t)
    else if |ps| == 1 then []
    else [ps[1]] + SkipRemove(ps[2..], t)
  }

  lemma RemoveFirstDistinct(kept: seq<Processor>, x: Processor, rest: seq<Processor>)
    requires Distinct(kept + [x] + rest)
    ensures x in kept + [x] + rest && RemoveFirst(kept + [x] + rest, x) == kept + rest
  {
    var s := kept + [x] + rest;
    assert x !in kept by {
      forall k | 0 <= k < |kept|
        ensures kept[k] != x
      {
        assert s[k] == kept[k] && s[|kept|] == x;
      }
    }
    RemoveFirstAt(kept, x, rest);
  }

  lemma DistinctSuffix(kept: seq<Processor>, rest: seq<Processor>, k: nat)
    requires Distinct(kept + rest) && k <= |rest|
    ensures Distinct(kept + rest[k..])
  {
    var s := kept + rest;
    var s' := kept + rest[k..];
    forall a, b | 0 <= a < b < |s'|
      ensures s'[a] != s'[b]
    {
      var a' := if a < |kept| then a else a + k;
      var b' := if b < |kept| then b else b + k;
      assert s'[a] == s[a'] && s'[b] == s[b'];
    }
  }

  /** On a list without repeats the iteration removes exactly what `SkipRemove` says. */
  lemma {:induction false} ScanIsSkipRemove(kept: seq<Processor>, rest: seq<Processor>, t: ProcessorType)
    requires Distinct(kept + rest)
    ensures Scan(kept + rest, |kept|, t) == kept + SkipRemove(rest, t)
    decreases |rest|
  {
    if rest == [] {
      assert kept + rest == kept;
    } else if !Matches(rest[0], t) {
      MoveHead(kept, rest);
      ScanIsSkipRemove(kept + [rest[0]], rest[1..], t);
      ScanKeepStep(kept, rest, t);
    } else {
      if |rest| > 1 {
        DistinctSuffix(kept, rest, 1);
        MoveHead(kept, rest[1..]);
        assert rest[1..][1..] == rest[2..];
        ScanIsSkipRemove(kept + [rest[1]], rest[2..], t);
      }
      ScanDropStep(kept, rest, t);
    }
  }

  /** A processor that does not match is passed over and joins the kept prefix. */
  lemma ScanKeepStep(kept: seq<Processor>, rest: seq<Processor>, t: ProcessorType)
    requires rest != [] && !Matches(rest[0], t)
    requires Scan((kept + [rest[0]]) + rest[1..], |kept| + 1, t) == (kept + [rest[0]]) + SkipRemove(rest[1..], t)
    ensures Scan(kept + rest, |kept|, t) == kept + SkipRemove(rest, t)
  {
    MoveHead(kept, rest);
    assert SkipRemove(rest, t) == [rest[0]] + SkipRemove(rest[1..], t);
    Regroup(kept, rest[0], SkipRemove(rest[1..], t));
  }

  /** The head of rest moved onto the end of kept. */
  lemma MoveHead(kept: seq<Processor>, rest: seq<Processor>)
    requires rest != []
    ensures kept + rest == (kept + [rest[0]]) + rest[1..]
    ensures (kept + rest)[|kept|] == rest[0]
  {
    assert rest == [rest[0]] + rest[1..];
  }

  lemma Regroup(kept: seq<Processor>, x: Processor, rest: seq<Processor>)
    ensures (kept + [x]) + rest == kept + ([x] + rest)
  {
  }

  /** A matching processor is removed, and the one that moves into its place is passed over
      unexamined and joins the kept prefix. */
  lemma ScanDropStep(kept: seq<Processor>, rest: seq<Processor>, t: ProcessorType)
    requires Distinct(kept + rest) && rest != [] && Matches(rest[0], t)
    requires |rest| > 1 ==>
      Scan((kept + [rest[1]]) + rest[2..], |kept| + 1, t) == (kept + [rest[1]]) + SkipRemove(rest[2..], t)
    ensures Scan(kept + rest, |kept|, t) == kept + SkipRemove(rest, t)
  {
    var s := kept + rest;
    MoveHead(kept, rest);
    RemoveFirstDistinct(kept, rest[0], rest[1..]);
    assert Scan(s, |kept|, t) == Scan(kept + rest[1..], |kept| + 1, t);
    if |rest| == 1 {
      assert rest[1..] == [];
      assert kept + rest[1..] == kept;
    } else {
      MoveHead(kept, rest[1..]);
      assert rest[1..][1..] == rest[2..];
      assert SkipRemove(rest, t) == [rest[1]] + SkipRemove(rest[2..], t);
      Regroup(kept, rest[1], SkipRemove(rest[2..], t));
    }
  }

  /** The elements that do not match. */
  function Others(ps: seq<Processor>, t: ProcessorType): seq<Processor>
  {
    if ps == [] then [] else (if Matches(ps[0], t) then [] else [ps[0]]) + Others(ps[1..], t)
  }

  /** Removal keeps every non-matching processor, in order, and keeps a match only right after
      another match. */
  lemma SkipRemoveKeeps(ps: seq<Processor>, t: ProcessorType)
    ensures Others(SkipRemove(ps, t), t) == Others(ps, t)
    ensures forall k :: 0 <= k < |SkipRemove(ps, t)| && Matches(SkipRemove(ps, t)[k], t) ==>
      exists j :: 0 < j < |ps| && ps[j] == SkipRemove(ps, t)[k] && Matches(ps[j - 1], t)
  {
    SkipRemoveKeepsOthers(ps, t);
    SkipRemoveKeepsMatches(ps, t);
  }

  lemma {:induction false} SkipRemoveKeepsOthers(ps: seq<Processor>, t: ProcessorType)
    ensures Others(SkipRemove(ps, t), t) == Others(ps, t)
  {
    if ps != [] {
      if !Matches(ps[0], t) {
        SkipRemoveKeepsOthers(ps[1..], t);
        var r' := SkipRemove(ps[1..], t);
        assert ([ps[0]] + r')[0] == ps[0] && ([ps[0]] + r')[1..] == r';
      } else if |ps| > 1 {
        SkipRemoveKeepsOthers(ps[2..], t);
        var r' := SkipRemove(ps[2..], t);
        assert ([ps[1]] + r')[0] == ps[1] && ([ps[1]] + r')[1..] == r';
        assert ps[1..][0] == ps[1] && ps[1..][1..] == ps[2..];
      }
    }
  }

  lemma {:induction false} SkipRemoveKeepsMatches(ps: seq<Processor>, t: ProcessorType)
    ensures forall k :: 0 <= k < |SkipRemove(ps, t)| && Matches(SkipRemove(ps, t)[k], t) ==>
      exists j :: 0 < j < |ps| && ps[j] == SkipRemove(ps, t)[k] && Matches(ps[j - 1], t)
  {
    var r := SkipRemove(ps, t);
    if ps != [] {
      if !Matches(ps[0], t) {
        SkipRemoveKeepsMatches(ps[1..], t);
        var r' := SkipRemove(ps[1..], t);
        assert r == [ps[0]] + r';
        forall k | 0 <= k < |r| && Matches(r[k], t)
          ensures exists j :: 0 < j < |ps| && ps[j] == r[k] && Matches(ps[j - 1], t)
        {
          assert r[k] == r'[k - 1];
          var j :| 0 < j < |ps[1..]| && ps[1..][j] == r'[k - 1] && Matches(ps[1..][j - 1], t);
          assert ps[j + 1] == r[k] && Matches(ps[j], t);
        }
      } else if |ps| > 1 {
        SkipRemoveKeepsMatches(ps[2..], t);
        var r' := SkipRemove(ps[2..], t);
        assert r == [ps[1]] + r';
        forall k | 0 <= k < |r| && Matches(r[k], t)
          ensures exists j :: 0 < j < |ps| && ps[j] == r[k] && Matches(ps[j - 1], t)
        {
          if k == 0 {
            assert ps[1] == r[0] && Matches(ps[0], t);
          } else {
            assert r[k] == r'[k - 1];
            var j :| 0 < j < |ps[2..]| && ps[2..][j] == r'[k - 1] && Matches(ps[2..][j - 1], t);
            assert ps[j + 2] == r[k] && Matches(ps[j + 1], t);
          }
        }
      }
    }
  }

  /** Of two adjacent matching processors only the first is removed. */
  lemma AdjacentMatches(p: Processor, q: Processor, rest: seq<Processor>, t: ProcessorType)
    requires Matches(p, t) && Matches(q, t)
    ensures SkipRemove([p, q] + rest, t) == [q] + SkipRemove(rest, t)
  {
    assert ([p, q] + rest)[2..] == rest;
  }

  /** Without two matches in a row, every match is removed. */
  lemma {:induction false} SeparatedMatchesRemoved(ps: seq<Processor>, t: ProcessorType)
    requires forall k :: 0 < k < |ps| && Matches(ps[k - 1], t) ==> !Matches(ps[k], t)
    ensures SkipRemove(ps, t) == Others(ps, t)
  {
    if ps != [] {
      if !Matches(ps[0], t) {
        SeparatedMatchesRemoved(ps[1..], t);
      } else if |ps| > 1 {
        assert !Matches(ps[1], t);
        SeparatedMatchesRemoved(ps[2..], t);
        assert Others(ps[1..], t) == [ps[1]] + Others(ps[2..], t);
      }
    }
  }

  class System<C> {
    /** The type of each component value. */
    const kindOf: C -> ComponentType

    var processors: seq<Processor>
    var components: Index
    var entities: map<Entity, Record<C>>
    /** The next id the entity counter gives. */
    var counter: nat
    var dead: set<Entity>

    /** The index and the records describe the same pairs, every stored component sits under its
        own type, and ids are counted from 1. */
    ghost predicate Valid()
      reads this
    {
      && counter >= 1
      && Consistent(kindOf, components, entities)
    }

    constructor(kindOf: C -> ComponentType)
      ensures this.kindOf == kindOf && Valid()
      ensures processors == [] && components == map[] && entities == map[] && counter == 1 && dead == {}
    {
      this.kindOf := kindOf;
      processors := [];
      components := map[];
      entities := map[];
      counter := 1;
      dead := {};
    }

    /** `full_reset`: back to the initial state, the counter at 1 again. */
    method FullReset()
      modifies this
      ensures Valid()
      ensures processors == [] && components == map[] && entities == map[] && counter == 1 && dead == {}
    {
      processors := [];
      components := map[];
      entities := map[];
      counter := 1;
      dead := {};
    }

    /** The index entry of an entity agrees with its record. */
    lemma IndexMatchesRecord(e: Entity, t: ComponentType)
      requires Valid()
      ensures e in IndexOf(components, t) <==> t in RecordOf(entities, e)
    {
    }

    /** `get_processor`: the first processor that is an instance of t, or None. */
    method GetProcessor(t: ProcessorType) returns (r: Option<Processor>)
      ensures r.None? <==> forall p :: p in processors ==> !Matches(p, t)
      ensures r.Some? ==> exists i :: (0 <= i < |processors| && processors[i] == r.value && Matches(r.value, t)
        && forall j :: 0 <= j < i ==> !Matches(processors[j], t))
    {
      var i := 0;
      while i < |processors|
        invariant i <= |processors|
        invariant forall j :: 0 <= j < i ==> !Matches(processors[j], t)
      {
        if Matches(processors[i], t) {
          return Some(processors[i]);
        }
        i := i + 1;
      }
      return None;
    }

    /** `add_processor`: appends, then sorts; on a cycle the error is raised with the processor
        already appended. */
    method AddProcessor(p: Processor) returns (r: Result<()>)
      modifies this
      ensures var sorted := SortProcessors(old(processors) + [p]);
        && (r.Ok? <==> sorted.Ok?)
        && processors == if sorted.Ok? then sorted.value else old(processors) + [p]
      ensures r.Err? ==> r.error == CycleError
      ensures components == old(components) && entities == old(entities)
      ensures counter == old(counter) && dead == old(dead)
    {
      processors := processors + [p];
      var edges := BuildEdges(processors);
      var sorted := TopoSort(Dedupe(processors), edges);
      if sorted.Err? {
        return Err(sorted.error);
      }
      processors := sorted.value;
      return Ok(());
    }

    /** `remove_processor`: removes matches while iterating over the same list. */
    method RemoveProcessor(t: ProcessorType)
      modifies this
      ensures processors == Scan(old(processors), 0, t)
      ensures Distinct(old(processors)) ==> processors == SkipRemove(old(processors), t)
      ensures components == old(components) && entities == old(entities)
      ensures counter == old(counter) && dead == old(dead)
    {
      var i := 0;
      while i < |processors|
        invariant Scan(old(processors), 0, t) == Scan(processors, i, t)
        invariant components == old(components) && entities == old(entities)
        invariant counter == old(counter) && dead == old(dead)
        decreases |processors| - i
      {
        var p := processors[i];
        i := i + 1;
        if Matches(p, t) {
          processors := RemoveFirst(processors, p);
        }
      }
      if Distinct(old(processors)) {
        assert [] + old(processors) == old(processors);
        ScanIsSkipRemove([], old(processors), t);
      }
    }

    /** `get_components(t1, ..., tn)`: the entities holding every given type, each with its
        components in argument order; TypeError without types. */
    function GetComponents(ts: seq<ComponentType>): (r: Result<map<Entity, seq<C>>>)
      requires Valid()
      reads this
      ensures r.Ok? <==> ts != []
      ensures r.Err? ==> r.error == TypeError
      ensures r.Ok? ==> forall e :: e in r.value <==> e in entities && forall i :: 0 <= i < |ts| ==> ts[i] in entities[e]
      ensures r.Ok? ==> forall e, i :: e in r.value && 0 <= i < |ts| ==>
        |r.value[e]| == |ts| && r.value[e][i] == entities[e][ts[i]]
    {
      if ts == [] then Err(TypeError)
      else
        var holders := Intersection(ts);
        Ok(map e | e in holders :: ComponentsIn(entities[e], ts))
    }

    /** `set.intersection` of the index sets of ts. */
    function Intersection(ts: seq<ComponentType>): (r: set<Entity>)
      requires Valid() && ts != []
      reads this
      ensures forall e :: e in r <==> e in entities && forall i :: 0 <= i < |ts| ==> ts[i] in entities[e]
    {
      if |ts| == 1 then IndexOf(components, ts[0])
      else IndexOf(components, ts[0]) * Intersection(ts[1..])
    }

    /** `get_component(t)`: every entity holding a component of type t, with that component. */
    function GetComponent(t: ComponentType): (r: map<Entity, C>)
      requires Valid()
      reads this
      ensures forall e :: e in r <==> e in entities && t in entities[e]
      ensures forall e :: e in r ==> r[e] == entities[e][t] && kindOf(r[e]) == t
    {
      map e | e in IndexOf(components, t) :: entities[e][t]
    }

    /** `get_components_of_entity(e, t1, ..., tn)`: each type's component or None; creates an
        empty record for an unknown entity. */
    method GetComponentsOfEntity(e: Entity, ts: seq<ComponentType>) returns (r: seq<Option<C>>)
      requires Valid()
      modifies this
      ensures Valid()
      ensures |r| == |ts|
      ensures forall i :: 0 <= i < |ts| ==>
        r[i] == if ts[i] in RecordOf(old(entities), e) then Some(RecordOf(old(entities), e)[ts[i]]) else None
      ensures entities == Touch(old(entities), e)
      ensures components == old(components) && processors == old(processors)
      ensures counter == old(counter) && dead == old(dead)
    {
      TouchConsistent(kindOf, components, entities, e);
      entities := Touch(entities, e);
      var rec := entities[e];
      r := [];
      var i := 0;
      while i < |ts|
        invariant i <= |ts| && |r| == i
        invariant forall k :: 0 <= k < i ==> r[k] == if ts[k] in rec then Some(rec[ts[k]]) else None
      {
        r := r + [if ts[i] in rec then Some(rec[ts[i]]) else None];
        i := i + 1;
      }
    }

    /** `get_component_of_entity(e, t, default)`; creates an empty record for an unknown entity. */
    method GetComponentOfEntity(e: Entity, t: ComponentType, default: Option<C> := None) returns (r: Option<C>)
      requires Valid()
      modifies this
      ensures Valid()
      ensures r == if t in RecordOf(old(entities), e) then Some(RecordOf(old(entities), e)[t]) else default
      ensures entities == Touch(old(entities), e)
      ensures components == old(components) && processors == old(processors)
      ensures counter == old(counter) && dead == old(dead)
    {
      TouchConsistent(kindOf, components, entities, e);
      entities := Touch(entities, e);
      r := if t in entities[e] then Some(entities[e][t]) else default;
    }

    /** `add_component`: indexes the entity and sets, or replaces, its component of that type. */
    method AddComponent(e: Entity, c: C)
      requires Valid()
      modifies this
      ensures Valid()
      ensures entities == old(entities)[e := RecordOf(old(entities), e)[kindOf(c) := c]]
      ensures forall u :: IndexOf(components, u) == (if u == kindOf(c) then IndexOf(old(components), u) + {e} else IndexOf(old(components), u))
      ensures processors == old(processors) && counter == old(counter) && dead == old(dead)
    {
      var t := kindOf(c);
      AddConsistent(kindOf, components, entities, e, c);
      components := components[t := IndexOf(components, t) + {e}];
      entities := entities[e := RecordOf(entities, e)[t := c]];
    }

    /** `has_component`; creates an empty record for an unknown entity. */
    method HasComponent(e: Entity, t: ComponentType) returns (b: bool)
      requires Valid()
      modifies this
      ensures Valid()
      ensures b <==> e in old(entities) && t in old(entities)[e]
      ensures entities == Touch(old(entities), e)
      ensures components == old(components) && processors == old(processors)
      ensures counter == old(counter) && dead == old(dead)
    {
      TouchConsistent(kindOf, components, entities, e);
      entities := Touch(entities, e);
      b := t in entities[e];
    }

    /** `has_components`: every given type is present; creates an empty record for an unknown entity. */
    method HasComponents(e: Entity, ts: seq<ComponentType>) returns (b: bool)
      requires Valid()
      modifies this
      ensures Valid()
      ensures b <==> forall i :: 0 <= i < |ts| ==> ts[i] in RecordOf(old(entities), e)
      ensures entities == Touch(old(entities), e)
      ensures components == old(components) && processors == old(processors)
      ensures counter == old(counter) && dead == old(dead)
    {
      TouchConsistent(kindOf, components, entities, e);
      entities := Touch(entities, e);
      var rec := entities[e];
      var i := 0;
      while i < |ts|
        invariant i <= |ts|
        invariant forall k :: 0 <= k < i ==> ts[k] in rec
      {
        if ts[i] !in rec {
          return false;
        }
        i := i + 1;
      }
      return true;
    }

    /** `remove_component`: unindexes, then pops the component; KeyError when the entity lacks it,
        after an empty record has been created for an unknown entity. */
    method RemoveComponent(e: Entity, t: ComponentType) returns (r: Result<C>)
      requires Valid()
      modifies this
      ensures Valid()
      ensures var rec := RecordOf(old(entities), e);
        && (r.Ok? <==> t in rec)
        && (r.Ok? ==> r.value == rec[t] && kindOf(r.value) == t)
        && (r.Err? ==> r.error == KeyError)
        && entities == old(entities)[e := rec - {t}]
      ensures forall u :: IndexOf(components, u) == (if u == t then IndexOf(old(components), u) - {e} else IndexOf(old(components), u))
      ensures processors == old(processors) && counter == old(counter) && dead == old(dead)
    {
      RemoveConsistent(kindOf, components, entities, e, t);
      components := Discard(components, t, e);
      var rec := RecordOf(entities, e);
      entities := entities[e := rec - {t}];
      if t in rec {
        r := Ok(rec[t]);
      } else {
        r := Err(KeyError);
      }
    }

    /** Some component of cs has type t. */
    predicate HasType(cs: seq<C>, t: ComponentType)
    {
      exists i :: 0 <= i < |cs| && kindOf(cs[i]) == t
    }

    /** One step of `create_entity`'s loop: indexes the entity under the component's type and
        stores the component unless the record already holds that type. */
    method AddIfAbsent(id: Entity, c: C)
      requires Valid() && id in entities
      modifies this
      ensures Valid()
      ensures entities == old(entities)[id := if kindOf(c) in old(entities)[id] then old(entities)[id]
        else old(entities)[id][kindOf(c) := c]]
      ensures forall u :: IndexOf(components, u) == (if u == kindOf(c) then IndexOf(old(components), u) + {id} else IndexOf(old(components), u))
      ensures processors == old(processors) && counter == old(counter) && dead == old(dead)
    {
      var t := kindOf(c);
      AddIfAbsentConsistent(kindOf, components, entities, id, c);
      components := components[t := IndexOf(components, t) + {id}];
      if t !in entities[id] {
        entities := entities[id := entities[id][t := c]];
      }
    }

    /** The loop of `create_entity` over its components, for a record that exists. */
    method AddAllIfAbsent(id: Entity, cs: seq<C>)
      requires Valid() && id in entities
      modifies this
      ensures Valid()
      ensures entities == old(entities)[id := FirstWins(kindOf, old(entities)[id], cs)]
      ensures forall u :: IndexOf(components, u) == (if HasType(cs, u) then IndexOf(old(components), u) + {id} else IndexOf(old(components), u))
      ensures processors == old(processors) && counter == old(counter) && dead == old(dead)
    {
      ghost var rec0 := entities[id];
      var i := 0;
      while i < |cs|
        invariant i <= |cs|
        invariant Valid()
        invariant counter == old(counter) && processors == old(processors) && dead == old(dead)
        invariant entities == old(entities)[id := FirstWins(kindOf, rec0, cs[..i])]
        invariant forall u :: IndexOf(components, u) == (if HasType(cs[..i], u) then IndexOf(old(components), u) + {id} else IndexOf(old(components), u))
      {
        ghost var before := components;
        FirstWinsStep(kindOf, rec0, cs, i);
        AddIfAbsent(id, cs[i]);
        SetTwice(old(entities), id, FirstWins(kindOf, rec0, cs[..i]), FirstWins(kindOf, rec0, cs[..i + 1]));
        IndexStep(old(components), before, components, id, cs, i);
        i := i + 1;
      }
      assert cs[..i] == cs;
    }

    /** `create_entity`: the next id; each component is indexed, and the first one of each type is
        kept, as is any component a record created earlier under that id already holds. */
    method CreateEntity(cs: seq<C>) returns (id: Entity)
      requires Valid()
      modifies this
      ensures Valid()
      ensures id == old(counter) && counter == old(counter) + 1
      ensures entities == old(entities)[id := FirstWins(kindOf, RecordOf(old(entities), id), cs)]
      ensures forall u :: IndexOf(components, u) == (if HasType(cs, u) then IndexOf(old(components), u) + {id} else IndexOf(old(components), u))
      ensures processors == old(processors) && dead == old(dead)
    {
      id := counter;
      counter := counter + 1;
      TouchConsistent(kindOf, components, entities, id);
      entities := Touch(entities, id);
      AddAllIfAbsent(id, cs);
      TouchThenSet(old(entities), id, FirstWins(kindOf, RecordOf(old(entities), id), cs));
    }

    lemma IndexStep(idx0: Index, before: Index, after: Index, id: Entity, cs: seq<C>, i: nat)
      requires i < |cs|
      requires forall u :: IndexOf(before, u) == (if HasType(cs[..i], u) then IndexOf(idx0, u) + {id} else IndexOf(idx0, u))
      requires forall u :: IndexOf(after, u) == (if u == kindOf(cs[i]) then IndexOf(before, u) + {id} else IndexOf(before, u))
      ensures forall u :: IndexOf(after, u) == (if HasType(cs[..i + 1], u) then IndexOf(idx0, u) + {id} else IndexOf(idx0, u))
    {
      HasTypeStep(cs, i);
    }

    lemma HasTypeStep(cs: seq<C>, i: nat)
      requires i < |cs|
      ensures forall u :: HasType(cs[..i + 1], u) <==> HasType(cs[..i], u) || kindOf(cs[i]) == u
    {
      assert cs[..i + 1] == cs[..i] + [cs[i]];
      assert cs[..i + 1][i] == cs[i];
      assert HasType(cs[..i + 1], kindOf(cs[i]));
      forall u | HasType(cs[..i], u)
        ensures HasType(cs[..i + 1], u)
      {
        var k :| 0 <= k < i && kindOf(cs[..i][k]) == u;
        assert cs[..i + 1][k] == cs[..i][k];
      }
    }

    /** `delete_entity(e, immediate=True)`: unindexes every type of the record, then drops it. */
    method DeleteNow(e: Entity)
      requires Valid()
      modifies this
      ensures Valid()
      ensures entities == old(entities) - {e}
      ensures forall u :: IndexOf(components, u) == IndexOf(old(components), u) - {e}
      ensures processors == old(processors) && counter == old(counter) && dead == old(dead)
    {
      var rec := RecordOf(entities, e);
      var todo := rec.Keys;
      while todo != {}
        invariant todo <= rec.Keys
        invariant entities == old(entities) && processors == old(processors)
        invariant counter == old(counter) && dead == old(dead)
        invariant NoEmptySets(components)
        invariant forall u :: IndexOf(components, u) == if u in rec.Keys - todo then IndexOf(old(components), u) - {e} else IndexOf(old(components), u)
        decreases todo
      {
        var t :| t in todo;
        components := Discard(components, t, e);
        todo := todo - {t};
      }
      DeleteConsistent(kindOf, old(components), components, entities, e);
      entities := entities - {e};
    }

    /** `delete_entity(e, immediate)`: immediate removal, or marking for the next update. */
    method DeleteEntity(e: Entity, immediate: bool := false)
      requires Valid()
      modifies this
      ensures Valid()
      ensures immediate ==> (entities == old(entities) - {e} && dead == old(dead)
        && forall u :: IndexOf(components, u) == IndexOf(old(components), u) - {e})
      ensures !immediate ==> entities == old(entities) && components == old(components) && dead == old(dead) + {e}
      ensures processors == old(processors) && counter == old(counter)
      ensures !EntityExists(e)
    {
      if immediate {
        DeleteNow(e);
      } else {
        dead := dead + {e};
      }
    }

    /** `entity_exists`: a record exists and the entity is not marked dead. */
    predicate EntityExists(e: Entity)
      reads this
    {
      e in entities && e !in dead
    }

    /** `_clear_dead_entities`: removes every marked entity, then empties the mark set. */
    method ClearDeadEntities()
      requires Valid()
      modifies this
      ensures Valid()
      ensures entities == old(entities) - old(dead) && dead == {}
      ensures forall u :: IndexOf(components, u) == IndexOf(old(components), u) - old(dead)
      ensures processors == old(processors) && counter == old(counter)
    {
      var todo := dead;
      while todo != {}
        invariant todo <= old(dead) && Valid()
        invariant entities == old(entities) - (old(dead) - todo)
        invariant forall u :: IndexOf(components, u) == IndexOf(old(components), u) - (old(dead) - todo)
        invariant processors == old(processors) && counter == old(counter)
        decreases todo
      {
        ghost var member := SomeMember(todo);
        var e :| e in todo;
        DeleteNow(e);
        todo := todo - {e};
      }
      dead := {};
    }

    /** `update`: flushes the deferred deletions, then gives the processors to run, in order. */
    method Update() returns (run: seq<Processor>)
      requires Valid()
      modifies this
      ensures Valid()
      ensures entities == old(entities) - old(dead) && dead == {}
      ensures forall u :: IndexOf(components, u) == IndexOf(old(components), u) - old(dead)
      ensures forall e :: e in old(dead) ==> !EntityExists(e)
      ensures run == processors == old(processors) && counter == old(counter)
    {
      ClearDeadEntities();
      run := processors;
    }
  }
}

=== FILE: text_widget.dfy ===
/** `TextWidget.on_render` (src/snakia/core/tui/widgets/text.py). */
module TextWidgets {
  import opened CanvasChars
  import opened Canvases

  /** A canvas one row high and as wide as the text, cell i holding text[i] styled like the
      template; the template's own character never shows. */
  method RenderText(text: string, template: CanvasChar := Blank) returns (canvas: Canvas)
    ensures fresh(canvas) && canvas.Valid()
    ensures canvas.width == |text| && canvas.height == 1
    ensures forall i :: 0 <= i < |text| ==> canvas.Get(i, 0) == Styled(text[i], template)
  {
    canvas := new Canvas(|text|, 1, Blank);
    canvas.DrawText(0, 0, text, template);
  }
}

=== FILE: texts.dfy ===
/** The few `str` operations of Python the model needs: split, join, startswith, lower. */
module Texts {

  /** `s.split(sep)` for a one-character separator: never empty, keeps empty pieces. */
  function Split(s: string, sep: char): (parts: seq<string>)
    ensures |parts| >= 1
  {
    if s == [] then [""]
    else if s[0] == sep then [""] + Split(s[1..], sep)
    else var rest := Split(s[1..], sep); [[s[0]] + rest[0]] + rest[1..]
  }

  /** `sep.join(parts)`. */
  function Join(parts: seq<string>, sep: string): string
  {
    if parts == [] then ""
    else if |parts| == 1 then parts[0]
    else parts[0] + sep + Join(parts[1..], sep)
  }

  /** No piece of a split contains the separator. */
  lemma {:induction false} SplitPiecesHaveNoSep(s: string, sep: char)
    ensures forall i :: 0 <= i < |Split(s, sep)| ==> sep !in Split(s, sep)[i]
  {
    if s != [] {
      SplitPiecesHaveNoSep(s[1..], sep);
    }
  }

  /** Joining the pieces of a split with the same separator gives the text back. */
  lemma {:induction false} JoinSplit(s: string, sep: char)
    ensures Join(Split(s, sep), [sep]) == s
  {
    if s != [] {
      JoinSplit(s[1..], sep);
      var rest := Split(s[1..], sep);
      if s[0] != sep {
        if |rest| == 1 {
          assert Split(s, sep) == [[s[0]] + rest[0]];
        } else {
          assert Split(s, sep)[1..] == rest[1..];
        }
      } else {
        assert Split(s, sep)[1..] == rest;
      }
    }
  }

  /** A text free of the separator splits into itself alone. */
  lemma {:induction false} SplitWithoutSep(x: string, sep: char)
    requires sep !in x
    ensures Split(x, sep) == [x]
  {
    if x != [] {
      assert x[0] in x;
      assert sep !in x[1..] by {
        forall i | 0 <= i < |x[1..]| ensures x[1..][i] != sep {
          assert x[1..][i] == x[i + 1];
        }
      }
      SplitWithoutSep(x[1..], sep);
      assert [x[0]] + x[1..] == x;
    }
  }

  /** A separator-free prefix ending at a separator is split off as the first piece. */
  lemma {:induction false} SplitAtFirstSep(x: string, y: string, sep: char)
    requires sep !in x
    ensures Split(x + [sep] + y, sep) == [x] + Split(y, sep)
  {
    if x == [] {
      assert x + [sep] + y == [sep] + y;
      assert ([sep] + y)[1..] == y;
    } else {
      assert (x + [sep] + y)[1..] == x[1..] + [sep] + y;
      assert x[0] in x;
      assert sep !in x[1..] by {
        forall i | 0 <= i < |x[1..]| ensures x[1..][i] != sep {
          assert x[1..][i] == x[i + 1];
        }
      }
      SplitAtFirstSep(x[1..], y, sep);
      assert [x[0]] + x[1..] == x;
    }
  }

  /** `s.startswith(prefix)`. */
  predicate StartsWith(s: string, prefix: string) {
    |prefix| <= |s| && s[..|prefix|] == prefix
  }

  /** `str.lower` on one character, ASCII letters only. */
  function LowerChar(c: char): char {
    if 'A' <= c <= 'Z' then (c as int + 32) as char else c
  }

  function Lower(s: string): (r: string)
    ensures |r| == |s|
    ensures forall i :: 0 <= i < |s| ==> r[i] == LowerChar(s[i])
  {
    if s == [] then [] else [LowerChar(s[0])] + Lower(s[1..])
  }
}

=== FILE: version.dfy ===
/**
 * Semantic-style versions `major.minor.patch`: ordering, compatibility,
 * printing and parsing (src/snakia/types/version.py).
 */
module Versions {
  import opened Wrappers
  import opened Numerals
  import opened Texts

  /** The validators (`ge=0`) make every stored part non-negative. */
  datatype Version = Version(major: nat, minor: nat, patch: nat)

  /** The right operand of a comparison operator: a Version or any other object. */
  datatype Operand = Ver(v: Version) | NotAVersion

  /** Python's ordering of two tuples of integers. */
  predicate TupleLess(s: seq<int>, t: seq<int>)
  {
    if s == [] then t != []
    else if t == [] then false
    else if s[0] != t[0] then s[0] < t[0]
    else TupleLess(s[1..], t[1..])
  }

  function AsTuple(v: Version): seq<int> { [v.major, v.minor, v.patch] }

  /** Lexicographic order on (major, minor, patch), stated field by field. */
  predicate Precedes(a: Version, b: Version)
  {
    a.major < b.major
    || (a.major == b.major && a.minor < b.minor)
    || (a.major == b.major && a.minor == b.minor && a.patch < b.patch)
  }

  /** Comparing the tuples is comparing field by field. */
  lemma TupleLessIsPrecedes(a: Version, b: Version)
    ensures TupleLess(AsTuple(a), AsTuple(b)) <==> Precedes(a, b)
  {
    var s, t := AsTuple(a), AsTuple(b);
    assert s[1..] == [a.minor, a.patch] && s[1..][1..] == [a.patch] && s[1..][1..][1..] == [];
    assert t[1..] == [b.minor, b.patch] && t[1..][1..] == [b.patch] && t[1..][1..][1..] == [];
    assert TupleLess([a.patch], [b.patch]) <==> a.patch < b.patch;
    assert TupleLess([a.minor, a.patch], [b.minor, b.patch])
      <==> a.minor < b.minor || (a.minor == b.minor && a.patch < b.patch);
  }

  /** `compare`: -1, 0 or 1 as `a` is below, equal to or above `b`. */
  function Compare(a: Version, b: Version): (r: int)
    ensures r == -1 || r == 0 || r == 1
    ensures r == -1 <==> Precedes(a, b)
    ensures r == 1 <==> Precedes(b, a)
    ensures r == 0 <==> a == b
  {
    TupleLessIsPrecedes(a, b);
    TupleLessIsPrecedes(b, a);
    (if TupleLess(AsTuple(b), AsTuple(a)) then 1 else 0)
      - (if TupleLess(AsTuple(a), AsTuple(b)) then 1 else 0)
  }

  function IsCompatible(a: Version, b: Version): bool { a.major == b.major }

  function Gt(a: Version, other: Operand): bool {
    if other.NotAVersion? then false else Compare(a, other.v) > 0
  }

  function Ge(a: Version, other: Operand): bool {
    if other.NotAVersion? then false else Compare(a, other.v) >= 0
  }

  function Lt(a: Version, other: Operand): bool {
    if other.NotAVersion? then false else Compare(a, other.v) < 0
  }

  function Le(a: Version, other: Operand): bool {
    if other.NotAVersion? then false else Compare(a, other.v) <= 0
  }

  function Eq(a: Version, other: Operand): bool {
    if other.NotAVersion? then false else Compare(a, other.v) == 0
  }

  function Ne(a: Version, other: Operand): bool {
    if other.NotAVersion? then false else Compare(a, other.v) != 0
  }

  /** `str(v)`: the three parts in decimal, joined by dots. */
  function ToString(v: Version): string
  {
    Decimal(v.major) + "." + Decimal(v.minor) + "." + Decimal(v.patch)
  }

  /** `from_args(major, minor, patch)`: the validators reject a negative part. */
  function FromArgs(major: int, minor: int, patch: int): (r: Result<Version>)
    ensures r.Ok? <==> major >= 0 && minor >= 0 && patch >= 0
    ensures r.Ok? ==> r.value.major == major && r.value.minor == minor && r.value.patch == patch
  {
    if major >= 0 && minor >= 0 && patch >= 0 then Ok(Version(major, minor, patch))
    else Err(ValueError)
  }

  /** `from_tuple((major, minor, patch))`: the version with exactly those parts, refused when
      one of them is negative. */
  function FromTuple(t: (int, int, int)): (r: Result<Version>)
    ensures r.Ok? <==> t.0 >= 0 && t.1 >= 0 && t.2 >= 0
    ensures r.Ok? ==> (r.value.major, r.value.minor, r.value.patch) == t
    ensures r.Err? ==> r.error == ValueError
  {
    FromArgs(t.0, t.1, t.2)
  }

  /** `map(int, parts)`, forced by the unpacking: one bad part fails the whole list. */
  function ParseParts(parts: seq<string>): (r: Option<seq<int>>)
    ensures r.Some? <==> forall i :: 0 <= i < |parts| ==> ParseInt(parts[i]).Some?
    ensures r.Some? ==> (|r.value| == |parts|
      && forall i :: 0 <= i < |parts| ==> r.value[i] == ParseInt(parts[i]).value)
  {
    if parts == [] then Some([])
    else match (ParseInt(parts[0]), ParseParts(parts[1..]))
      case (Some(n), Some(ns)) =>
        assert forall i :: 1 <= i < |parts| ==> parts[i] == parts[1..][i - 1];
        Some([n] + ns)
      case (_, _) =>
        assert forall i :: 0 <= i < |parts[1..]| ==> parts[1..][i] == parts[i + 1];
        None
  }

  /** The i-th argument `from_args` receives: the i-th part, or a padding 0. */
  function PartOr0(ns: seq<int>, i: nat): int { if i < |ns| then ns[i] else 0 }

  /** Every dot-separated part of `s` is an integer text. */
  predicate AllPartsParse(parts: seq<string>) {
    forall i :: 0 <= i < |parts| ==> ParseInt(parts[i]).Some?
  }

  /** The parts that become major, minor and patch are not negative. */
  predicate LeadingPartsNonNegative(parts: seq<string>)
    requires AllPartsParse(parts)
  {
    forall i :: 0 <= i < 3 && i < |parts| ==> ParseInt(parts[i]).value >= 0
  }

  /** `from_string`: split on ".", convert every part, pad with zeros, keep the first three. */
  function FromString(s: string): (r: Result<Version>)
    ensures r.Ok? <==> AllPartsParse(Split(s, '.')) && LeadingPartsNonNegative(Split(s, '.'))
    ensures r.Ok? ==>
      var parts := Split(s, '.');
      && (|parts| >= 1 ==> r.value.major == ParseInt(parts[0]).value)
      && r.value.minor == (if |parts| >= 2 then ParseInt(parts[1]).value else 0)
      && r.value.patch == (if |parts| >= 3 then ParseInt(parts[2]).value else 0)
  {
    var parts := Split(s, '.');
    var parsed := ParseParts(parts);
    if parsed.None? then
      Err(ValueError)
    else
      var ns := parsed.value;
      var args := ns + [0, 0, 0];
      assert args[0] == PartOr0(ns, 0) && args[1] == PartOr0(ns, 1) && args[2] == PartOr0(ns, 2);
      assert forall i :: 0 <= i < 3 && i < |parts| ==> ParseInt(parts[i]).value == args[i];
      FromArgs(args[0], args[1], args[2])
  }

  /** Lemmas */

  lemma CompareAntisymmetric(a: Version, b: Version)
    ensures Compare(a, b) == -Compare(b, a)
    ensures Compare(a, a) == 0
  {
  }

  lemma CompareTransitive(a: Version, b: Version, c: Version)
    requires Compare(a, b) < 0 && Compare(b, c) < 0
    ensures Compare(a, c) < 0
  {
  }

  /** For two Versions every operator agrees with the sign of `compare`, and `!=` negates `==`. */
  lemma OperatorsAgreeWithOrder(a: Version, b: Version)
    ensures Eq(a, Ver(b)) <==> a == b
    ensures Ne(a, Ver(b)) <==> !Eq(a, Ver(b))
    ensures Lt(a, Ver(b)) <==> Precedes(a, b)
    ensures Le(a, Ver(b)) <==> Precedes(a, b) || a == b
    ensures Gt(a, Ver(b)) <==> Precedes(b, a)
    ensures Ge(a, Ver(b)) <==> Precedes(b, a) || a == b
    ensures Lt(a, Ver(b)) <==> Gt(b, Ver(a))
  {
  }

  /** Against anything but a Version every operator, `!=` included, is false. */
  lemma OperatorsFalseOnOther(a: Version)
    ensures !Eq(a, NotAVersion) && !Ne(a, NotAVersion)
    ensures !Lt(a, NotAVersion) && !Le(a, NotAVersion)
    ensures !Gt(a, NotAVersion) && !Ge(a, NotAVersion)
  {
  }

  /** Versions of different majors are ordered by the major alone. */
  lemma IncompatibleOrderedByMajor(a: Version, b: Version)
    ensures !IsCompatible(a, b) ==> (Compare(a, b) < 0 <==> a.major < b.major)
    ensures IsCompatible(a, b) <==> IsCompatible(b, a)
  {
  }

  /** Printing then parsing gives the same Version back. */
  lemma {:induction false} StringRoundTrip(v: Version)
    ensures FromString(ToString(v)) == Ok(v)
  {
    var a, b, c := Decimal(v.major), Decimal(v.minor), Decimal(v.patch);
    DecimalHasNoDot(v.major);
    DecimalHasNoDot(v.minor);
    DecimalHasNoDot(v.patch);
    SplitThree(a, b, c);
    ParseDecimal(v.major);
    ParseDecimal(v.minor);
    ParseDecimal(v.patch);
    ThreePartsParse(ToString(v), a, b, c, v);
  }

  lemma DecimalHasNoDot(n: nat)
    ensures '.' !in Decimal(n)
  {
    var s := Decimal(n);
    assert forall i :: 0 <= i < |s| ==> IsDigit(s[i]);
  }

  lemma SplitThree(a: string, b: string, c: string)
    requires '.' !in a && '.' !in b && '.' !in c
    ensures Split(a + "." + b + "." + c, '.') == [a, b, c]
  {
    assert a + "." + b + "." + c == a + ['.'] + (b + ['.'] + c);
    SplitAtFirstSep(a, b + ['.'] + c, '.');
    SplitAtFirstSep(b, c, '.');
    SplitWithoutSep(c, '.');
  }

  /** A text of three parts that read as the three fields of v parses as v. */
  lemma ThreePartsParse(s: string, a: string, b: string, c: string, v: Version)
    requires Split(s, '.') == [a, b, c]
    requires ParseInt(a) == Some(v.major) && ParseInt(b) == Some(v.minor) && ParseInt(c) == Some(v.patch)
    ensures FromString(s) == Ok(v)
  {
    var parts := Split(s, '.');
    assert parts[0] == a && parts[1] == b && parts[2] == c;
  }

  lemma SplitFour(a: string, b: string, c: string, d: string)
    requires '.' !in a && '.' !in b && '.' !in c && '.' !in d
    ensures Split(a + "." + b + "." + c + "." + d, '.') == [a, b, c, d]
  {
    assert a + "." + b + "." + c + "." + d == a + ['.'] + (b + ['.'] + (c + ['.'] + d));
    SplitAtFirstSep(a, b + ['.'] + (c + ['.'] + d), '.');
    SplitAtFirstSep(b, c + ['.'] + d, '.');
    SplitAtFirstSep(c, d, '.');
    SplitWithoutSep(d, '.');
  }

  lemma DigitString(d: nat)
    requires d < 10
    ensures ParseInt([DigitChar(d)]) == Some(d)
    ensures ParseInt(['-', DigitChar(d)]) == Some(-(d as int))
  {
    var s := [DigitChar(d)];
    assert AllDigits(s);
    assert s[..0] == [];
    assert DigitsValue(s) == DigitsValue(s[..0]) * 10 + DigitValue(s[0]);
    assert ParseInt(s) == Some(DigitsValue(s));
    assert ['-', DigitChar(d)][1..] == s;
  }

  /** Missing parts are padded with 0. */
  lemma PaddingExample()
    ensures FromString("7") == Ok(Version(7, 0, 0))
    ensures FromString("") == Err(ValueError)
  {
    SplitWithoutSep("7", '.');
    DigitString(7);
    assert "7" == [DigitChar(7)];
    assert Split("", '.') == [""];
  }

  /** With four parts, all four must be integers but only the first three are used. */
  lemma FourParts(a: string, b: string, c: string, d: string)
    requires '.' !in a && '.' !in b && '.' !in c && '.' !in d
    ensures ParseInt(d).None? ==> FromString(a + "." + b + "." + c + "." + d).Err?
    ensures ParseInt(a).Some? && ParseInt(b).Some? && ParseInt(c).Some? && ParseInt(d).Some?
      && ParseInt(a).value >= 0 && ParseInt(b).value >= 0 && ParseInt(c).value >= 0
      ==> FromString(a + "." + b + "." + c + "." + d)
          == Ok(Version(ParseInt(a).value, ParseInt(b).value, ParseInt(c).value))
  {
    SplitFour(a, b, c, d);
    var parts := Split(a + "." + b + "." + c + "." + d, '.');
    assert parts[3] == d;
  }

  /** Every part is converted, so a non-integer fourth part is still rejected. */
  lemma IgnoredGarbageExample(text: string)
    requires text == "1.2.3.x"
    ensures FromString(text) == Err(ValueError)
  {
    assert text == "1" + "." + "2" + "." + "3" + "." + "x";
    assert ParseInt("x") == None by { assert !IsDigit('x'); }
    FourParts("1", "2", "3", "x");
  }

  /** A negative leading part is rejected. */
  lemma NegativePartExample()
    ensures FromString("1.-2") == Err(ValueError)
  {
    assert "1.-2" == "1" + ['.'] + "-2";
    SplitAtFirstSep("1", "-2", '.');
    SplitWithoutSep("-2", '.');
    DigitString(2);
    assert "-2" == ['-', DigitChar(2)];
    var parts := Split("1.-2", '.');
    assert parts[1] == "-2";
  }
}

=== FILE: vertical_split.dfy ===
/**
 * `VerticalSplitWidget.on_render` (src/snakia/core/tui/widgets/vertical_split.py): the
 * children's canvases stacked top to bottom, one splitter row between neighbours, as wide as
 * the widest child; the rest of a narrower child's band keeps the blank default.
 */
module VerticalSplits {
  import opened CanvasChars
  import opened Canvases

  /** The splitter used when none is given. */
  const DefaultSplitter := "-"

  /** The summed heights of the first n children. */
  function SumHeights(children: seq<Canvas>, n: nat): nat
    requires n <= |children|
  {
    if n == 0 then 0 else SumHeights(children, n - 1) + children[n - 1].height
  }

  /** The widest of the first n children. */
  function MaxWidth(children: seq<Canvas>, n: nat): (w: nat)
    requires 1 <= n <= |children|
    ensures forall i :: 0 <= i < n ==> children[i].width <= w
    ensures exists i :: 0 <= i < n && children[i].width == w
  {
    if n == 1 then children[0].width
    else
      var rest := MaxWidth(children, n - 1);
      if children[n - 1].width > rest then children[n - 1].width else rest
  }

  /** The height of the result: all children plus one splitter row between each two. */
  function TotalHeight(children: seq<Canvas>): nat
    requires children != []
  {
    SumHeights(children, |children|) + |children| - 1
  }

  /** The row where child i's band starts: the heights before it plus one splitter each. */
  function Offset(children: seq<Canvas>, i: nat): nat
    requires i <= |children|
  {
    SumHeights(children, i) + i
  }

  /** The row of child i's row dy. */
  function Row(children: seq<Canvas>, i: nat, dy: int): (Y: int)
    requires i < |children| && 0 <= dy < children[i].height
    ensures Offset(children, i) <= Y < SplitterRow(children, i)
  {
    Offset(children, i) + dy
  }

  /** The row just below child i's band, where the splitter after it goes. */
  function SplitterRow(children: seq<Canvas>, i: nat): nat
    requires i < |children|
  {
    Offset(children, i) + children[i].height
  }

  /** Bands and splitters come strictly top to bottom. */
  lemma {:induction false} OffsetsIncrease(children: seq<Canvas>, j: nat, i: nat)
    requires j < i <= |children|
    ensures SplitterRow(children, j) < Offset(children, i)
    decreases i - j
  {
    if i > j + 1 {
      OffsetsIncrease(children, j, i - 1);
    }
  }

  /** Every row of the result lies in the band of the returned child, or is the splitter row
      right below it, and no splitter follows the last child. */
  function BandOf(children: seq<Canvas>, Y: int, i: nat := 0): (b: nat)
    requires children != [] && i < |children| && Offset(children, i) <= Y < TotalHeight(children)
    ensures i <= b < |children| && Offset(children, b) <= Y <= SplitterRow(children, b)
    ensures Y == SplitterRow(children, b) ==> b < |children| - 1
    decreases |children| - i
  {
    if i == |children| - 1 || Y <= SplitterRow(children, i) then i
    else BandOf(children, Y, i + 1)
  }

  /** Every band ends inside the result, and every splitter row but the last child's lies
      inside it. */
  lemma SplittersFit(children: seq<Canvas>)
    requires children != []
    ensures forall i :: 0 <= i < |children| ==> SplitterRow(children, i) <= TotalHeight(children)
    ensures forall i :: 0 <= i < |children| - 1 ==> SplitterRow(children, i) < TotalHeight(children)
  {
    var n := |children|;
    forall i | 0 <= i < n
      ensures SplitterRow(children, i) <= TotalHeight(children)
      ensures i < n - 1 ==> SplitterRow(children, i) < TotalHeight(children)
    {
      OffsetsIncrease(children, i, n);
      if i < n - 1 {
        OffsetsIncrease(children, i, n - 1);
      }
    }
  }

  /** The bands do not overlap: a row lies in the band of at most one child. */
  lemma BandsDisjoint(children: seq<Canvas>, j: nat, i: nat, Y: int)
    requires j < i < |children|
    requires Offset(children, j) <= Y < SplitterRow(children, j)
    ensures !(Offset(children, i) <= Y <= SplitterRow(children, i))
  {
    OffsetsIncrease(children, j, i);
  }

  /** What child i shows at its column dx and row dy of the result: its own cell, or the
      blank default right of a child narrower than the widest. */
  function Band(child: Canvas, dx: int, dy: int): (c: CanvasChar)
    requires child.Valid() && 0 <= dx && 0 <= dy < child.height
    reads child
    ensures dx >= child.width ==> c == Blank
  {
    if dx < child.width then child.Get(dx, dy) else Blank
  }

  /** The result has the size the children call for, so every band and splitter fits. */
  ghost predicate Frame(result: Canvas, children: seq<Canvas>)
    reads result, children
  {
    && children != [] && result.Valid() && result !in children
    && (forall j :: 0 <= j < |children| ==> children[j].Valid())
    && result.width == MaxWidth(children, |children|) && result.height == TotalHeight(children)
    && (forall j :: 0 <= j < |children| ==> SplitterRow(children, j) <= result.height)
    && (forall j :: 0 <= j < |children| - 1 ==> SplitterRow(children, j) < result.height)
  }

  /** The first `bands` children and the first `splitters` splitter rows are in place. */
  ghost predicate Placed(result: Canvas, children: seq<Canvas>, bands: nat, splitters: nat, splitter: string)
    reads result, children
    requires Frame(result, children) && bands <= |children| && splitters < |children|
  {
    && (forall j, dx, dy :: 0 <= j < bands && 0 <= dx < result.width && 0 <= dy < children[j].height ==>
          result.Get(dx, Row(children, j, dy)) == Band(children[j], dx, dy))
    && (forall j, x :: 0 <= j < splitters && 0 <= x < result.width ==>
          result.Get(x, SplitterRow(children, j)) == Plain(splitter))
  }

  /** Every row from Y on still holds the blank default. */
  ghost predicate BlankFrom(result: Canvas, Y: int)
    reads result
    requires result.Valid()
  {
    forall X, Y' :: 0 <= X < result.width && 0 <= Y' && Y <= Y' < result.height ==> result.Get(X, Y') == Blank
  }

  /** The first half of one pass of the loop: `copy_from(canvas, 0, y_offset)` for child i. */
  method CopyChild(result: Canvas, children: seq<Canvas>, i: nat, splitter: string)
    requires Frame(result, children) && i < |children|
    requires Placed(result, children, i, i, splitter) && BlankFrom(result, Offset(children, i))
    modifies result
    ensures Frame(result, children)
    ensures Placed(result, children, i + 1, i, splitter) && BlankFrom(result, SplitterRow(children, i))
  {
    forall j | 0 <= j < i
      ensures SplitterRow(children, j) < Offset(children, i)
    {
      OffsetsIncrease(children, j, i);
    }
    var child := children[i];
    var yOffset := Offset(children, i);
    label before:
    result.CopyFrom(child, 0, yOffset);
    forall j, dx, dy | 0 <= j < i + 1 && 0 <= dx < result.width && 0 <= dy < children[j].height
      ensures result.Get(dx, Row(children, j, dy)) == Band(children[j], dx, dy)
    {
      var Y := Row(children, j, dy);
      if j == i && dx < child.width {
        assert Y - yOffset == dy;
      } else {
        assert result.Get(dx, Y) == old@before(result.Get(dx, Y));
      }
    }
    forall j, x | 0 <= j < i && 0 <= x < result.width
      ensures result.Get(x, SplitterRow(children, j)) == Plain(splitter)
    {
      var Y := SplitterRow(children, j);
      assert result.Get(x, Y) == old@before(result.Get(x, Y));
    }
    forall X, Y | 0 <= X < result.width && 0 <= Y && SplitterRow(children, i) <= Y < result.height
      ensures result.Get(X, Y) == Blank
    {
      assert result.Get(X, Y) == old@before(result.Get(X, Y));
    }
  }

  /** The second half of one pass, for every child but the last: the splitter row right below
      child i's band. */
  method PlaceSplitter(result: Canvas, children: seq<Canvas>, i: nat, splitter: string)
    requires Frame(result, children) && i < |children| - 1
    requires Placed(result, children, i + 1, i, splitter) && BlankFrom(result, SplitterRow(children, i))
    modifies result
    ensures Frame(result, children)
    ensures Placed(result, children, i + 1, i + 1, splitter) && BlankFrom(result, Offset(children, i + 1))
  {
    forall j | 0 <= j < i
      ensures SplitterRow(children, j) < SplitterRow(children, i)
    {
      OffsetsIncrease(children, j, i);
    }
    var Y := SplitterRow(children, i);
    label before:
    result.SetRow(Y, Plain(splitter));
    forall j, dx, dy | 0 <= j < i + 1 && 0 <= dx < result.width && 0 <= dy < children[j].height
      ensures result.Get(dx, Row(children, j, dy)) == Band(children[j], dx, dy)
    {
      var Y' := Row(children, j, dy);
      assert result.Get(dx, Y') == old@before(result.Get(dx, Y'));
    }
    forall j, x | 0 <= j < i && 0 <= x < result.width
      ensures result.Get(x, SplitterRow(children, j)) == Plain(splitter)
    {
      var Y' := SplitterRow(children, j);
      assert result.Get(x, Y') == old@before(result.Get(x, Y'));
    }
    forall X, Y' | 0 <= X < result.width && 0 <= Y' && Offset(children, i + 1) <= Y' < result.height
      ensures result.Get(X, Y') == Blank
    {
      assert result.Get(X, Y') == old@before(result.Get(X, Y'));
    }
  }

  /** The rendered split. */
  method RenderVerticalSplit(children: seq<Canvas>, splitter: string := DefaultSplitter) returns (result: Canvas)
    requires forall i :: 0 <= i < |children| ==> children[i].Valid()
    ensures fresh(result) && result.Valid()
    ensures children == [] ==> result.width == 0 && result.height == 0
    ensures children != [] ==> result.width == MaxWidth(children, |children|) && result.height == TotalHeight(children)
    ensures forall i :: 0 <= i < |children| ==> SplitterRow(children, i) <= result.height
    ensures forall i :: 0 <= i < |children| - 1 ==> SplitterRow(children, i) < result.height
    ensures forall i, dx, dy :: 0 <= i < |children| && 0 <= dx < result.width && 0 <= dy < children[i].height ==>
      result.Get(dx, Row(children, i, dy)) == if dx < children[i].width then children[i].Get(dx, dy) else Blank
    ensures forall i, x :: 0 <= i < |children| - 1 && 0 <= x < result.width ==>
      result.Get(x, SplitterRow(children, i)) == Plain(splitter)
  {
    if children == [] {
      result := new Canvas(0, 0, Blank);
      return;
    }
    var n := |children|;
    var width := MaxWidth(children, n);
    var height := TotalHeight(children);
    result := new Canvas(width, height, Blank);
    SplittersFit(children);
    var i := 0;
    while i < n - 1
      invariant 0 <= i < n && Frame(result, children) && fresh(result)
      invariant Placed(result, children, i, i, splitter) && BlankFrom(result, Offset(children, i))
    {
      CopyChild(result, children, i, splitter);
      PlaceSplitter(result, children, i, splitter);
      i := i + 1;
    }
    CopyChild(result, children, n - 1, splitter);
  }
}

=== FILE: wrappers.dfy ===
/** Failure-carrying result types shared by the whole model. */
module Wrappers {

  /** An optional value, the model of Python's `X | None`. */
  datatype Option<+T> = None | Some(value: T) {
    function GetOr(default: T): T {
      match this
      case Some(v) => v
      case None => default
    }
  }

  /** The kinds of exception the modelled code raises. */
  datatype Error =
    | ValueError      // a text that `int()` refuses, or a validator that rejects a value
    | KeyError        // a missing dictionary key
    | OverflowError   // `int.to_bytes` on a value that does not fit
    | CycleError      // the processor dependency graph has a cycle (networkx.NetworkXUnfeasible)
    | TypeError       // a call that lacks a required argument

  /** A value or the exception raised instead of returning it. */
  datatype Result<+T> = Ok(value: T) | Err(error: Error)
}
